=== FILE: README.md ===
# Gestão de Eventos: registration lifecycle and client rules

This project models the core of an event-management system (a Spring
server with a JavaFX client) and proves properties of the model.

## What is modelled

**Server state.** The server's store is one immutable value, `Entities.Store`. It holds one table per entity: events, registrations, waiting-list entries, certificates, users, notifications and venues. A table is a sequence of records in repository order. Each record carries its own id, and a fresh id is one above the largest in use.

**Operations.** Every service operation is a pure function. It takes the store and returns either an error or the new store together with the operation's result. Each Java exception the service throws becomes one variant of `Base.Error`.

**Supplied from outside.** The current time, the random UUIDs and the password encoder are parameters:
- time is an integer number of minutes, so "two hours after the start" is `+ 120`;
- a UUID is the 36-character canonical text `UUID.toString` produces (`Text.Uuid`).

**What the model covers.**
- *Events* (`EventoService`): create, update, publish and cancel an event; register a user for an event, or put them on the waiting list; promote the head of the waiting list; event statistics; search with optional filters.
- *Registrations* (`InscricaoService`): cancel a registration; manual and QR-token check-in; read the stored token; which registrations the DTO shows a token for.
- *Certificates*:
  - single and bulk issuance, the verification code, and lookup by code (`CertificadoService`);
  - the tier enum (`TipoCertificado`) and how the DTO derives the tier's description and level (`CertificadoDto`);
  - the controller's parsing of the tier parameter (`CertificadoController`).
- *Users and login* (`UtilizadorService`, `AuthService`): create, update, activate and delete users, with the store's NOT NULL and unique-email constraints; the order of the login checks.
- *Notifications* (`NotificacaoEntidade`, `NotificacaoDto`, `NotificacaoService`): the display-window rule; mark as read; the broadcast announcement.
- *Client*:
  - the session singleton (`UserSession`) and the classifier of registration outcomes (`InscricaoResultado`);
  - the month grid of the calendar view (`Calendario`), with its own `LocalDate` arithmetic and ISO day of the week;
  - the main window's role-based visibility and single highlighted navigation button (`MainController`).

`Lotacao` states the capacity invariant: an event's ATIVA registrations never outnumber its `maxParticipantes`. It proves that registration keeps the invariant and shows that cancellation, as written, can break it (see Findings).

Every source path below is relative to the repository root.

## Model

| member | source | states |
|---|---|---|
| Repositories.CountByEventoIdAndEstado | src/main/java/gestaoeventos/repository/InscricaoRepository.java:16 | the number of the event's registrations in a state never exceeds the number of the event's registrations |
| Repositories.FindByQrCodeCheckin | src/main/java/gestaoeventos/repository/InscricaoRepository.java:18 | finds a registration holding exactly this token, and finds nothing only when no registration holds it |
| Repositories.FindByEventoIdAndCheckInTrue | src/main/java/gestaoeventos/repository/InscricaoRepository.java:20 | contains exactly the checked-in registrations of the event, both directions |
| Repositories.ExistsByInscricaoId | src/main/java/gestaoeventos/repository/CertificadoRepository.java:25 | true iff some certificate is linked to the registration |
| Repositories.FindByCodigoVerificacao | src/main/java/gestaoeventos/repository/CertificadoRepository.java:20 | finds a certificate with this code, and finds nothing only when no certificate has it |
| Repositories.FindByEmail | src/main/java/gestaoeventos/repository/UtilizadorRepository.java:10 | finds a user with this email, and finds nothing only when no user has it |
| Repositories.FindFirstByEventoIdOrderByPosicaoAsc | src/main/java/gestaoeventos/service/EventoService.java:266-268 | nothing iff the event has no waiting-list entry; otherwise an entry of the event whose position is minimal among the event's entries (positions may repeat) |
| Repositories.TemInscricao | src/main/java/gestaoeventos/service/EventoService.java:214-216 | true iff the user has a registration for the event in any state; the waiting list is not consulted |
| Repositories.EventoDe | src/main/java/gestaoeventos/service/EventoService.java:72-73 | the event with the id when one exists, nothing otherwise |
| Repositories.InscricaoDe | src/main/java/gestaoeventos/service/InscricaoService.java:54-55 | the registration with the id when one exists, nothing otherwise |
| Repositories.ExisteUtilizador | src/main/java/gestaoeventos/service/UtilizadorService.java:177 | true iff a user with the number exists |
| EventoService.TokenIdRoundTrip | src/main/java/gestaoeventos/service/EventoService.java:247 | the registration id can be read back from its token `CHK-<id>-<uuid>` |
| EventoService.TokensDistintos | src/main/java/gestaoeventos/service/EventoService.java:284 | tokens of registrations with different ids differ, whatever UUIDs they drew |
| EventoService.Validade | src/main/java/gestaoeventos/service/EventoService.java:251-253 | a token's validity exists iff the event has a start, and is then exactly two hours after it |
| EventoService.NovaInscricaoCorreta | src/main/java/gestaoeventos/service/EventoService.java:238-253 | a created registration is ATIVA, not checked in, registered now, for that event and user, with the `CHK-` token and the two-hour validity |
| EventoService.ErroDados | src/main/java/gestaoeventos/service/EventoService.java:81-89 | the data are accepted iff the title is present and not blank, both dates are present, and the end is not before the start (equal dates are accepted); the errors are checked in that order |
| EventoService.Criar | src/main/java/gestaoeventos/service/EventoService.java:80-112 | errors, in order: invalid data, a missing creator number, an unknown creator, a null venue id (the lookup throws), an unknown venue; success iff none applies. A success appends one event under a fresh id, copies the data, and takes state RASCUNHO when none is given |
| EventoService.Atualizar | src/main/java/gestaoeventos/service/EventoService.java:117-156 | errors, in order: an unknown event, invalid data, a missing user number, an unknown user, a null venue id (the lookup throws), an unknown venue. A success replaces only that event, keeps its id, creator and removal reason, and keeps the old state when none is given |
| EventoService.Publicar | src/main/java/gestaoeventos/service/EventoService.java:161-173 | an unknown event, then an unknown author, fail; otherwise only that event changes, to PUBLICADO |
| EventoService.Cancelar | src/main/java/gestaoeventos/service/EventoService.java:178-191 | an unknown event, then an unknown author, fail; otherwise only that event changes, to CANCELADO with the given reason |
| EventoService.InscreverEmEvento | src/main/java/gestaoeventos/service/EventoService.java:198-260 | fails, in order: unknown event, not PUBLICADO, start before now, unknown user, any earlier registration. Otherwise a full event gets exactly one waiting-list entry at position "event's entries + 1" (result EVENTO_LOTADO_LISTA_ESPERA, no id, no token). A non-full event gets exactly one new ATIVA registration under a fresh id (result INSCRICAO_OK with its id and token). Nothing else changes |
| EventoService.PromoverDaListaEspera | src/main/java/gestaoeventos/service/EventoService.java:265-294 | no entry for the event: nothing changes. Otherwise an unknown event fails. Otherwise exactly the minimal-position entry is deleted and one new ATIVA registration is appended for its user, with no capacity or duplicate check |
| EventoService.ObterEstatisticas | src/main/java/gestaoeventos/service/EventoService.java:299-332 | fails iff the event is unknown. The totals are counts over the event's registrations; active + cancelled = total; check-ins ≤ total. Free places are given by `Vagas` over the event's capacity and active count. Certificates issued is always 0 |
| EventoService.Vagas | src/main/java/gestaoeventos/service/EventoService.java:313-314 | −1 without a capacity; otherwise at least 0 and at least capacity − active taken as a 32-bit `int`, and equal to one of the two |
| EventoService.VagasSemTransbordo | src/main/java/gestaoeventos/service/EventoService.java:313-314 | when capacity − active fits in an `int`, the free places are exactly max(0, capacity − active) |
| EventoService.VagasTransbordo | src/main/java/gestaoeventos/service/EventoService.java:314 | an event with capacity `Integer.MIN_VALUE` and one active registration reports 2147483647 free places, because the subtraction wraps around |
| EventoService.Pesquisar | src/main/java/gestaoeventos/service/EventoService.java:337-387 | contains exactly the events every given filter accepts, both directions; with no filter, every event |
| InscricaoService.ToDto | src/main/java/gestaoeventos/service/InscricaoService.java:140-157 | the token is shown iff the registration is ATIVA, not checked in and has a token; every other field is copied; the title is present iff the event exists |
| InscricaoService.CancelarInscricao | src/main/java/gestaoeventos/service/InscricaoService.java:53-66 | an unknown id fails. Otherwise the registration becomes CANCELADA whatever its state was, then promotion always runs for its event and decides the outcome. The returned DTO is the cancelled registration, without a token |
| InscricaoService.FazerCheckin | src/main/java/gestaoeventos/service/InscricaoService.java:71-83 | an unknown id, then an earlier check-in, fail; success iff neither applies. It then sets `checkIn` and `dataCheckin` of that registration only, whatever its state or token |
| InscricaoService.FazerCheckinPorToken | src/main/java/gestaoeventos/service/InscricaoService.java:116-136 | fails, in order: unknown token, expired token (strictly after the validity), an earlier check-in; success iff none applies. A success checks in that registration only, at now, and keeps its token |
| InscricaoService.TokenNaoReutilizavel | src/main/java/gestaoeventos/service/InscricaoService.java:122-129 | after a successful token check-in, any later use of the same token fails, as already checked in or as expired; at the same instant or earlier, always as already checked in |
| InscricaoService.ObterQrCodeToken | src/main/java/gestaoeventos/service/InscricaoService.java:102-111 | an unknown id fails; otherwise it returns the stored token, and fails iff the token is null or blank |
| Lotacao.InscreverPreservaLotacao | src/main/java/gestaoeventos/service/EventoService.java:222-244 | a successful registration keeps every event's ATIVA count within its capacity when it was within before |
| Lotacao.CancelarAtivaMantemContagem | src/main/java/gestaoeventos/service/InscricaoService.java:57-63 | cancelling an ATIVA registration while its event's waiting list is not empty leaves the event's ATIVA count unchanged |
| Lotacao.CancelarCanceladaAumenta | src/main/java/gestaoeventos/service/InscricaoService.java:57-63 | cancelling an already CANCELADA registration while the waiting list is not empty raises the event's ATIVA count by one |
| Lotacao.CancelarConta | src/main/java/gestaoeventos/service/InscricaoService.java:54-63 | after a cancellation the event's ATIVA count is the old count, minus one if the registration was ATIVA, plus one if the event's waiting list was not empty |
| Lotacao.CancelarDuasVezesExcedeLotacao | src/main/java/gestaoeventos/service/InscricaoService.java:57-63 | on a store that respects capacity (one place, taken, one cancelled registration, one waiting user), cancelling the cancelled registration again succeeds and leaves two ATIVA registrations, so capacity is exceeded |
| Lotacao.CancelarInscricaoCorrigida | src/main/java/gestaoeventos/service/InscricaoService.java:53-66 | the corrected cancellation: unknown id fails; an ATIVA registration behaves as the original; an already CANCELADA one is returned with the store unchanged and no promotion |
| Lotacao.CancelarCorrigidaPreservaLotacao | src/main/java/gestaoeventos/service/InscricaoService.java:53-66 | the corrected cancellation keeps every event's ATIVA count within its capacity when it was within before |
| Text.UuidDigits | src/main/java/gestaoeventos/service/CertificadoService.java:112 | removing the dashes of a UUID leaves its five digit groups, concatenated in order |
| CertificadoService.CodigoVerificacao | src/main/java/gestaoeventos/service/CertificadoService.java:111-113 | the code has 16 characters, each in `[0-9A-F]`, and is the upper-cased first 16 hexadecimal digits of the UUID |
| CertificadoService.TipoOuPresenca | src/main/java/gestaoeventos/service/CertificadoService.java:83 | the recorded tier is the supplied one, or PRESENCA when none is supplied |
| CertificadoService.EmitirCertificadoComTipo | src/main/java/gestaoeventos/service/CertificadoService.java:63-87 | fails, in order: an existing certificate for the registration (checked before the lookup), an unknown registration, no check-in, a code already in use. Otherwise exactly one certificate is appended, under a fresh id, with the tier, issuer, time and code. One-certificate-per-registration and unique codes are preserved |
| CertificadoService.EmitirCertificado | src/main/java/gestaoeventos/service/CertificadoService.java:55-57 | issues with no tier, so the certificate is PRESENCA |
| CertificadoService.SegundaEmissaoFalha | src/main/java/gestaoeventos/service/CertificadoService.java:66-68 | after a successful issuance, issuing again for the same registration fails with "already issued", and the first certificate stays as it was |
| CertificadoService.EmitirLista | src/main/java/gestaoeventos/service/CertificadoService.java:98-108 | the issuance loop only appends certificates: the rest of the store and the existing certificates are unchanged |
| CertificadoService.EmitirListaCobre | src/main/java/gestaoeventos/service/CertificadoService.java:98-108 | after the loop every registration it visited has a certificate |
| CertificadoService.EmitirListaNovos | src/main/java/gestaoeventos/service/CertificadoService.java:98-108 | each certificate the loop adds is for a visited registration that had none before, with the tier, issuer and time given |
| CertificadoService.EmitirListaInvariantes | src/main/java/gestaoeventos/service/CertificadoService.java:98-108 | the loop preserves one-certificate-per-registration and unique codes |
| CertificadoService.EmitirListaNada | src/main/java/gestaoeventos/service/CertificadoService.java:98-108 | when every visited registration already has a certificate, the loop changes nothing |
| CertificadoService.EmitirListaErro | src/main/java/gestaoeventos/service/CertificadoService.java:98-108 | the loop can fail only with a unique-column violation, raised when a drawn verification code is already in the table |
| CertificadoService.EmitirListaSucede | src/main/java/gestaoeventos/service/CertificadoService.java:98-108 | when the codes drawn for the visits are absent from the table and pairwise distinct, the loop succeeds |
| CertificadoService.EmitirCertificadosEmMassaComTipo | src/main/java/gestaoeventos/service/CertificadoService.java:95-109 | afterwards every checked-in registration of the event has a certificate, whatever its state. Each added certificate is for a checked-in registration of the event that had none, with the tier, or PRESENCA, the issuer and the time. Nothing else changes, and both certificate invariants are preserved. A failure is always the unique-column violation of a repeated verification code |
| CertificadoService.EmMassaSucede | src/main/java/gestaoeventos/service/CertificadoService.java:95-109 | bulk issuance succeeds when the codes drawn for the event's checked-in registrations are new to the table and pairwise distinct |
| CertificadoService.EmitirCertificadosEmMassa | src/main/java/gestaoeventos/service/CertificadoService.java:90-92 | bulk issuance with no tier, so every certificate is PRESENCA |
| CertificadoService.EmMassaIdempotente | src/main/java/gestaoeventos/service/CertificadoService.java:95-109 | running bulk issuance again right after a successful run changes nothing |
| CertificadoService.ObterPorCodigo | src/main/java/gestaoeventos/service/CertificadoService.java:45-49 | a certificate from the table with that code; fails with NotFound iff no certificate has it |
| TipoCertificado.Descricao | src/main/java/gestaoeventos/entity/TipoCertificado.java:14-18 | the description of each tier |
| TipoCertificado.NivelAutoridade | src/main/java/gestaoeventos/entity/TipoCertificado.java:40-42 | the authority level of each tier: PRESENCA 1, DOCENTE 2, ORGANIZADOR 2 |
| TipoCertificado.ValueOf | src/main/java/gestaoeventos/entity/TipoCertificado.java:12-18 | a tier whose name is exactly the string; none when no tier has that name |
| TipoCertificado.ValueOfName | src/main/java/gestaoeventos/entity/TipoCertificado.java:12-18 | reading back a tier's name gives the tier |
| TipoCertificado.NiveisOrdenados | src/main/java/gestaoeventos/entity/TipoCertificado.java:14-18 | PRESENCA ranks strictly below both other tiers, which tie, and no tier ranks below PRESENCA |
| CertificadoDto.Vazio | src/main/java/gestaoeventos/dto/CertificadoDTO.java:52-53 | the empty DTO has no tier, description or level, and is coherent |
| CertificadoDto.Novo | src/main/java/gestaoeventos/dto/CertificadoDTO.java:55-72 | the constructor copies its arguments. A tier fills in the matching description and level; no tier leaves both null |
| CertificadoDto.SetTipo | src/main/java/gestaoeventos/dto/CertificadoDTO.java:160-166 | sets the tier. A tier also makes description and level match it; a null tier leaves them as they were. No other field changes |
| CertificadoDto.SetTipoDescricao | src/main/java/gestaoeventos/dto/CertificadoDTO.java:172-174 | only the description changes |
| CertificadoDto.SetNivelAutoridade | src/main/java/gestaoeventos/dto/CertificadoDTO.java:180-182 | only the level changes |
| CertificadoDto.SetTipoDescricaoQuebraCoerencia | src/main/java/gestaoeventos/dto/CertificadoDTO.java:160-174 | a DTO made coherent by `setTipo` stops being coherent when the description is overwritten |
| CertificadoDto.SetTipoNuloMantemDerivados | src/main/java/gestaoeventos/dto/CertificadoDTO.java:160-166 | setting a tier and then clearing it leaves the first tier's description and level behind |
| CertificadoDto.DoCertificado | src/main/java/gestaoeventos/service/CertificadoService.java:115-128 | the service's DTO copies the certificate's fields, leaves the issuer's name null, and is coherent with the certificate's tier |
| CertificadoController.ParseTipo | src/main/java/gestaoeventos/controller/CertificadoController.java:43-50 | a null or empty string gives PRESENCA; an exact tier name gives that tier; any other string silently gives PRESENCA |
| CertificadoController.ParseTipoName | src/main/java/gestaoeventos/controller/CertificadoController.java:43-50 | every tier's name parses to that tier |
| CertificadoController.EmitirCertificado | src/main/java/gestaoeventos/controller/CertificadoController.java:37-55 | delegates to tiered issuance with the parsed tier and the issuer, so a created certificate carries both |
| CertificadoController.EmitirCertificadosEmMassa | src/main/java/gestaoeventos/controller/CertificadoController.java:57-74 | the same parse, then bulk issuance; every certificate created has the parsed tier |
| InscricaoResultado.ClassificacaoExclusiva | src/main/java/gestaoeventos/client/model/InscricaoResultado.java:49-55 | success and waitlisted are never both true; a null result or any other text is neither |
| InscricaoResultado.ClassificaInscricao | src/main/java/gestaoeventos/client/model/InscricaoResultado.java:49-55 | a successful server registration is classified as success iff the event was not full, and as waitlisted iff it was; a success carries a token |
| UtilizadorService.Criar | src/main/java/gestaoeventos/service/UtilizadorService.java:81-120 | fails, in order: a missing number, a missing or blank password, a number taken, an email taken, then a NOT NULL column missing at save. A success appends exactly one user, active unless the data say false, storing the encoded password. Number and email uniqueness are preserved |
| UtilizadorService.Gravar | src/main/java/gestaoeventos/entity/Utilizador.java:10-41 | a save succeeds iff the NOT NULL columns are filled and no other row has the email; it then replaces exactly that row |
| UtilizadorService.Atualizar | src/main/java/gestaoeventos/service/UtilizadorService.java:132-164 | an unknown number fails; other failures can only be constraint violations at save. Name, email, profile and active flag change only when supplied; the password is re-encoded only when supplied and not blank. Only that row changes, and uniqueness is preserved |
| UtilizadorService.AlterarEstadoAtivo | src/main/java/gestaoeventos/service/UtilizadorService.java:40-56 | fails iff the number is unknown; otherwise only that user's active flag changes |
| UtilizadorService.Apagar | src/main/java/gestaoeventos/service/UtilizadorService.java:176-188 | fails iff the number is unknown. Otherwise exactly one row goes, every user with another number stays, and under uniqueness the number no longer exists. A notification is kept iff it is addressed to someone else; the other tables do not change |
| UtilizadorService.ApagarMantemOutros | src/main/java/gestaoeventos/service/UtilizadorService.java:187 | deleting a row keeps every user with a different number and keeps the table's uniqueness |
| UtilizadorService.ApagarNotificacoes | src/main/java/gestaoeventos/entity/Utilizador.java:57-59 | the cascade on the user's notifications keeps a notification iff it was there and is addressed to another user |
| AuthService.Login | src/main/java/gestaoeventos/service/AuthService.java:22-40 | an unknown number gives "invalid credentials"; an inactive user gives "inactive" before the password is looked at; a wrong password gives "invalid credentials". Otherwise the response copies the user's number, name, email and profile |
| AuthService.LoginExigeAtivoECredenciais | src/main/java/gestaoeventos/service/AuthService.java:22-32 | whoever logs in exists, is active and supplied a matching password |
| NotificacaoEntidade.VisivelAgora | src/main/java/gestaoeventos/entity/Notificacao.java:129-138 | visible iff now is not before the start (when there is one) and not after the end (when there is one) |
| NotificacaoEntidade.IsVisivelAgora | src/main/java/gestaoeventos/entity/Notificacao.java:129-138 | always visible without bounds; not visible strictly before the start or strictly after the end; both bounds inclusive |
| NotificacaoEntidade.JanelaInvertidaNuncaVisivel | src/main/java/gestaoeventos/entity/Notificacao.java:131-137 | a window whose start is after its end is never visible |
| NotificacaoEntidade.Nova | src/main/java/gestaoeventos/entity/Notificacao.java:32-36 | a new notification is unread, created now, and visible at every instant |
| NotificacaoDto.IsVisivelAgora | src/main/java/gestaoeventos/dto/NotificacaoDTO.java:109-118 | always visible without bounds; not visible strictly before the start or strictly after the end |
| NotificacaoDto.ConcordaComEntidade | src/main/java/gestaoeventos/dto/NotificacaoDTO.java:109-118 | with the same bounds, the DTO's rule and the entity's rule agree at every instant |
| NotificacaoDto.DaEntidade | src/main/java/gestaoeventos/service/NotificacaoService.java:69-80 | the service's DTO copies the notification's fields but not its display bounds, so the DTO is visible at every instant |
| NotificacaoService.MarcarComoLida | src/main/java/gestaoeventos/service/NotificacaoService.java:36-42 | fails with NotFound iff the id is unknown; otherwise exactly that notification becomes read |
| NotificacaoService.MarcarComoLidaIdempotente | src/main/java/gestaoeventos/service/NotificacaoService.java:36-42 | marking as read a second time succeeds and changes nothing more |
| NotificacaoService.EnviarAnuncioBroadcast | src/main/java/gestaoeventos/service/NotificacaoService.java:47-67 | fails with a NOT NULL violation iff the content is null and some user is active. Otherwise it returns the number of active users and appends exactly that many notifications, one per active user in table order; with a null content that number is 0. Each is an unread SISTEMA ANUNCIO with the content; no recipient is inactive. Nothing else changes, and notification ids stay distinct |
| NotificacaoService.Anunciar | src/main/java/gestaoeventos/service/NotificacaoService.java:54-65 | the loop body saves, for each recipient in turn, one unread SISTEMA ANUNCIO with the content and a creation instant; the existing rows stay in front, and distinct notification ids stay distinct |
| NotificacaoService.AnunciosParaAtivos | src/main/java/gestaoeventos/service/NotificacaoService.java:49-55 | when the recipients are taken from the active users, every notification the loop adds is addressed to an active user |
| UserSession.GetInstance | src/main/java/gestaoeventos/client/model/UserSession.java:11-16 | the first call creates and stores an empty session; later calls return the stored one unchanged |
| UserSession.GetInstanceEstavel | src/main/java/gestaoeventos/client/model/UserSession.java:11-16 | calling `getInstance` again returns the same session and state |
| UserSession.Login | src/main/java/gestaoeventos/client/model/UserSession.java:18-20 | on a session value: afterwards its user is the one given |
| UserSession.Logout | src/main/java/gestaoeventos/client/model/UserSession.java:22-24 | on a session value: afterwards no user is logged in |
| UserSession.LoginLogout | src/main/java/gestaoeventos/client/model/UserSession.java:18-32 | after a login with a user, that user is logged in and returned; logging in with null is a logout; a logout after a login leaves nobody logged in |
| UserSession.LoginRt | src/main/java/gestaoeventos/client/model/UserSession.java:11-20 | `getInstance().login(user)` changes the shared session: every later `getInstance` returns a session whose user is the one given, logged in iff it is not null |
| UserSession.LogoutRt | src/main/java/gestaoeventos/client/model/UserSession.java:11-24 | `getInstance().logout()` changes the shared session: every later `getInstance` returns a session with nobody logged in |
| UserSession.SessaoPartilhada | src/main/java/gestaoeventos/client/model/UserSession.java:5-32 | after a login through the singleton, later `getInstance` calls see that user logged in; after a logout through it, nobody; a login with null through it is a logout |
| Calendario.SeguinteAnterior | src/main/java/gestaoeventos/client/controller/CalendarioController.java:121 | the day after and the day before are inverse operations on dates |
| Calendario.PlusDaysSoma | src/main/java/gestaoeventos/client/controller/CalendarioController.java:121 | adding `a` days then `b` days adds `a + b` days |
| Calendario.MinusPlusDays | src/main/java/gestaoeventos/client/controller/CalendarioController.java:121 | subtracting `n` days then adding `n` days gives the date back |
| Calendario.DiaDaSemanaSeguinte | src/main/java/gestaoeventos/client/controller/CalendarioController.java:117 | the day of the week advances by one, cyclically in 1..7, from each date to the next |
| Calendario.DiaDaSemanaEpoca | src/main/java/gestaoeventos/client/controller/CalendarioController.java:117 | 1 January 1970 is a Thursday (ISO day 4) |
| Calendario.StartOffset | src/main/java/gestaoeventos/client/controller/CalendarioController.java:116-118 | the offset of the 1st of the month is between 0 and 6 |
| Calendario.MesAnterior | src/main/java/gestaoeventos/client/controller/CalendarioController.java:219 | the previous month is exactly one month earlier, counting months from year 0 |
| Calendario.MesSeguinte | src/main/java/gestaoeventos/client/controller/CalendarioController.java:220 | the next month is exactly one month later |
| Calendario.NavegacaoInversa | src/main/java/gestaoeventos/client/controller/CalendarioController.java:219-220 | the previous month and the next month are inverse operations |
| Calendario.Grelha | src/main/java/gestaoeventos/client/controller/CalendarioController.java:120-126 | the grid has exactly 42 cells, and cell `i` shows the 1st minus the offset plus `i` days |
| Calendario.GrelhaPosicoes | src/main/java/gestaoeventos/client/controller/CalendarioController.java:125 | cell `i` is at column `i % 7` and row `i / 7`, inside 7×6, and no two cells share a position |
| Calendario.GrelhaConsecutiva | src/main/java/gestaoeventos/client/controller/CalendarioController.java:121 | each cell shows the day after the previous cell's |
| Calendario.BandaAnterior | src/main/java/gestaoeventos/client/controller/CalendarioController.java:121 | the cells before the offset show the last days of the previous month |
| Calendario.DesdeOPrimeiro | src/main/java/gestaoeventos/client/controller/CalendarioController.java:121 | from the offset on, cell `i` is `i − offset` days after the 1st, so the cell at the offset is the 1st |
| Calendario.BandaSeguinte | src/main/java/gestaoeventos/client/controller/CalendarioController.java:121 | the cells after the month show the first days of the next month |
| Calendario.DataDaCelulaBandas | src/main/java/gestaoeventos/client/controller/CalendarioController.java:121-122 | each cell's date, by band: tail of the previous month, the month itself, head of the next month |
| Calendario.DoMesSse | src/main/java/gestaoeventos/client/controller/CalendarioController.java:122 | a cell is flagged as current month iff its index lies in the month's band |
| Calendario.TodosOsDiasNaGrelha | src/main/java/gestaoeventos/client/controller/CalendarioController.java:116-126 | every day of the displayed month appears in the grid, flagged as current month |
| Calendario.GetEventosDoDia | src/main/java/gestaoeventos/client/controller/CalendarioController.java:169-173 | contains exactly the events with a start on that date, both directions; an event without a start is on no day |
| Calendario.EventosDoDiaOrdem | src/main/java/gestaoeventos/client/controller/CalendarioController.java:169-173 | the day's events keep the order of the event list |
| Calendario.Pontos | src/main/java/gestaoeventos/client/controller/CalendarioController.java:148-159 | a cell draws min(events, 5) dots, the first events' in order, each marked "mine" iff the event's id is among the user's |
| Calendario.MeusEventosIds | src/main/java/gestaoeventos/client/controller/CalendarioController.java:97-100 | an id is in the set iff some ATIVA registration of the user is for that event |
| MainController.Ordem | src/main/java/gestaoeventos/client/controller/MainController.java:161-162 | the place of each of the nine navigation buttons in the array `setActive` clears; only the separators and section labels are outside it |
| MainController.SetVisibilidade | src/main/java/gestaoeventos/client/controller/MainController.java:95-100 | `visible` and `managed` both take the value on that node alone; a null node changes nothing |
| MainController.AplicarMatriz | src/main/java/gestaoeventos/client/controller/MainController.java:73-92 | after the eight visibility calls, each controlled node is visible and managed exactly when the role may see it, and every other node is unchanged |
| MainController.SetupPermissions | src/main/java/gestaoeventos/client/controller/MainController.java:62-93 | nobody logged in: nothing changes. A null role fails. Otherwise the labels show the user's name and role. Staff section and check-in are visible iff ADMIN, GESTOR_EVENTOS or DOCENTE; the Docente panel iff DOCENTE or ADMIN; the Gestor panel iff GESTOR_EVENTOS or ADMIN; the admin section iff ADMIN. The other nodes are unchanged |
| MainController.RemoveFirst | src/main/java/gestaoeventos/client/controller/MainController.java:165 | `List.remove(Object)`: a list without the class is unchanged; otherwise exactly its first occurrence is deleted |
| MainController.RemoveFirstConta | src/main/java/gestaoeventos/client/controller/MainController.java:165 | removing a class lowers its count by one when present and leaves every other class's count unchanged |
| MainController.AposConta | src/main/java/gestaoeventos/client/controller/MainController.java:163-168 | per node: a navigation button loses one "active" if it had one, and the target gains one |
| MainController.ActivadoPreserva | src/main/java/gestaoeventos/client/controller/MainController.java:159-169 | highlighting changes no node's visibility, no count of any other class, and no node that is neither a navigation button nor the target |
| MainController.SoOAlvoAtivo | src/main/java/gestaoeventos/client/controller/MainController.java:159-169 | when each button had at most one "active", afterwards the target is the only navigation button carrying it, exactly once |
| MainController.LimparAteNo | src/main/java/gestaoeventos/client/controller/MainController.java:161-166 | after the first `i` turns of the clearing loop, exactly the first `i` buttons of the array have lost their first "active" |
| MainController.DestacarNo | src/main/java/gestaoeventos/client/controller/MainController.java:167-168 | adding "active" to the target after the clearing loop gives the node the highlight rule prescribes |
| MainController.SetActive | src/main/java/gestaoeventos/client/controller/MainController.java:159-169 | the loop and the final add give, node by node, the window the highlight rule prescribes; the node set and labels do not change |

## Left out

- **Audit log.** The audit records `registarLog` writes are not modelled: the log is write-only and no operation reads it back.
- **QR-code image URL.** `obterQrCodeUrl` and `QrCodeService` only URL-encode the token into an image address, so they are not modelled. The registration result therefore carries no URL.
- **Occupancy percentage.** `percentualOcupacao` is floating point and is not modelled.
- **Reads and mapping.** Listing and plain reads (`listarTodos`, `listarPor…`, `obterPorId`, `obterPorNumero`) are lookups with no logic beyond the queries above. They are not modelled separately. The event and user `toDTO` mappings are not modelled either.
- **Atomicity.** Every operation runs atomically and in sequence. The server's unlocked count-then-add and peek-then-promote races are not modelled.
- **Partial commit on cancel.** When promotion fails because the event has disappeared, `cancelarInscricao` has already saved the cancellation. Here the failure discards the whole step. In the stored data an existing registration always names an existing event, so this case does not arise.
- **Deleting a referenced user.** `apagar` is modelled as always succeeding for a known number. The foreign-key failure the database raises is not modelled. That failure comes from a user who created events, holds registrations or waiting-list entries, or wrote audit records. Certificates keep the issuer's number as a plain column, so they do not block the delete. The user's notifications are deleted with the user, through the cascade, and that is modelled.
- **Certificate DTO lookups.** `CertificadoService.toDTO` reaches the event and user through the registration. `CertificadoDto.DoCertificado` takes those looked-up values as parameters.
- **Search input parsing.** `pesquisar` parses its date and type strings with `LocalDateTime.parse` and `TipoEvento.valueOf`. The model takes the parsed values, so the two format errors are not modelled.
- **Login input.** In `AuthService.Login` a null password is passed to `matches` unchanged, and it is not modelled separately. The number's null case is modelled: `findById(null)` throws.
- **Missing window labels.** In `MainController.SetupPermissions` the two labels `lblUserName` and `lblUserRole` are assumed present. Other nodes may be missing, as a null FXML field.
- **Role label.** The label shows the role's `toString` text; the model stores the role itself.
- **Calendar event ids.** In `Calendario.EventoDto` the event id is a number that is never null.
- **Calendar dates.** Dates are year, month and day records, with the proleptic Gregorian calendar of `java.time`. The month label's formatting and the other JavaFX drawing are not modelled.
- **Client-server mismatches.** The client's HTTP services and the controllers other than `CertificadoController` are thin wrappers and are not modelled. So are the mismatches between them and the server: the bulk-issue URL, and the registration task's result type. On the server, `NotificacaoController` calls service methods that `NotificacaoService` does not declare: `listarAnunciosVisiveis`, `listarTodosAnuncios`, `atualizarAnuncio` and `apagar`, and a four-argument `enviarAnuncioBroadcast` with display bounds. `NotificacaoService.EnviarAnuncioBroadcast` follows the service's two-argument method, whose author argument is unused.
- **Java `int` width.** Ids, numbers, counts and waiting-list positions are unbounded integers. A table of 2^31 rows, where Java's counts and `(int)` casts would wrap, is not modelled. The one subtraction a stored value can make wrap, capacity minus active registrations in `obterEstatisticas`, is computed in 32 bits by `EventoService.Vagas`.
- **Column lengths.** The `length` bounds of the string columns, such as 500 characters for a notification's content, depend on the database and are not modelled. Only the NOT NULL and unique constraints are.
- UtilizadorService.Atualizar: a save failure is stated only as being one of the two constraint violations. Which one applies is given by `UtilizadorService.Gravar`, which `Atualizar` calls.

## Findings

| source | as written | input that shows it | evidently intended | confidence | as-written member | corrected member |
|---|---|---|---|---|---|---|
| src/main/java/gestaoeventos/service/InscricaoService.java:54-63 | `cancelarInscricao` sets CANCELADA whatever the state was and then always promotes the head of the waiting list | an event with capacity 1, one ATIVA registration, a second registration already CANCELADA, and one waiting user; cancel the CANCELADA registration again: promotion adds a second ATIVA registration | cancelling a registration that is already cancelled frees no place, so it should not promote anyone | not executed | Lotacao.CancelarDuasVezesExcedeLotacao | Lotacao.CancelarCorrigidaPreservaLotacao |

=== FILE: auth_service.dfy ===
/** `AuthService.login`: the decisions a login goes through, in order. The
    password check is the encoder's `matches`, a parameter. */
module AuthService {
  import opened Base
  import opened Entities
  import opened Repositories

  /** `LoginResponseDTO`. */
  datatype LoginResposta = LoginResposta(numero: int, nome: Option<string>, email: Option<string>, perfil: Option<Perfil>)

  /** An unknown number and a wrong password give the same error; an
      inactive account is reported as such before the password is looked
      at; a null number makes `findById` throw. */
  function Login(st: Store, numero: Option<int>, password: string, matches: (string, string) -> bool)
    : (r: Result<LoginResposta>)
    ensures numero.None? ==> r == Err(IdNulo)
    ensures numero.Some? && FindUtilizador(st.utilizadores, numero.value).None? ==> r == Err(CredenciaisInvalidas)
    ensures numero.Some? && FindUtilizador(st.utilizadores, numero.value).Some? ==>
      var u := st.utilizadores[FindUtilizador(st.utilizadores, numero.value).value];
      && (!u.ativo ==> r == Err(UtilizadorInativo))
      && (u.ativo && !matches(password, u.passwordHash) ==> r == Err(CredenciaisInvalidas))
      && (r.Ok? <==> u.ativo && matches(password, u.passwordHash))
      && (r.Ok? ==> r.value == LoginResposta(u.numero, u.nome, u.email, u.perfil))
  {
    if numero.None? then Err(IdNulo)
    else
      var k :- Need(FindUtilizador(st.utilizadores, numero.value), CredenciaisInvalidas);
      var u := st.utilizadores[k];
      if !u.ativo then Err(UtilizadorInativo)
      else if !matches(password, u.passwordHash) then Err(CredenciaisInvalidas)
      else Ok(LoginResposta(u.numero, u.nome, u.email, u.perfil))
  }

  /** A user who logs in is active and their password matches, whatever the
      encoder is. */
  lemma LoginExigeAtivoECredenciais(st: Store, numero: int, password: string, matches: (string, string) -> bool)
    requires Login(st, Some(numero), password, matches).Ok?
    ensures exists k :: 0 <= k < |st.utilizadores| && st.utilizadores[k].numero == numero
                        && st.utilizadores[k].ativo && matches(password, st.utilizadores[k].passwordHash)
  {
    var k := FindUtilizador(st.utilizadores, numero).value;
    assert st.utilizadores[k].numero == numero;
  }
}

=== FILE: base.dfy ===
/** Values shared by the whole model: nullable references, the outcome of a
    service call, and the exceptions the services raise. */
module Base {

  /** A Java reference that may be null. */
  datatype Option<+T> = None | Some(value: T) {

    function GetOr(default: T): T {
      match this
      case Some(v) => v
      case None => default
    }
  }

  /** The range of Java's `int`. */
  const INT_MIN: int := -0x8000_0000
  const INT_MAX: int := 0x7FFF_FFFF

  predicate IsInt32(x: int) {
    INT_MIN <= x <= INT_MAX
  }

  /** The two's-complement wrap-around Java applies to the result of `int`
      arithmetic: the one 32-bit value congruent to `x` modulo 2^32. */
  function Wrap32(x: int): (r: int)
    ensures IsInt32(r)
    ensures (x - r) % 0x1_0000_0000 == 0
    ensures IsInt32(x) ==> r == x
  {
    (x - INT_MIN) % 0x1_0000_0000 + INT_MIN
  }

  /** One constructor per exception the services throw. The comment on each
      group names the Java exception class. */
  datatype Error =
    // NotFoundException
    | EventoNaoEncontrado
    | InscricaoNaoEncontrada
    | TokenQrInvalido
    | CertificadoNaoEncontrado
    | UtilizadorNaoEncontrado
    | NotificacaoNaoEncontrada
    // BusinessException
    | TituloObrigatorio
    | DatasObrigatorias
    | FimAntesDoInicio
    | IdentificacaoObrigatoria
    | CriadorNaoEncontrado
    | LocalNaoEncontrado
    | AutorNaoEncontrado
    | UtilizadorInexistente
    | EventoNaoPublicado
    | EventoJaIniciado
    | JaInscrito
    | CheckinJaEfetuado
    | QrCodeExpirado
    | SemQrCode
    | CertificadoJaEmitido
    | SemCheckin
    | NumeroObrigatorio
    | PasswordObrigatoria
    | NumeroDuplicado
    | EmailDuplicado
    | CredenciaisInvalidas
    | UtilizadorInativo
    // IllegalArgumentException from a repository lookup by a null id
    | IdNulo
    // DataIntegrityViolationException from a unique column at save time
    | ViolacaoUnicidade
    // DataIntegrityViolationException from a NOT NULL column at save time
    | ViolacaoNaoNulo
  {
    /** True for the errors raised as NotFoundException. */
    predicate IsNotFound() {
      || EventoNaoEncontrado? || InscricaoNaoEncontrada? || TokenQrInvalido?
      || CertificadoNaoEncontrado? || UtilizadorNaoEncontrado? || NotificacaoNaoEncontrada?
    }
  }

  /** The outcome of a service call: a value, or the exception it throws. */
  datatype Result<+T> = Ok(value: T) | Err(error: Error) {

    predicate IsFailure() {
      Err?
    }

    function PropagateFailure<U>(): Result<U>
      requires Err?
    {
      Err(error)
    }

    function Extract(): T
      requires Ok?
    {
      value
    }
  }

  /** Turns an optional value into a result, failing with `e` when absent. */
  function Need<T>(o: Option<T>, e: Error): (r: Result<T>)
    ensures r.Ok? <==> o.Some?
    ensures r.Ok? ==> r.value == o.value
    ensures r.Err? ==> r.error == e
  {
    match o
    case Some(v) => Ok(v)
    case None => Err(e)
  }
}

=== FILE: calendario.dfy ===
/** The client's month calendar (`CalendarioController`): the proleptic
    Gregorian dates `LocalDate` works with, the 42-cell grid starting on a
    Monday, the events of one day, the dots a cell shows, the ids of the
    events the user holds an ATIVA registration for, and month navigation. */
module Calendario {
  import opened Base
  import opened Tables
  import opened Entities
  import InscricaoService

  // ---------------------------------------------------------------------
  // Dates

  /** Gregorian leap years, as `Year.isLeap`. */
  predicate Bissexto(ano: int) {
    ano % 4 == 0 && (ano % 100 != 0 || ano % 400 == 0)
  }

  function DiasNoMes(ano: int, mes: int): (n: int)
    requires 1 <= mes <= 12
    ensures 28 <= n <= 31
    ensures mes == 2 ==> (n == 29 <==> Bissexto(ano))
  {
    if mes == 2 then (if Bissexto(ano) then 29 else 28)
    else if mes == 4 || mes == 6 || mes == 9 || mes == 11 then 30
    else 31
  }

  datatype Data = Data(ano: int, mes: int, dia: int)

  /** `LocalDate`: a year, a month 1..12 and a day that month has. */
  type LocalDate = d: Data | 1 <= d.mes <= 12 && 1 <= d.dia <= DiasNoMes(d.ano, d.mes)
    witness Data(2000, 1, 1)

  /** `plusDays(1)`. */
  function Seguinte(d: LocalDate): (r: LocalDate)
    ensures d.dia < DiasNoMes(d.ano, d.mes) ==> r == Data(d.ano, d.mes, d.dia + 1)
  {
    if d.dia < DiasNoMes(d.ano, d.mes) then Data(d.ano, d.mes, d.dia + 1)
    else if d.mes < 12 then Data(d.ano, d.mes + 1, 1)
    else Data(d.ano + 1, 1, 1)
  }

  /** `minusDays(1)`. */
  function Anterior(d: LocalDate): (r: LocalDate)
    ensures d.dia > 1 ==> r == Data(d.ano, d.mes, d.dia - 1)
  {
    if d.dia > 1 then Data(d.ano, d.mes, d.dia - 1)
    else if d.mes > 1 then Data(d.ano, d.mes - 1, DiasNoMes(d.ano, d.mes - 1))
    else Data(d.ano - 1, 12, 31)
  }

  /** The next day and the previous day undo each other. */
  lemma SeguinteAnterior(d: LocalDate)
    ensures Anterior(Seguinte(d)) == d
    ensures Seguinte(Anterior(d)) == d
  {
  }

  /** `plusDays(n)`. */
  function PlusDays(d: LocalDate, n: nat): (r: LocalDate)
    decreases n
  {
    if n == 0 then d else PlusDays(Seguinte(d), n - 1)
  }

  /** `minusDays(n)`. */
  function MinusDays(d: LocalDate, n: nat): (r: LocalDate)
    decreases n
  {
    if n == 0 then d else MinusDays(Anterior(d), n - 1)
  }

  lemma {:induction false} PlusDaysSoma(d: LocalDate, a: nat, b: nat)
    ensures PlusDays(PlusDays(d, a), b) == PlusDays(d, a + b)
    decreases a
  {
    if a > 0 {
      PlusDaysSoma(Seguinte(d), a - 1, b);
    }
  }

  /** Going back `n` days and then forward `n` days is the identity. */
  lemma {:induction false} MinusPlusDays(d: LocalDate, n: nat)
    ensures PlusDays(MinusDays(d, n), n) == d
    decreases n
  {
    if n > 0 {
      var x := MinusDays(Anterior(d), n - 1);
      MinusPlusDays(Anterior(d), n - 1);
      PlusDaysSoma(x, n - 1, 1);
      SeguinteAnterior(d);
    }
  }

  /** Inside one month, adding days adds to the day of the month. */
  lemma {:induction false} PlusDaysNoMes(d: LocalDate, n: nat)
    requires d.dia + n <= DiasNoMes(d.ano, d.mes)
    ensures PlusDays(d, n) == Data(d.ano, d.mes, d.dia + n)
    decreases n
  {
    if n > 0 {
      PlusDaysNoMes(Seguinte(d), n - 1);
    }
  }

  lemma {:induction false} MinusDaysNoMes(d: LocalDate, n: nat)
    requires n < d.dia
    ensures MinusDays(d, n) == Data(d.ano, d.mes, d.dia - n)
    decreases n
  {
    if n > 0 {
      MinusDaysNoMes(Anterior(d), n - 1);
    }
  }

  /** Zeller's sum for a day of month `q` in shifted month `m` (3..14,
      January and February being months 13 and 14 of the year before) of
      shifted year `y`; its remainder by 7 is 0 on Saturdays. */
  function Zeller(q: int, m: int, y: int): int {
    q + (13 * (m + 1)) / 5 + y + y / 4 - y / 100 + y / 400
  }

  /** The ISO weekday, 1 for Monday through 7 for Sunday, of a Zeller sum. */
  function Iso(h: int): (r: int)
    ensures 1 <= r <= 7
  {
    (h % 7 + 5) % 7 + 1
  }

  lemma IsoAvanca(h: int, t: int)
    ensures Iso(h + 1 + 7 * t) == Iso(h) % 7 + 1
  {
    var a := h % 7;
    assert h == 7 * (h / 7) + a;
    assert h + 1 + 7 * t == 7 * (h / 7 + t) + a + 1;
    if a < 6 {
      assert (h + 1 + 7 * t) % 7 == a + 1;
    } else {
      assert h + 1 + 7 * t == 7 * (h / 7 + t + 1);
      assert (h + 1 + 7 * t) % 7 == 0;
    }
  }

  /** `getDayOfWeek().getValue()` by Zeller's congruence. */
  function DiaDaSemana(d: LocalDate): (r: int)
    ensures 1 <= r <= 7
  {
    if d.mes < 3 then Iso(Zeller(d.dia, d.mes + 12, d.ano - 1))
    else Iso(Zeller(d.dia, d.mes, d.ano))
  }

  lemma DivSucessor(a: int)
    ensures (a + 1) / 4 - a / 4 == (if (a + 1) % 4 == 0 then 1 else 0)
    ensures (a + 1) / 100 - a / 100 == (if (a + 1) % 100 == 0 then 1 else 0)
    ensures (a + 1) / 400 - a / 400 == (if (a + 1) % 400 == 0 then 1 else 0)
  {
  }

  /** From the last day of a month of 30 or 31 days between March and
      November to the 1st of the next, Zeller's sum changes by -27. */
  lemma ZellerFimDeMes(ano: int, mes: int)
    requires 3 <= mes <= 11
    ensures Zeller(1, mes + 1, ano) == Zeller(DiasNoMes(ano, mes), mes, ano) - 27
  {
    if mes == 3 {} else if mes == 4 {} else if mes == 5 {} else if mes == 6 {}
    else if mes == 7 {} else if mes == 8 {} else if mes == 9 {} else if mes == 10 {}
  }

  /** From the last day of February to 1 March, across the shifted year
      and whether or not it is a leap year, Zeller's sum changes by -55. */
  lemma ZellerFimDeFevereiro(ano: int)
    ensures Zeller(1, 3, ano) == Zeller(DiasNoMes(ano, 2), 14, ano - 1) - 55
  {
    DivSucessor(ano - 1);
  }

  /** Within a month, the next day adds one to Zeller's sum. */
  lemma ZellerDia(q: int, m: int, y: int)
    ensures Zeller(q + 1, m, y) == Zeller(q, m, y) + 1
  {
    var resto := (13 * (m + 1)) / 5 + y + y / 4 - y / 100 + y / 400;
    assert Zeller(q, m, y) == q + resto;
  }

  lemma SemanaNoMes(d: LocalDate)
    requires d.dia < DiasNoMes(d.ano, d.mes)
    ensures DiaDaSemana(Seguinte(d)) == DiaDaSemana(d) % 7 + 1
  {
    var m := if d.mes < 3 then d.mes + 12 else d.mes;
    var y := if d.mes < 3 then d.ano - 1 else d.ano;
    var h := Zeller(d.dia, m, y);
    assert Seguinte(d) == Data(d.ano, d.mes, d.dia + 1);
    assert DiaDaSemana(d) == Iso(h);
    ZellerDia(d.dia, m, y);
    assert DiaDaSemana(Seguinte(d)) == Iso(h + 1);
    IsoAvanca(h, 0);
  }

  lemma SemanaFimDeFevereiro(d: LocalDate)
    requires d.mes == 2 && d.dia == DiasNoMes(d.ano, 2)
    ensures DiaDaSemana(Seguinte(d)) == DiaDaSemana(d) % 7 + 1
  {
    ZellerFimDeFevereiro(d.ano);
    IsoAvanca(Zeller(d.dia, 14, d.ano - 1), -8);
  }

  lemma SemanaFimDeJaneiro(d: LocalDate)
    requires d.mes == 1 && d.dia == 31
    ensures DiaDaSemana(Seguinte(d)) == DiaDaSemana(d) % 7 + 1
  {
    assert Zeller(1, 14, d.ano - 1) == Zeller(31, 13, d.ano - 1) - 27;
    IsoAvanca(Zeller(31, 13, d.ano - 1), -4);
  }

  lemma SemanaFimDeAno(d: LocalDate)
    requires d.mes == 12 && d.dia == 31
    ensures DiaDaSemana(Seguinte(d)) == DiaDaSemana(d) % 7 + 1
  {
    assert Zeller(1, 13, d.ano) == Zeller(31, 12, d.ano) - 27;
    IsoAvanca(Zeller(31, 12, d.ano), -4);
  }

  lemma SemanaFimDeMes(d: LocalDate)
    requires 3 <= d.mes <= 11 && d.dia == DiasNoMes(d.ano, d.mes)
    ensures DiaDaSemana(Seguinte(d)) == DiaDaSemana(d) % 7 + 1
  {
    ZellerFimDeMes(d.ano, d.mes);
    assert Seguinte(d) == Data(d.ano, d.mes + 1, 1);
    IsoAvanca(Zeller(d.dia, d.mes, d.ano), -4);
  }

  /** The weekday advances by one with every day, across months and
      years. */
  lemma DiaDaSemanaSeguinte(d: LocalDate)
    ensures DiaDaSemana(Seguinte(d)) == DiaDaSemana(d) % 7 + 1
  {
    if d.dia < DiasNoMes(d.ano, d.mes) {
      SemanaNoMes(d);
    } else if d.mes == 2 {
      SemanaFimDeFevereiro(d);
    } else if d.mes == 1 {
      SemanaFimDeJaneiro(d);
    } else if d.mes == 12 {
      SemanaFimDeAno(d);
    } else {
      SemanaFimDeMes(d);
    }
  }

  /** 1 January 1970 was a Thursday. */
  lemma DiaDaSemanaEpoca()
    ensures DiaDaSemana(Data(1970, 1, 1)) == 4
  {
  }

  // ---------------------------------------------------------------------
  // The displayed month and its grid

  datatype AnoMes = AnoMes(ano: int, mes: int)

  /** `YearMonth`. */
  type YearMonth = ym: AnoMes | 1 <= ym.mes <= 12 witness AnoMes(2000, 1)

  function Primeiro(ym: YearMonth): (r: LocalDate)
    ensures r.ano == ym.ano && r.mes == ym.mes && r.dia == 1
  {
    Data(ym.ano, ym.mes, 1)
  }

  function Comprimento(ym: YearMonth): (n: int)
    ensures 28 <= n <= 31
  {
    DiasNoMes(ym.ano, ym.mes)
  }

  /** `minusMonths(1)`: the month before, counting months from year 0. */
  function MesAnterior(ym: YearMonth): (r: YearMonth)
    ensures 12 * r.ano + r.mes == 12 * ym.ano + ym.mes - 1
  {
    if ym.mes == 1 then AnoMes(ym.ano - 1, 12) else AnoMes(ym.ano, ym.mes - 1)
  }

  /** `plusMonths(1)`. */
  function MesSeguinte(ym: YearMonth): (r: YearMonth)
    ensures 12 * r.ano + r.mes == 12 * ym.ano + ym.mes + 1
  {
    if ym.mes == 12 then AnoMes(ym.ano + 1, 1) else AnoMes(ym.ano, ym.mes + 1)
  }

  /** `mesAnterior` and `mesSeguinte` undo each other. */
  lemma NavegacaoInversa(ym: YearMonth)
    ensures MesAnterior(MesSeguinte(ym)) == ym
    ensures MesSeguinte(MesAnterior(ym)) == ym
  {
  }

  /** `startOffset`: the number of cells before the 1st so that the grid
      starts on a Monday. */
  function StartOffset(ym: YearMonth): (r: int)
    ensures 0 <= r <= 6
  {
    DiaDaSemana(Primeiro(ym)) - 1
  }

  /** The date of cell `i`: the 1st, `startOffset` days back, `i` days
      forward. */
  function DataDaCelula(ym: YearMonth, i: nat): LocalDate {
    PlusDays(MinusDays(Primeiro(ym), StartOffset(ym)), i)
  }

  /** One grid cell: its date, the `isCurrentMonth` flag, and the column
      and row it is added at. */
  datatype Celula = Celula(data: LocalDate, doMes: bool, coluna: nat, linha: nat)

  /** `desenharCalendario`'s 42 cells. `isCurrentMonth` compares the month
      only, not the year. */
  function Grelha(ym: YearMonth): (g: seq<Celula>)
    ensures |g| == 42
    ensures forall i :: 0 <= i < 42 ==> g[i].data == DataDaCelula(ym, i)
  {
    seq(42, (i: int) requires 0 <= i < 42 =>
      Celula(DataDaCelula(ym, i), DataDaCelula(ym, i).mes == ym.mes, i % 7, i / 7))
  }

  /** The cells fill a 7-by-6 grid, row by row, each position once. */
  lemma GrelhaPosicoes(ym: YearMonth)
    ensures forall i :: 0 <= i < 42 ==>
      Grelha(ym)[i].coluna < 7 && Grelha(ym)[i].linha < 6 && 7 * Grelha(ym)[i].linha + Grelha(ym)[i].coluna == i
    ensures forall i, j :: 0 <= i < j < 42 ==>
      (Grelha(ym)[i].coluna, Grelha(ym)[i].linha) != (Grelha(ym)[j].coluna, Grelha(ym)[j].linha)
  {
  }

  /** Consecutive cells hold consecutive days. */
  lemma {:induction false} GrelhaConsecutiva(ym: YearMonth, i: nat)
    requires i + 1 < 42
    ensures Grelha(ym)[i + 1].data == Seguinte(Grelha(ym)[i].data)
  {
    var d0 := MinusDays(Primeiro(ym), StartOffset(ym));
    PlusDaysSoma(d0, i, 1);
  }

  /** The cells before `startOffset` hold the tail of the month before. */
  lemma {:induction false} BandaAnterior(ym: YearMonth, i: nat)
    requires i < StartOffset(ym)
    ensures var ant := MesAnterior(ym);
            DataDaCelula(ym, i) == Data(ant.ano, ant.mes, Comprimento(ant) - StartOffset(ym) + 1 + i)
  {
    AntesDoMes(ym, StartOffset(ym), i);
  }

  /** Going back `off <= 6` days from the 1st and then `i < off` forward
      lands in the month before. */
  lemma AntesDoMes(ym: YearMonth, off: nat, i: nat)
    requires i < off <= 6
    ensures var ant := MesAnterior(ym);
            PlusDays(MinusDays(Primeiro(ym), off), i) == Data(ant.ano, ant.mes, Comprimento(ant) - off + 1 + i)
  {
    var ant := MesAnterior(ym);
    var ultimo: LocalDate := Data(ant.ano, ant.mes, Comprimento(ant));
    assert Anterior(Primeiro(ym)) == ultimo;
    MinusDaysNoMes(ultimo, off - 1);
    var d0 := MinusDays(Primeiro(ym), off);
    assert d0 == Data(ant.ano, ant.mes, Comprimento(ant) - off + 1);
    PlusDaysNoMes(d0, i);
  }

  /** From `startOffset` on, cell `i` is `i - startOffset` days after the
      1st. */
  lemma {:induction false} DesdeOPrimeiro(ym: YearMonth, i: nat)
    requires StartOffset(ym) <= i
    ensures DataDaCelula(ym, i) == PlusDays(Primeiro(ym), i - StartOffset(ym))
  {
    RecuarEAvancar(Primeiro(ym), StartOffset(ym), i);
  }

  /** Going `off` days back and then `i >= off` days forward is going
      `i - off` days forward. */
  lemma RecuarEAvancar(d: LocalDate, off: nat, i: nat)
    requires off <= i
    ensures PlusDays(MinusDays(d, off), i) == PlusDays(d, i - off)
  {
    PlusDaysSoma(MinusDays(d, off), off, i - off);
    MinusPlusDays(d, off);
  }

  /** The cells after the month hold the head of the month after. */
  lemma {:induction false} BandaSeguinte(ym: YearMonth, i: nat)
    requires StartOffset(ym) + Comprimento(ym) <= i < 42
    ensures var seg := MesSeguinte(ym);
            DataDaCelula(ym, i) == Data(seg.ano, seg.mes, i - StartOffset(ym) - Comprimento(ym) + 1)
  {
    DepoisDoMes(ym, StartOffset(ym), i);
  }

  /** Going back `off` days from the 1st and then forward past the month's
      end, by less than 28 days more, lands in the month after. */
  lemma DepoisDoMes(ym: YearMonth, off: nat, i: nat)
    requires off + Comprimento(ym) <= i < off + Comprimento(ym) + 28
    ensures var seg := MesSeguinte(ym);
            PlusDays(MinusDays(Primeiro(ym), off), i) == Data(seg.ano, seg.mes, i - off - Comprimento(ym) + 1)
  {
    var len := Comprimento(ym);
    var p := Primeiro(ym);
    var seg := MesSeguinte(ym);
    var r := i - off - len;
    RecuarEAvancar(p, off, i);
    PlusDaysSoma(p, len - 1, 1 + r);
    PlusDaysNoMes(p, len - 1);
    var ultimo: LocalDate := Data(ym.ano, ym.mes, len);
    var primeiroSeg: LocalDate := Data(seg.ano, seg.mes, 1);
    assert PlusDays(ultimo, 1 + r) == PlusDays(primeiroSeg, r);
    PlusDaysNoMes(primeiroSeg, r);
  }

  /** The date in cell `i`, by the three bands the grid shows: the tail of
      the month before, the month itself, the head of the month after. */
  lemma DataDaCelulaBandas(ym: YearMonth, i: nat)
    requires i < 42
    ensures var off := StartOffset(ym);
            var len := Comprimento(ym);
            var ant := MesAnterior(ym);
            var seg := MesSeguinte(ym);
      && (i < off ==> DataDaCelula(ym, i) == Data(ant.ano, ant.mes, Comprimento(ant) - off + 1 + i))
      && (off <= i < off + len ==> DataDaCelula(ym, i) == Data(ym.ano, ym.mes, i - off + 1))
      && (off + len <= i ==> DataDaCelula(ym, i) == Data(seg.ano, seg.mes, i - off - len + 1))
  {
    var off := StartOffset(ym);
    if i < off {
      BandaAnterior(ym, i);
    } else if i < off + Comprimento(ym) {
      DesdeOPrimeiro(ym, i);
      PlusDaysNoMes(Primeiro(ym), i - off);
    } else {
      BandaSeguinte(ym, i);
    }
  }

  /** `isCurrentMonth` holds exactly for the cells from `startOffset` on,
      one per day of the month. */
  lemma DoMesSse(ym: YearMonth, i: nat)
    requires i < 42
    ensures Grelha(ym)[i].doMes <==> StartOffset(ym) <= i < StartOffset(ym) + Comprimento(ym)
  {
    DataDaCelulaBandas(ym, i);
  }

  /** Every day of the displayed month has its cell: day `k` is in cell
      `startOffset + k - 1`, which is inside the grid. */
  lemma TodosOsDiasNaGrelha(ym: YearMonth, k: int)
    requires 1 <= k <= Comprimento(ym)
    ensures StartOffset(ym) + k - 1 < 42
    ensures Grelha(ym)[StartOffset(ym) + k - 1].data == Data(ym.ano, ym.mes, k)
    ensures Grelha(ym)[StartOffset(ym) + k - 1].doMes
  {
    DataDaCelulaBandas(ym, StartOffset(ym) + k - 1);
  }

  // ---------------------------------------------------------------------
  // Events of a day and the user's events

  /** `LocalDateTime`: a date and the minute of that day. */
  datatype DataHora = DataHora(data: LocalDate, minuto: int)

  /** The fields of `EventoDTO` the calendar reads. */
  datatype EventoDto = EventoDto(id: nat, titulo: Option<string>, dataInicio: Option<DataHora>)

  function ComecaEm(date: LocalDate): EventoDto -> bool {
    (e: EventoDto) => e.dataInicio.Some? && e.dataInicio.value.data == date
  }

  /** `getEventosDoDia`: the events with a start on that date, in list
      order; an event without a start is on no day. */
  function GetEventosDoDia(todos: seq<EventoDto>, date: LocalDate): (r: seq<EventoDto>)
    ensures forall k :: 0 <= k < |r| ==> r[k] in todos && r[k].dataInicio.Some? && r[k].dataInicio.value.data == date
    ensures forall k :: 0 <= k < |todos| && todos[k].dataInicio.Some? && todos[k].dataInicio.value.data == date ==>
      todos[k] in r
  {
    Filter(todos, ComecaEm(date))
  }

  /** The events of a day keep the order of the full list. */
  lemma EventosDoDiaOrdem(a: seq<EventoDto>, b: seq<EventoDto>, date: LocalDate)
    ensures GetEventosDoDia(a + b, date) == GetEventosDoDia(a, date) + GetEventosDoDia(b, date)
  {
    FilterConcat(a, b, ComecaEm(date));
  }

  /** The dots of one cell, `true` for an event the user is registered for:
      one per event of the day, stopping once there are five. */
  method Pontos(eventosDoDia: seq<EventoDto>, meus: set<nat>) returns (dots: seq<bool>)
    ensures |dots| == if |eventosDoDia| < 5 then |eventosDoDia| else 5
    ensures forall j :: 0 <= j < |dots| ==> dots[j] == (eventosDoDia[j].id in meus)
  {
    dots := [];
    var i := 0;
    while i < |eventosDoDia|
      invariant 0 <= i <= |eventosDoDia| && i < 5
      invariant |dots| == i
      invariant forall j :: 0 <= j < i ==> dots[j] == (eventosDoDia[j].id in meus)
    {
      dots := dots + [eventosDoDia[i].id in meus];
      i := i + 1;
      if |dots| >= 5 {
        break;
      }
    }
  }

  /** `meusEventosIds`: the events of the user's ATIVA registrations. */
  function MeusEventosIds(inscricoes: seq<InscricaoService.InscricaoDto>): (r: set<nat>)
    ensures forall x :: x in r <==>
      exists j :: 0 <= j < |inscricoes| && inscricoes[j].estado == ATIVA && inscricoes[j].eventoId == x
    decreases |inscricoes|
  {
    if |inscricoes| == 0 then {}
    else
      var n := |inscricoes| - 1;
      var resto := MeusEventosIds(inscricoes[..n]);
      assert forall j :: 0 <= j < n ==> inscricoes[..n][j] == inscricoes[j];
      if inscricoes[n].estado == ATIVA then resto + {inscricoes[n].eventoId} else resto
  }
}

=== FILE: certificado_controller.dfy ===
/** `CertificadoController`: the two issuing endpoints, which turn the
    optional tier parameter into a tier before calling the service. */
module CertificadoController {
  import opened Base
  import opened Text
  import opened Entities
  import TipoCertificado
  import CertificadoService

  /** The tier parameter as both endpoints read it: PRESENCA unless the
      text is exactly one of the tier names. An unknown name is not an
      error. */
  function ParseTipo(tipo: Option<string>): (t: TipoCertificado.Tipo)
    ensures (tipo.None? || tipo.value == "") ==> t == TipoCertificado.PRESENCA
    ensures tipo.Some? && TipoCertificado.ValueOf(tipo.value).Some? ==> t == TipoCertificado.ValueOf(tipo.value).value
    ensures tipo.Some? && TipoCertificado.ValueOf(tipo.value).None? ==> t == TipoCertificado.PRESENCA
    ensures t != TipoCertificado.PRESENCA ==> tipo == Some(TipoCertificado.Name(t))
  {
    if tipo.None? || |tipo.value| == 0 then TipoCertificado.PRESENCA
    else match TipoCertificado.ValueOf(tipo.value)
         case Some(t) => t
         case None => TipoCertificado.PRESENCA
  }

  /** Every tier's name parses back to that tier. */
  lemma ParseTipoName(t: TipoCertificado.Tipo)
    ensures ParseTipo(Some(TipoCertificado.Name(t))) == t
  {
    TipoCertificado.ValueOfName(t);
  }

  /** `POST /emitir`. */
  function EmitirCertificado(st: Store, inscricaoId: nat, emitidoPorNumero: int, tipo: Option<string>,
                             now: Instante, uuid: Uuid): (r: Result<(Store, Certificado)>)
    ensures r.Ok? <==> CertificadoService.EmitirCertificadoComTipo(st, inscricaoId, Some(emitidoPorNumero),
                                                                   Some(ParseTipo(tipo)), now, uuid).Ok?
    ensures r.Ok? ==> r.value.1.tipo == ParseTipo(tipo) && r.value.1.emitidoPorNumero == Some(emitidoPorNumero)
  {
    CertificadoService.EmitirCertificadoComTipo(st, inscricaoId, Some(emitidoPorNumero), Some(ParseTipo(tipo)), now, uuid)
  }

  /** `POST /emitir-em-massa/{eventoId}`: the same parse, then bulk
      issuance. */
  function EmitirCertificadosEmMassa(st: Store, eventoId: nat, emitidoPorNumero: int, tipo: Option<string>,
                                     now: Instante, uuids: nat -> Uuid): (r: Result<Store>)
    ensures r.Ok? <==> CertificadoService.EmitirCertificadosEmMassaComTipo(st, eventoId, Some(emitidoPorNumero),
                                                                           Some(ParseTipo(tipo)), now, uuids).Ok?
    ensures r.Ok? ==> forall j :: |st.certificados| <= j < |r.value.certificados| ==>
      r.value.certificados[j].tipo == ParseTipo(tipo)
  {
    CertificadoService.EmitirCertificadosEmMassaComTipo(st, eventoId, Some(emitidoPorNumero), Some(ParseTipo(tipo)), now, uuids)
  }
}

=== FILE: certificado_dto.dfy ===
/** `CertificadoDTO`: the certificate as sent to the client. Its tier
    description and authority level are derived from the tier when the
    tier is set through the constructor or `setTipo`, and are plain fields
    otherwise. */
module CertificadoDto {
  import opened Base
  import opened Entities
  import TipoCertificado

  datatype CertificadoDto = CertificadoDto(
    id: Option<int>,
    inscricaoId: Option<int>,
    eventoId: Option<int>,
    eventoTitulo: Option<string>,
    utilizadorNumero: Option<int>,
    utilizadorNome: Option<string>,
    dataEmissao: Option<Instante>,
    codigoVerificacao: Option<string>,
    emitidoPorNumero: Option<int>,
    emitidoPorNome: Option<string>,
    tipo: Option<TipoCertificado.Tipo>,
    tipoDescricao: Option<string>,
    nivelAutoridade: Option<int>)

  /** Description and level match the tier, when there is one. */
  predicate Coerente(d: CertificadoDto) {
    d.tipo.Some? ==>
      && d.tipoDescricao == Some(TipoCertificado.Descricao(d.tipo.value))
      && d.nivelAutoridade == Some(TipoCertificado.NivelAutoridade(d.tipo.value))
  }

  /** The no-argument constructor: every field null. */
  function Vazio(): (d: CertificadoDto)
    ensures d.tipo.None? && d.tipoDescricao.None? && d.nivelAutoridade.None?
    ensures Coerente(d)
  {
    CertificadoDto(None, None, None, None, None, None, None, None, None, None, None, None, None)
  }

  /** The ten-argument constructor. A non-null tier fills in description
      and level; a null one leaves them null. The issuer's name stays
      null. */
  function Novo(id: Option<int>, inscricaoId: Option<int>, eventoId: Option<int>, eventoTitulo: Option<string>,
                utilizadorNumero: Option<int>, utilizadorNome: Option<string>, dataEmissao: Option<Instante>,
                codigoVerificacao: Option<string>, emitidoPorNumero: Option<int>,
                tipo: Option<TipoCertificado.Tipo>): (d: CertificadoDto)
    ensures Coerente(d)
    ensures d.tipo == tipo
    ensures tipo.None? ==> d.tipoDescricao.None? && d.nivelAutoridade.None?
    ensures && d.id == id && d.inscricaoId == inscricaoId && d.eventoId == eventoId
            && d.eventoTitulo == eventoTitulo && d.utilizadorNumero == utilizadorNumero
            && d.utilizadorNome == utilizadorNome && d.dataEmissao == dataEmissao
            && d.codigoVerificacao == codigoVerificacao && d.emitidoPorNumero == emitidoPorNumero
            && d.emitidoPorNome.None?
  {
    var base := CertificadoDto(id, inscricaoId, eventoId, eventoTitulo, utilizadorNumero, utilizadorNome,
                               dataEmissao, codigoVerificacao, emitidoPorNumero, None, tipo, None, None);
    match tipo
    case Some(t) => base.(tipoDescricao := Some(TipoCertificado.Descricao(t)),
                          nivelAutoridade := Some(TipoCertificado.NivelAutoridade(t)))
    case None => base
  }

  /** `setTipo`. A non-null tier also sets description and level; a null
      one clears the tier and leaves the other two as they were. */
  function SetTipo(d: CertificadoDto, t: Option<TipoCertificado.Tipo>): (r: CertificadoDto)
    ensures r.tipo == t
    ensures r == d.(tipo := t, tipoDescricao := r.tipoDescricao, nivelAutoridade := r.nivelAutoridade)
    ensures t.Some? ==> Coerente(r)
    ensures t.None? ==> r.tipoDescricao == d.tipoDescricao && r.nivelAutoridade == d.nivelAutoridade
  {
    match t
    case Some(x) => d.(tipo := t, tipoDescricao := Some(TipoCertificado.Descricao(x)),
                       nivelAutoridade := Some(TipoCertificado.NivelAutoridade(x)))
    case None => d.(tipo := None)
  }

  /** `setTipoDescricao`: only the description changes. */
  function SetTipoDescricao(d: CertificadoDto, s: Option<string>): (r: CertificadoDto)
    ensures r.tipoDescricao == s && r == d.(tipoDescricao := r.tipoDescricao)
  {
    d.(tipoDescricao := s)
  }

  /** `setNivelAutoridade`: only the level changes. */
  function SetNivelAutoridade(d: CertificadoDto, n: Option<int>): (r: CertificadoDto)
    ensures r.nivelAutoridade == n && r == d.(nivelAutoridade := r.nivelAutoridade)
  {
    d.(nivelAutoridade := n)
  }

  /** Coherence holds only right after the tier is set: overwriting the
      description afterwards breaks it. */
  lemma SetTipoDescricaoQuebraCoerencia()
    ensures var d := SetTipoDescricao(SetTipo(Vazio(), Some(TipoCertificado.DOCENTE)), Some("outro"));
      Coerente(SetTipo(Vazio(), Some(TipoCertificado.DOCENTE))) && !Coerente(d)
  {
    var d := SetTipoDescricao(SetTipo(Vazio(), Some(TipoCertificado.DOCENTE)), Some("outro"));
    assert d.tipoDescricao == Some("outro");
    assert TipoCertificado.Descricao(TipoCertificado.DOCENTE)[0] == 'C';
  }

  /** Clearing the tier leaves the old description and level behind. */
  lemma SetTipoNuloMantemDerivados(d: CertificadoDto, t: TipoCertificado.Tipo)
    ensures var r := SetTipo(SetTipo(d, Some(t)), None);
      && r.tipo.None?
      && r.tipoDescricao == Some(TipoCertificado.Descricao(t))
      && r.nivelAutoridade == Some(TipoCertificado.NivelAutoridade(t))
  {
  }

  /** The service's `toDTO`: the looked-up event and user fields, then the
      tier through `setTipo`, so the result is coherent. */
  function DoCertificado(c: Certificado, eventoId: int, eventoTitulo: Option<string>,
                         utilizadorNumero: int, utilizadorNome: Option<string>): (d: CertificadoDto)
    ensures Coerente(d) && d.tipo == Some(c.tipo)
    ensures && d.id == Some(c.id) && d.inscricaoId == Some(c.inscricao)
            && d.codigoVerificacao == Some(c.codigoVerificacao) && d.emitidoPorNumero == c.emitidoPorNumero
            && d.dataEmissao == Some(c.dataEmissao) && d.emitidoPorNome.None?
    ensures d.nivelAutoridade == Some(TipoCertificado.NivelAutoridade(c.tipo))
  {
    SetTipo(Vazio().(id := Some(c.id), inscricaoId := Some(c.inscricao), eventoId := Some(eventoId),
                     eventoTitulo := eventoTitulo, utilizadorNumero := Some(utilizadorNumero),
                     utilizadorNome := utilizadorNome, dataEmissao := Some(c.dataEmissao),
                     codigoVerificacao := Some(c.codigoVerificacao), emitidoPorNumero := c.emitidoPorNumero),
            Some(c.tipo))
  }
}

=== FILE: certificado_service.dfy ===
/** `CertificadoService`: issuing one certificate for a checked-in
    registration, issuing them in bulk for an event, the verification code,
    and lookup by code. The store keeps two invariants worth stating: at
    most one certificate per registration (kept by the service's own check,
    not by the schema) and unique verification codes (kept by the schema). */
module CertificadoService {
  import opened Base
  import opened Text
  import opened Tables
  import opened Entities
  import opened Repositories
  import TipoCertificado

  /** No two certificates name the same registration. */
  predicate UmPorInscricao(s: seq<Certificado>) {
    forall i, j :: 0 <= i < j < |s| ==> s[i].inscricao != s[j].inscricao
  }

  /** No two certificates share a verification code (the column's unique
      constraint). */
  predicate CodigosUnicos(s: seq<Certificado>) {
    forall i, j :: 0 <= i < j < |s| ==> s[i].codigoVerificacao != s[j].codigoVerificacao
  }

  /** `gerarCodigoVerificacao`: the first 16 hexadecimal digits of a random
      UUID, upper-cased. */
  function CodigoVerificacao(u: Uuid): (c: string)
    ensures |c| == 16
    ensures forall k :: 0 <= k < 16 ==> IsUpperHex(c[k])
    ensures c == ToUpper(u[..8] + u[9..13] + u[14..18])
  {
    UuidDigits(u);
    assert RemoveDashes(u)[..16] == u[..8] + u[9..13] + u[14..18];
    ToUpper(RemoveDashes(u)[..16])
  }

  /** The tier actually recorded: the one supplied, or PRESENCA for null. */
  function TipoOuPresenca(tipo: Option<TipoCertificado.Tipo>): (t: TipoCertificado.Tipo)
    ensures tipo.Some? ==> t == tipo.value
    ensures tipo.None? ==> t == TipoCertificado.PRESENCA
  {
    tipo.GetOr(TipoCertificado.PRESENCA)
  }

  /** `emitirCertificadoComTipo`. An existing certificate for the
      registration is reported first, before the registration is even
      looked up; then an unknown registration, then one without check-in.
      A drawn code that is already taken makes the save fail. Otherwise one
      certificate is appended; nothing else changes. */
  function EmitirCertificadoComTipo(st: Store, inscricaoId: nat, emitidoPor: Option<int>,
                                    tipo: Option<TipoCertificado.Tipo>, now: Instante, uuid: Uuid)
    : (r: Result<(Store, Certificado)>)
    ensures ExistsByInscricaoId(st.certificados, inscricaoId) ==> r == Err(CertificadoJaEmitido)
    ensures !ExistsByInscricaoId(st.certificados, inscricaoId) && InscricaoDe(st.inscricoes, inscricaoId).None? ==>
      r == Err(InscricaoNaoEncontrada)
    ensures && !ExistsByInscricaoId(st.certificados, inscricaoId) && InscricaoDe(st.inscricoes, inscricaoId).Some?
            && !InscricaoDe(st.inscricoes, inscricaoId).value.checkIn ==>
      r == Err(SemCheckin)
    ensures r.Ok? <==> && !ExistsByInscricaoId(st.certificados, inscricaoId)
                       && InscricaoDe(st.inscricoes, inscricaoId).Some?
                       && InscricaoDe(st.inscricoes, inscricaoId).value.checkIn
                       && FindByCodigoVerificacao(st.certificados, CodigoVerificacao(uuid)).None?
    ensures r.Ok? ==>
      var (st', c) := r.value;
      && st' == st.(certificados := st.certificados + [c])
      && c.inscricao == inscricaoId && c.dataEmissao == now
      && c.codigoVerificacao == CodigoVerificacao(uuid)
      && c.emitidoPorNumero == emitidoPor && c.tipo == TipoOuPresenca(tipo)
      && (forall k :: 0 <= k < |st.certificados| ==> st.certificados[k].id != c.id)
    ensures r.Ok? && UmPorInscricao(st.certificados) ==> UmPorInscricao(r.value.0.certificados)
    ensures r.Ok? && CodigosUnicos(st.certificados) ==> CodigosUnicos(r.value.0.certificados)
  {
    if ExistsByInscricaoId(st.certificados, inscricaoId) then Err(CertificadoJaEmitido)
    else
      var k :- Need(FindInscricao(st.inscricoes, inscricaoId), InscricaoNaoEncontrada);
      if !st.inscricoes[k].checkIn then Err(SemCheckin)
      else
        var codigo := CodigoVerificacao(uuid);
        if FindByCodigoVerificacao(st.certificados, codigo).Some? then Err(ViolacaoUnicidade)
        else
          var c := Certificado(NextId(st.certificados, CertificadoId()), inscricaoId, now, codigo,
                               emitidoPor, TipoOuPresenca(tipo));
          Ok((st.(certificados := st.certificados + [c]), c))
  }

  /** `emitirCertificado`: issuance with the PRESENCA tier, which is what a
      null tier gives too. */
  function EmitirCertificado(st: Store, inscricaoId: nat, emitidoPor: Option<int>, now: Instante, uuid: Uuid)
    : (r: Result<(Store, Certificado)>)
    ensures r == EmitirCertificadoComTipo(st, inscricaoId, emitidoPor, None, now, uuid)
    ensures r.Ok? ==> r.value.1.tipo == TipoCertificado.PRESENCA
  {
    assert TipoOuPresenca(Some(TipoCertificado.PRESENCA)) == TipoOuPresenca(None);
    EmitirCertificadoComTipo(st, inscricaoId, emitidoPor, Some(TipoCertificado.PRESENCA), now, uuid)
  }

  /** Issuing twice for the same registration fails the second time, so the
      first certificate, tier included, stays as it was. */
  lemma SegundaEmissaoFalha(st: Store, inscricaoId: nat, por1: Option<int>, tipo1: Option<TipoCertificado.Tipo>,
                            now1: Instante, uuid1: Uuid, por2: Option<int>, tipo2: Option<TipoCertificado.Tipo>,
                            now2: Instante, uuid2: Uuid)
    requires EmitirCertificadoComTipo(st, inscricaoId, por1, tipo1, now1, uuid1).Ok?
    ensures var (st', c) := EmitirCertificadoComTipo(st, inscricaoId, por1, tipo1, now1, uuid1).value;
      && EmitirCertificadoComTipo(st', inscricaoId, por2, tipo2, now2, uuid2) == Err(CertificadoJaEmitido)
      && st'.certificados[|st'.certificados| - 1] == c
  {
    var st' := EmitirCertificadoComTipo(st, inscricaoId, por1, tipo1, now1, uuid1).value.0;
    assert st'.certificados[|st'.certificados| - 1].inscricao == inscricaoId;
  }

  /** The store with one more certificate, under a fresh id. */
  function ComCertificado(st: Store, inscricao: nat, codigo: string, emitidoPor: Option<int>,
                          tipo: TipoCertificado.Tipo, now: Instante): (st': Store)
    ensures st' == st.(certificados := st'.certificados)
    ensures |st'.certificados| == |st.certificados| + 1
    ensures st'.certificados[..|st.certificados|] == st.certificados
    ensures var c := st'.certificados[|st.certificados|];
      && c.inscricao == inscricao && c.codigoVerificacao == codigo && c.emitidoPorNumero == emitidoPor
      && c.tipo == tipo && c.dataEmissao == now
  {
    var c := Certificado(NextId(st.certificados, CertificadoId()), inscricao, now, codigo, emitidoPor, tipo);
    assert (st.certificados + [c])[..|st.certificados|] == st.certificados;
    st.(certificados := st.certificados + [c])
  }

  /** The loop of `emitirCertificadosEmMassaComTipo` over `l`, the
      registrations still to visit; `n` counts the visited ones and picks
      the UUID drawn for the next code. A registration that already has a
      certificate is skipped. The method is transactional, so a failing
      save undoes the whole run. Only the certificate table changes, and
      only by growing. */
  function EmitirLista(st: Store, l: seq<Inscricao>, n: nat, emitidoPor: Option<int>,
                       tipo: TipoCertificado.Tipo, now: Instante, uuids: nat -> Uuid)
    : (r: Result<Store>)
    ensures r.Ok? ==> r.value == st.(certificados := r.value.certificados)
    ensures r.Ok? ==> |st.certificados| <= |r.value.certificados|
                      && r.value.certificados[..|st.certificados|] == st.certificados
    decreases |l|
  {
    if |l| == 0 then Ok(st)
    else if ExistsByInscricaoId(st.certificados, l[0].id) then
      EmitirLista(st, l[1..], n + 1, emitidoPor, tipo, now, uuids)
    else
      var codigo := CodigoVerificacao(uuids(n));
      if FindByCodigoVerificacao(st.certificados, codigo).Some? then Err(ViolacaoUnicidade)
      else
        var st1 := ComCertificado(st, l[0].id, codigo, emitidoPor, tipo, now);
        var r := EmitirLista(st1, l[1..], n + 1, emitidoPor, tipo, now, uuids);
        if r.Err? then r
        else
          assert r.value.certificados[..|st.certificados|] == r.value.certificados[..|st1.certificados|][..|st.certificados|];
          r
  }

  /** The store the loop goes on with after visiting the head of `l`. */
  function Passo(st: Store, i: Inscricao, n: nat, emitidoPor: Option<int>,
                 tipo: TipoCertificado.Tipo, now: Instante, uuids: nat -> Uuid): (st1: Store)
    ensures ExistsByInscricaoId(st.certificados, i.id) ==> st1 == st
  {
    if ExistsByInscricaoId(st.certificados, i.id) then st
    else ComCertificado(st, i.id, CodigoVerificacao(uuids(n)), emitidoPor, tipo, now)
  }

  /** A successful loop visits the head and goes on from `Passo`. */
  lemma EmitirListaPasso(st: Store, l: seq<Inscricao>, n: nat, emitidoPor: Option<int>,
                         tipo: TipoCertificado.Tipo, now: Instante, uuids: nat -> Uuid)
    requires |l| > 0 && EmitirLista(st, l, n, emitidoPor, tipo, now, uuids).Ok?
    ensures EmitirLista(Passo(st, l[0], n, emitidoPor, tipo, now, uuids), l[1..], n + 1, emitidoPor, tipo, now, uuids)
            == EmitirLista(st, l, n, emitidoPor, tipo, now, uuids)
    ensures !ExistsByInscricaoId(st.certificados, l[0].id) ==>
      FindByCodigoVerificacao(st.certificados, CodigoVerificacao(uuids(n))).None?
  {
  }

  /** A certificate for a registration without one, under an unused code,
      keeps both invariants. */
  lemma ComCertificadoInvariantes(st: Store, inscricao: nat, codigo: string, emitidoPor: Option<int>,
                                  tipo: TipoCertificado.Tipo, now: Instante)
    requires !ExistsByInscricaoId(st.certificados, inscricao)
    requires FindByCodigoVerificacao(st.certificados, codigo).None?
    ensures var st1 := ComCertificado(st, inscricao, codigo, emitidoPor, tipo, now);
      && (UmPorInscricao(st.certificados) ==> UmPorInscricao(st1.certificados))
      && (CodigosUnicos(st.certificados) ==> CodigosUnicos(st1.certificados))
  {
    var st1 := ComCertificado(st, inscricao, codigo, emitidoPor, tipo, now);
    var m := |st.certificados|;
    forall j | 0 <= j < m
      ensures st1.certificados[j] == st.certificados[j]
    {
      assert st1.certificados[j] == st1.certificados[..m][j];
    }
  }

  /** A certificate already present stays present in any extension. */
  lemma LiftExists(base: seq<Certificado>, ext: seq<Certificado>, inscricao: nat)
    requires |base| <= |ext| && ext[..|base|] == base
    requires ExistsByInscricaoId(base, inscricao)
    ensures ExistsByInscricaoId(ext, inscricao)
  {
    var w :| 0 <= w < |base| && base[w].inscricao == inscricao;
    assert ext[w] == base[w];
  }

  /** Some registration in `l` has this id. */
  predicate Visitada(l: seq<Inscricao>, id: nat) {
    exists k :: 0 <= k < |l| && l[k].id == id
  }

  lemma VisitadaNaCauda(l: seq<Inscricao>, id: nat)
    requires |l| > 0 && Visitada(l[1..], id)
    ensures Visitada(l, id)
  {
    var k :| 0 <= k < |l[1..]| && l[1..][k].id == id;
    assert l[k + 1] == l[1..][k];
  }

  /** After the loop every visited registration has a certificate. */
  lemma {:induction false} EmitirListaCobre(st: Store, l: seq<Inscricao>, n: nat, emitidoPor: Option<int>,
                                            tipo: TipoCertificado.Tipo, now: Instante, uuids: nat -> Uuid)
    requires EmitirLista(st, l, n, emitidoPor, tipo, now, uuids).Ok?
    ensures var st' := EmitirLista(st, l, n, emitidoPor, tipo, now, uuids).value;
      forall k :: 0 <= k < |l| ==> ExistsByInscricaoId(st'.certificados, l[k].id)
    decreases |l|
  {
    if |l| > 0 {
      var st' := EmitirLista(st, l, n, emitidoPor, tipo, now, uuids).value;
      var st1 := Passo(st, l[0], n, emitidoPor, tipo, now, uuids);
      EmitirListaPasso(st, l, n, emitidoPor, tipo, now, uuids);
      if !ExistsByInscricaoId(st.certificados, l[0].id) {
        assert st1.certificados[|st.certificados|].inscricao == l[0].id;
      }
      EmitirListaCobre(st1, l[1..], n + 1, emitidoPor, tipo, now, uuids);
      LiftExists(st1.certificados, st'.certificados, l[0].id);
      forall k | 1 <= k < |l|
        ensures ExistsByInscricaoId(st'.certificados, l[k].id)
      {
        assert l[k] == l[1..][k - 1];
      }
    }
  }

  /** What a certificate created by the loop satisfies: it was issued now,
      by the given issuer, with the given tier, for a visited registration
      that had no certificate before the loop. */
  predicate NovoCertificado(c: Certificado, l: seq<Inscricao>, antes: seq<Certificado>, emitidoPor: Option<int>,
                            tipo: TipoCertificado.Tipo, now: Instante) {
    && c.dataEmissao == now && c.emitidoPorNumero == emitidoPor && c.tipo == tipo
    && Visitada(l, c.inscricao) && !ExistsByInscricaoId(antes, c.inscricao)
  }

  lemma {:induction false} EmitirListaNovos(st: Store, l: seq<Inscricao>, n: nat, emitidoPor: Option<int>,
                                            tipo: TipoCertificado.Tipo, now: Instante, uuids: nat -> Uuid)
    requires EmitirLista(st, l, n, emitidoPor, tipo, now, uuids).Ok?
    ensures var st' := EmitirLista(st, l, n, emitidoPor, tipo, now, uuids).value;
      forall j :: |st.certificados| <= j < |st'.certificados| ==>
        NovoCertificado(st'.certificados[j], l, st.certificados, emitidoPor, tipo, now)
    decreases |l|
  {
    if |l| > 0 {
      var st' := EmitirLista(st, l, n, emitidoPor, tipo, now, uuids).value;
      if ExistsByInscricaoId(st.certificados, l[0].id) {
        EmitirListaNovos(st, l[1..], n + 1, emitidoPor, tipo, now, uuids);
        forall j | |st.certificados| <= j < |st'.certificados|
          ensures NovoCertificado(st'.certificados[j], l, st.certificados, emitidoPor, tipo, now)
        {
          VisitadaNaCauda(l, st'.certificados[j].inscricao);
        }
      } else {
        var st1 := ComCertificado(st, l[0].id, CodigoVerificacao(uuids(n)), emitidoPor, tipo, now);
        assert EmitirLista(st1, l[1..], n + 1, emitidoPor, tipo, now, uuids) == Ok(st');
        EmitirListaNovos(st1, l[1..], n + 1, emitidoPor, tipo, now, uuids);
        forall j | |st.certificados| <= j < |st'.certificados|
          ensures NovoCertificado(st'.certificados[j], l, st.certificados, emitidoPor, tipo, now)
        {
          var c := st'.certificados[j];
          if j == |st.certificados| {
            assert c == st'.certificados[..|st1.certificados|][j] == st1.certificados[j];
            assert l[0].id == c.inscricao;
          } else {
            VisitadaNaCauda(l, c.inscricao);
            if ExistsByInscricaoId(st.certificados, c.inscricao) {
              LiftExists(st.certificados, st1.certificados, c.inscricao);
            }
          }
        }
      }
    }
  }

  /** The loop keeps both certificate invariants. */
  lemma {:induction false} EmitirListaInvariantes(st: Store, l: seq<Inscricao>, n: nat, emitidoPor: Option<int>,
                                                  tipo: TipoCertificado.Tipo, now: Instante, uuids: nat -> Uuid)
    requires EmitirLista(st, l, n, emitidoPor, tipo, now, uuids).Ok?
    ensures var st' := EmitirLista(st, l, n, emitidoPor, tipo, now, uuids).value;
      && (UmPorInscricao(st.certificados) ==> UmPorInscricao(st'.certificados))
      && (CodigosUnicos(st.certificados) ==> CodigosUnicos(st'.certificados))
    decreases |l|
  {
    if |l| > 0 {
      EmitirListaPasso(st, l, n, emitidoPor, tipo, now, uuids);
      var st1 := Passo(st, l[0], n, emitidoPor, tipo, now, uuids);
      if !ExistsByInscricaoId(st.certificados, l[0].id) {
        ComCertificadoInvariantes(st, l[0].id, CodigoVerificacao(uuids(n)), emitidoPor, tipo, now);
      }
      EmitirListaInvariantes(st1, l[1..], n + 1, emitidoPor, tipo, now, uuids);
    }
  }

  /** When every registration in `l` already has a certificate, the loop
      issues nothing. */
  lemma {:induction false} EmitirListaNada(st: Store, l: seq<Inscricao>, n: nat, emitidoPor: Option<int>,
                                           tipo: TipoCertificado.Tipo, now: Instante, uuids: nat -> Uuid)
    requires forall k :: 0 <= k < |l| ==> ExistsByInscricaoId(st.certificados, l[k].id)
    ensures EmitirLista(st, l, n, emitidoPor, tipo, now, uuids) == Ok(st)
    decreases |l|
  {
    if |l| > 0 {
      assert forall k :: 0 <= k < |l[1..]| ==> l[1..][k] == l[k + 1];
      EmitirListaNada(st, l[1..], n + 1, emitidoPor, tipo, now, uuids);
    }
  }

  /** The only way the loop fails: a drawn code that the table already
      holds, rejected by the unique column. */
  lemma {:induction false} EmitirListaErro(st: Store, l: seq<Inscricao>, n: nat, emitidoPor: Option<int>,
                                           tipo: TipoCertificado.Tipo, now: Instante, uuids: nat -> Uuid)
    requires EmitirLista(st, l, n, emitidoPor, tipo, now, uuids).Err?
    ensures EmitirLista(st, l, n, emitidoPor, tipo, now, uuids).error == ViolacaoUnicidade
    decreases |l|
  {
    if ExistsByInscricaoId(st.certificados, l[0].id) {
      EmitirListaErro(st, l[1..], n + 1, emitidoPor, tipo, now, uuids);
    } else {
      var codigo := CodigoVerificacao(uuids(n));
      if FindByCodigoVerificacao(st.certificados, codigo).None? {
        EmitirListaErro(ComCertificado(st, l[0].id, codigo, emitidoPor, tipo, now), l[1..], n + 1,
                        emitidoPor, tipo, now, uuids);
      }
    }
  }

  /** The codes drawn for visits `n` to `n + m - 1` are absent from `cs`
      and pairwise distinct. */
  predicate CodigosFrescos(cs: seq<Certificado>, n: nat, m: nat, uuids: nat -> Uuid) {
    && (forall k, j :: n <= k < n + m && 0 <= j < |cs| ==> cs[j].codigoVerificacao != CodigoVerificacao(uuids(k)))
    && (forall j, k :: n <= j < k < n + m ==> CodigoVerificacao(uuids(j)) != CodigoVerificacao(uuids(k)))
  }

  /** Fresh codes stay fresh for the later visits once the first one is
      used. */
  lemma FrescosPasso(st: Store, inscricao: nat, n: nat, m: nat, emitidoPor: Option<int>,
                     tipo: TipoCertificado.Tipo, now: Instante, uuids: nat -> Uuid)
    requires m > 0 && CodigosFrescos(st.certificados, n, m, uuids)
    ensures FindByCodigoVerificacao(st.certificados, CodigoVerificacao(uuids(n))).None?
    ensures CodigosFrescos(st.certificados, n + 1, m - 1, uuids)
    ensures CodigosFrescos(ComCertificado(st, inscricao, CodigoVerificacao(uuids(n)), emitidoPor, tipo, now).certificados,
                           n + 1, m - 1, uuids)
  {
    var cs := st.certificados;
    var cs1 := ComCertificado(st, inscricao, CodigoVerificacao(uuids(n)), emitidoPor, tipo, now).certificados;
    forall k, j | n + 1 <= k < n + m && 0 <= j < |cs1|
      ensures cs1[j].codigoVerificacao != CodigoVerificacao(uuids(k))
    {
      if j < |cs| {
        assert cs1[j] == cs1[..|cs|][j] == cs[j];
      } else {
        assert cs1[j].codigoVerificacao == CodigoVerificacao(uuids(n));
      }
    }
  }

  /** With fresh, pairwise distinct codes the loop succeeds. */
  lemma {:induction false} EmitirListaSucede(st: Store, l: seq<Inscricao>, n: nat, emitidoPor: Option<int>,
                                             tipo: TipoCertificado.Tipo, now: Instante, uuids: nat -> Uuid)
    requires CodigosFrescos(st.certificados, n, |l|, uuids)
    ensures EmitirLista(st, l, n, emitidoPor, tipo, now, uuids).Ok?
    decreases |l|
  {
    if |l| > 0 {
      FrescosPasso(st, l[0].id, n, |l|, emitidoPor, tipo, now, uuids);
      if ExistsByInscricaoId(st.certificados, l[0].id) {
        EmitirListaSucede(st, l[1..], n + 1, emitidoPor, tipo, now, uuids);
      } else {
        EmitirListaSucede(ComCertificado(st, l[0].id, CodigoVerificacao(uuids(n)), emitidoPor, tipo, now),
                          l[1..], n + 1, emitidoPor, tipo, now, uuids);
      }
    }
  }

  /** `emitirCertificadosEmMassaComTipo`: a certificate for every
      checked-in registration of the event that has none yet, whatever the
      registration's state; certificates already there are left alone. */
  function EmitirCertificadosEmMassaComTipo(st: Store, eventoId: nat, emitidoPor: Option<int>,
                                            tipo: Option<TipoCertificado.Tipo>, now: Instante, uuids: nat -> Uuid)
    : (r: Result<Store>)
    ensures r.Ok? ==> r.value == st.(certificados := r.value.certificados)
    ensures r.Ok? ==> |st.certificados| <= |r.value.certificados|
                      && r.value.certificados[..|st.certificados|] == st.certificados
    ensures r.Ok? ==> forall k :: 0 <= k < |st.inscricoes| && st.inscricoes[k].evento == eventoId && st.inscricoes[k].checkIn ==>
      ExistsByInscricaoId(r.value.certificados, st.inscricoes[k].id)
    ensures r.Ok? ==> forall j :: |st.certificados| <= j < |r.value.certificados| ==>
      var c := r.value.certificados[j];
      && c.tipo == TipoOuPresenca(tipo) && c.emitidoPorNumero == emitidoPor && c.dataEmissao == now
      && !ExistsByInscricaoId(st.certificados, c.inscricao)
      && (exists k :: 0 <= k < |st.inscricoes| && st.inscricoes[k].id == c.inscricao
                      && st.inscricoes[k].evento == eventoId && st.inscricoes[k].checkIn)
    ensures r.Ok? && UmPorInscricao(st.certificados) ==> UmPorInscricao(r.value.certificados)
    ensures r.Ok? && CodigosUnicos(st.certificados) ==> CodigosUnicos(r.value.certificados)
    ensures r.Err? ==> r.error == ViolacaoUnicidade
  {
    var l := FindByEventoIdAndCheckInTrue(st.inscricoes, eventoId);
    var r := EmitirLista(st, l, 0, emitidoPor, TipoOuPresenca(tipo), now, uuids);
    if r.Err? then
      EmitirListaErro(st, l, 0, emitidoPor, TipoOuPresenca(tipo), now, uuids);
      r
    else
      EmitirListaCobre(st, l, 0, emitidoPor, TipoOuPresenca(tipo), now, uuids);
      EmitirListaNovos(st, l, 0, emitidoPor, TipoOuPresenca(tipo), now, uuids);
      EmitirListaInvariantes(st, l, 0, emitidoPor, TipoOuPresenca(tipo), now, uuids);
      DaListaParaATabela(st, eventoId, l, r.value, emitidoPor, TipoOuPresenca(tipo), now);
      r
  }

  /** Bulk issuance succeeds when the codes drawn for the event's
      checked-in registrations are new to the table and pairwise
      distinct. */
  lemma EmMassaSucede(st: Store, eventoId: nat, emitidoPor: Option<int>,
                      tipo: Option<TipoCertificado.Tipo>, now: Instante, uuids: nat -> Uuid)
    requires CodigosFrescos(st.certificados, 0, |FindByEventoIdAndCheckInTrue(st.inscricoes, eventoId)|, uuids)
    ensures EmitirCertificadosEmMassaComTipo(st, eventoId, emitidoPor, tipo, now, uuids).Ok?
  {
    EmitirListaSucede(st, FindByEventoIdAndCheckInTrue(st.inscricoes, eventoId), 0, emitidoPor,
                      TipoOuPresenca(tipo), now, uuids);
  }

  /** Facts about the visited list `l` restated over the registration table
      it was filtered from. */
  lemma DaListaParaATabela(st: Store, eventoId: nat, l: seq<Inscricao>, st': Store,
                           emitidoPor: Option<int>, tipo: TipoCertificado.Tipo, now: Instante)
    requires l == FindByEventoIdAndCheckInTrue(st.inscricoes, eventoId)
    requires forall k :: 0 <= k < |l| ==> ExistsByInscricaoId(st'.certificados, l[k].id)
    requires forall j :: |st.certificados| <= j < |st'.certificados| ==>
      NovoCertificado(st'.certificados[j], l, st.certificados, emitidoPor, tipo, now)
    ensures forall k :: 0 <= k < |st.inscricoes| && st.inscricoes[k].evento == eventoId && st.inscricoes[k].checkIn ==>
      ExistsByInscricaoId(st'.certificados, st.inscricoes[k].id)
    ensures forall j :: |st.certificados| <= j < |st'.certificados| ==>
      exists k :: 0 <= k < |st.inscricoes| && st.inscricoes[k].id == st'.certificados[j].inscricao
                  && st.inscricoes[k].evento == eventoId && st.inscricoes[k].checkIn
  {
    forall k | 0 <= k < |st.inscricoes| && st.inscricoes[k].evento == eventoId && st.inscricoes[k].checkIn
      ensures ExistsByInscricaoId(st'.certificados, st.inscricoes[k].id)
    {
      var w :| 0 <= w < |l| && l[w] == st.inscricoes[k];
    }
    forall j | |st.certificados| <= j < |st'.certificados|
      ensures exists k :: 0 <= k < |st.inscricoes| && st.inscricoes[k].id == st'.certificados[j].inscricao
                          && st.inscricoes[k].evento == eventoId && st.inscricoes[k].checkIn
    {
      assert NovoCertificado(st'.certificados[j], l, st.certificados, emitidoPor, tipo, now);
      var w :| 0 <= w < |l| && l[w].id == st'.certificados[j].inscricao;
      var k :| 0 <= k < |st.inscricoes| && st.inscricoes[k] == l[w];
    }
  }

  /** `emitirCertificadosEmMassa`: bulk issuance with the PRESENCA tier,
      which is what a null tier gives too. */
  function EmitirCertificadosEmMassa(st: Store, eventoId: nat, emitidoPor: Option<int>, now: Instante, uuids: nat -> Uuid)
    : (r: Result<Store>)
    ensures r == EmitirCertificadosEmMassaComTipo(st, eventoId, emitidoPor, None, now, uuids)
  {
    EmitirCertificadosEmMassaComTipo(st, eventoId, emitidoPor, Some(TipoCertificado.PRESENCA), now, uuids)
  }

  /** Running bulk issuance again right after a successful run creates
      nothing, whatever tier, issuer or time the second run is given. */
  lemma EmMassaIdempotente(st: Store, eventoId: nat, por1: Option<int>, tipo1: Option<TipoCertificado.Tipo>,
                           now1: Instante, uuids1: nat -> Uuid, por2: Option<int>,
                           tipo2: Option<TipoCertificado.Tipo>, now2: Instante, uuids2: nat -> Uuid)
    requires EmitirCertificadosEmMassaComTipo(st, eventoId, por1, tipo1, now1, uuids1).Ok?
    ensures var st' := EmitirCertificadosEmMassaComTipo(st, eventoId, por1, tipo1, now1, uuids1).value;
      EmitirCertificadosEmMassaComTipo(st', eventoId, por2, tipo2, now2, uuids2) == Ok(st')
  {
    var st' := EmitirCertificadosEmMassaComTipo(st, eventoId, por1, tipo1, now1, uuids1).value;
    var l := FindByEventoIdAndCheckInTrue(st'.inscricoes, eventoId);
    assert st'.inscricoes == st.inscricoes;
    forall k | 0 <= k < |l|
      ensures ExistsByInscricaoId(st'.certificados, l[k].id)
    {
      var w :| 0 <= w < |st.inscricoes| && st.inscricoes[w] == l[k];
    }
    EmitirListaNada(st', l, 0, por2, TipoOuPresenca(tipo2), now2, uuids2);
  }

  /** `obterPorCodigo`: the certificate with this code, or NotFound. */
  function ObterPorCodigo(st: Store, codigo: string): (r: Result<Certificado>)
    ensures r.Ok? ==> r.value in st.certificados && r.value.codigoVerificacao == codigo
    ensures r.Err? <==> forall k :: 0 <= k < |st.certificados| ==> st.certificados[k].codigoVerificacao != codigo
    ensures r.Err? ==> r.error == CertificadoNaoEncontrado
  {
    var k :- Need(FindByCodigoVerificacao(st.certificados, codigo), CertificadoNaoEncontrado);
    Ok(st.certificados[k])
  }
}

=== FILE: entities.dfy ===
/** The persistent entities of the server and the store that holds them.
    Associations are kept as ids; timestamps are whole minutes on one
    clock, so "two hours later" is `+ 120`. */
module Entities {
  import opened Base
  import TipoCertificado

  /** Minutes on the server clock (`LocalDateTime`). */
  type Instante = int

  datatype EstadoEvento = RASCUNHO | PUBLICADO | CANCELADO | CONCLUIDO

  datatype EstadoInscricao = ATIVA | CANCELADA

  /** `PerfilUtilizador`. Only ADMIN, GESTOR_EVENTOS and DOCENTE are ever
      tested for; every other constant behaves as OUTRO_PERFIL. */
  datatype Perfil = ADMIN | GESTOR_EVENTOS | DOCENTE | OUTRO_PERFIL

  /** `TipoNotificacao`; only ANUNCIO is ever produced by the services. */
  datatype TipoNotificacao = ANUNCIO | OUTRO_TIPO

  /** `Evento`. `maxParticipantes` None means unlimited. `tipo` is the
      `TipoEvento` constant's name. */
  datatype Evento = Evento(
    id: nat,
    titulo: string,
    descricao: Option<string>,
    dataInicio: Option<Instante>,
    dataFim: Option<Instante>,
    maxParticipantes: Option<int>,
    tipo: Option<string>,
    areaTematica: Option<string>,
    criador: int,
    local: int,
    estado: EstadoEvento,
    motivoRemocao: Option<string>)

  /** `Inscricao`: a registration of a user for an event, with its check-in
      token (`qrCodeCheckin`) and the token's validity. */
  datatype Inscricao = Inscricao(
    id: nat,
    evento: nat,
    utilizador: int,
    dataInscricao: Instante,
    estado: EstadoInscricao,
    checkIn: bool,
    dataCheckin: Option<Instante>,
    qrCodeCheckin: Option<string>,
    validadeQrcode: Option<Instante>)

  /** `ListaEspera`: one waiting-list entry. */
  datatype ListaEspera = ListaEspera(id: nat, evento: nat, utilizador: int, posicao: int)

  /** `Certificado`. Only `codigoVerificacao` is unique; nothing in the
      entity stops two certificates naming the same registration. */
  datatype Certificado = Certificado(
    id: nat,
    inscricao: nat,
    dataEmissao: Instante,
    codigoVerificacao: string,
    emitidoPorNumero: Option<int>,
    tipo: TipoCertificado.Tipo)

  /** `Utilizador`, keyed by its institutional number. */
  datatype Utilizador = Utilizador(
    numero: int,
    nome: Option<string>,
    email: Option<string>,
    perfil: Option<Perfil>,
    ativo: bool,
    passwordHash: string)

  /** `Notificacao`. The display window bounds are optional. */
  datatype Notificacao = Notificacao(
    id: nat,
    destinatario: int,
    evento: Option<nat>,
    tipo: TipoNotificacao,
    conteudo: string,
    canal: Option<string>,
    lida: bool,
    dataCriacao: Instante,
    dataInicioExibicao: Option<Instante>,
    dataFimExibicao: Option<Instante>)

  /** The database: one table per entity, in repository order. Venues
      (`Local`) are known only by id. */
  datatype Store = Store(
    eventos: seq<Evento>,
    inscricoes: seq<Inscricao>,
    listaEspera: seq<ListaEspera>,
    certificados: seq<Certificado>,
    utilizadores: seq<Utilizador>,
    locais: set<int>,
    notificacoes: seq<Notificacao>)
}

=== FILE: evento_service.dfy ===
/** `EventoService`: event creation and editing, publication and
    cancellation, registration with its waiting list, promotion from the
    waiting list, statistics and search. Every operation takes the store and
    returns either an error or the new store; `now` and the UUID that
    `UUID.randomUUID()` would draw are parameters. */
module EventoService {
  import opened Base
  import opened Text
  import opened Tables
  import opened Entities
  import opened Repositories

  /** `plusHours(2)` in minutes. */
  const DUAS_HORAS: int := 120

  const INSCRICAO_OK: string := "INSCRICAO_OK"
  const EVENTO_LOTADO_LISTA_ESPERA: string := "EVENTO_LOTADO_LISTA_ESPERA"

  /** `EventoCreateDTO`: every field may be null. */
  datatype EventoDados = EventoDados(
    titulo: Option<string>,
    descricao: Option<string>,
    dataInicio: Option<Instante>,
    dataFim: Option<Instante>,
    maxParticipantes: Option<int>,
    tipo: Option<string>,
    areaTematica: Option<string>,
    criadorNumero: Option<int>,
    localId: Option<int>,
    estado: Option<EstadoEvento>)

  /** `InscricaoResultadoDTO` without the QR-code image URL. */
  datatype InscricaoResultadoDto = InscricaoResultadoDto(
    resultado: string,
    inscricaoId: Option<nat>,
    qrCodeToken: Option<string>)

  /** `EstatisticasEventoDTO` without the occupation percentage. */
  datatype Estatisticas = Estatisticas(
    eventoId: nat,
    eventoTitulo: string,
    totalInscricoes: nat,
    inscricoesAtivas: nat,
    inscricoesCanceladas: nat,
    checkInsRealizados: nat,
    maxParticipantes: Option<int>,
    vagasDisponiveis: int,
    certificadosEmitidos: int)

  // ---------------------------------------------------------------------
  // Check-in tokens

  /** The token `"CHK-" + id + "-" + UUID` given to a new registration. */
  function CheckinToken(id: nat, uuid: Uuid): string {
    "CHK-" + NatToString(id) + "-" + uuid
  }

  /** Reads the registration id back out of a token: the digits between
      the `CHK-` prefix and the next dash. */
  function TokenId(token: string): Option<nat> {
    if |token| < 4 || token[..4] != "CHK-" then None
    else
      var rest := token[4..];
      var ds := DigitPrefix(rest);
      if 0 < |ds| < |rest| && rest[|ds|] == '-' then Some(ParseNat(ds)) else None
  }

  /** The id a token was made from can be read back out of it. */
  lemma TokenIdRoundTrip(id: nat, uuid: Uuid)
    ensures TokenId(CheckinToken(id, uuid)) == Some(id)
  {
    var t := CheckinToken(id, uuid);
    var n := NatToString(id);
    NatToStringDigits(id);
    assert t[..4] == "CHK-";
    assert t[4..] == n + ("-" + uuid);
    DigitPrefixOf(n, "-" + uuid);
    ParseNatToString(id);
  }

  /** Registrations with different ids never share a token, whatever UUIDs
      they drew. */
  lemma TokensDistintos(id1: nat, uuid1: Uuid, id2: nat, uuid2: Uuid)
    requires id1 != id2
    ensures CheckinToken(id1, uuid1) != CheckinToken(id2, uuid2)
  {
    TokenIdRoundTrip(id1, uuid1);
    TokenIdRoundTrip(id2, uuid2);
  }

  /** The token's validity: two hours after the event starts, or none for
      an event without a start. */
  function Validade(inicio: Option<Instante>): (v: Option<Instante>)
    ensures v.Some? <==> inicio.Some?
    ensures v.Some? ==> v.value - inicio.value == DUAS_HORAS
  {
    match inicio
    case Some(t) => Some(t + DUAS_HORAS)
    case None => None
  }

  /** A fresh ATIVA registration with its token, as both registration and
      promotion build it. */
  function NovaInscricao(id: nat, evento: Evento, numero: int, now: Instante, uuid: Uuid): Inscricao {
    Inscricao(id, evento.id, numero, now, ATIVA, false, None,
              Some(CheckinToken(id, uuid)), Validade(evento.dataInicio))
  }

  /** What every new registration satisfies. */
  predicate InscricaoNova(i: Inscricao, id: nat, evento: Evento, numero: int, now: Instante) {
    && i.id == id && i.evento == evento.id && i.utilizador == numero
    && i.dataInscricao == now && i.estado == ATIVA && !i.checkIn && i.dataCheckin.None?
    && i.qrCodeCheckin.Some? && TokenId(i.qrCodeCheckin.value) == Some(id)
    && i.validadeQrcode == Validade(evento.dataInicio)
  }

  lemma NovaInscricaoCorreta(id: nat, evento: Evento, numero: int, now: Instante, uuid: Uuid)
    ensures InscricaoNova(NovaInscricao(id, evento, numero, now, uuid), id, evento, numero, now)
  {
    TokenIdRoundTrip(id, uuid);
  }

  // ---------------------------------------------------------------------
  // Creating and editing

  /** The title and date checks `criar` and `atualizar` share. */
  predicate DadosValidos(d: EventoDados) {
    && d.titulo.Some? && !IsBlank(d.titulo.value)
    && d.dataInicio.Some? && d.dataFim.Some?
    && d.dataInicio.value <= d.dataFim.value
  }

  /** The first title or date rule the data break, in the order the service
      checks them. */
  function ErroDados(d: EventoDados): (r: Option<Error>)
    ensures r.None? <==> DadosValidos(d)
    ensures (d.titulo.None? || IsBlank(d.titulo.value)) ==> r == Some(TituloObrigatorio)
    ensures d.titulo.Some? && !IsBlank(d.titulo.value) && (d.dataInicio.None? || d.dataFim.None?) ==>
                  r == Some(DatasObrigatorias)
    ensures && d.titulo.Some? && !IsBlank(d.titulo.value) && d.dataInicio.Some? && d.dataFim.Some?
            && d.dataFim.value < d.dataInicio.value ==>
                  r == Some(FimAntesDoInicio)
  {
    if d.titulo.None? || IsBlank(d.titulo.value) then Some(TituloObrigatorio)
    else if d.dataInicio.None? || d.dataFim.None? then Some(DatasObrigatorias)
    else if d.dataFim.value < d.dataInicio.value then Some(FimAntesDoInicio)
    else None
  }

  /** `criar`. Fails on the first broken title or date rule, then on a
      missing creator, then on a missing venue (a null number or id makes
      `findById` throw); otherwise appends the event under a fresh id, in
      the supplied state or RASCUNHO. */
  function Criar(st: Store, d: EventoDados): (r: Result<(Store, Evento)>)
    ensures !DadosValidos(d) ==> r == Err(ErroDados(d).value)
    ensures DadosValidos(d) && d.criadorNumero.None? ==> r == Err(IdNulo)
    ensures DadosValidos(d) && d.criadorNumero.Some? && !ExisteUtilizador(st.utilizadores, d.criadorNumero.value) ==>
                  r == Err(CriadorNaoEncontrado)
    ensures DadosValidos(d) && d.criadorNumero.Some? && ExisteUtilizador(st.utilizadores, d.criadorNumero.value) ==>
                  && (d.localId.None? ==> r == Err(IdNulo))
                  && (d.localId.Some? && d.localId.value !in st.locais ==> r == Err(LocalNaoEncontrado))
    ensures r.Ok? <==> && DadosValidos(d)
                       && d.criadorNumero.Some? && ExisteUtilizador(st.utilizadores, d.criadorNumero.value)
                       && d.localId.Some? && d.localId.value in st.locais
    ensures r.Ok? ==>
      var (st', e) := r.value;
      && st' == st.(eventos := st.eventos + [e])
      && (forall k :: 0 <= k < |st.eventos| ==> st.eventos[k].id != e.id)
      && e.titulo == d.titulo.value && e.descricao == d.descricao
      && e.dataInicio == d.dataInicio && e.dataFim == d.dataFim
      && e.maxParticipantes == d.maxParticipantes && e.tipo == d.tipo
      && e.areaTematica == d.areaTematica
      && e.criador == d.criadorNumero.value && e.local == d.localId.value
      && e.estado == (if d.estado.Some? then d.estado.value else RASCUNHO)
      && e.motivoRemocao.None?
  {
    if ErroDados(d).Some? then Err(ErroDados(d).value)
    else if d.criadorNumero.None? then Err(IdNulo)
    else if !ExisteUtilizador(st.utilizadores, d.criadorNumero.value) then Err(CriadorNaoEncontrado)
    else if d.localId.None? then Err(IdNulo)
    else if d.localId.value !in st.locais then Err(LocalNaoEncontrado)
    else
      var e := Evento(NextId(st.eventos, EventoId()), d.titulo.value, d.descricao, d.dataInicio, d.dataFim,
                      d.maxParticipantes, d.tipo, d.areaTematica, d.criadorNumero.value, d.localId.value,
                      d.estado.GetOr(RASCUNHO), None);
      Ok((st.(eventos := st.eventos + [e]), e))
  }

  /** `atualizar`. Fails for an unknown event, then on the shared title and
      date rules, then without an author, then for an unknown author or
      venue; otherwise overwrites the event's fields in place. The creator
      and the cancellation reason are kept, and the state only changes
      when one is supplied. */
  function Atualizar(st: Store, id: nat, d: EventoDados): (r: Result<(Store, Evento)>)
    ensures EventoDe(st.eventos, id).None? ==> r == Err(EventoNaoEncontrado)
    ensures EventoDe(st.eventos, id).Some? && !DadosValidos(d) ==> r == Err(ErroDados(d).value)
    ensures EventoDe(st.eventos, id).Some? && DadosValidos(d) && d.criadorNumero.None? ==>
                  r == Err(IdentificacaoObrigatoria)
    ensures && EventoDe(st.eventos, id).Some? && DadosValidos(d) && d.criadorNumero.Some?
            && !ExisteUtilizador(st.utilizadores, d.criadorNumero.value) ==>
                  r == Err(UtilizadorInexistente)
    ensures && EventoDe(st.eventos, id).Some? && DadosValidos(d) && d.criadorNumero.Some?
            && ExisteUtilizador(st.utilizadores, d.criadorNumero.value) ==>
                  && (d.localId.None? ==> r == Err(IdNulo))
                  && (d.localId.Some? && d.localId.value !in st.locais ==> r == Err(LocalNaoEncontrado))
    ensures r.Ok? <==> && EventoDe(st.eventos, id).Some? && DadosValidos(d)
                       && d.criadorNumero.Some? && ExisteUtilizador(st.utilizadores, d.criadorNumero.value)
                       && d.localId.Some? && d.localId.value in st.locais
    ensures r.Ok? ==>
      var (st', e) := r.value;
      var k := FindEvento(st.eventos, id).value;
      var old_ := st.eventos[k];
      && st' == st.(eventos := st.eventos[k := e])
      && e.id == id && e.criador == old_.criador && e.motivoRemocao == old_.motivoRemocao
      && e.titulo == d.titulo.value && e.descricao == d.descricao
      && e.dataInicio == d.dataInicio && e.dataFim == d.dataFim
      && e.maxParticipantes == d.maxParticipantes && e.tipo == d.tipo
      && e.areaTematica == d.areaTematica && e.local == d.localId.value
      && e.estado == (if d.estado.Some? then d.estado.value else old_.estado)
  {
    var k :- Need(FindEvento(st.eventos, id), EventoNaoEncontrado);
    if ErroDados(d).Some? then Err(ErroDados(d).value)
    else if d.criadorNumero.None? then Err(IdentificacaoObrigatoria)
    else if !ExisteUtilizador(st.utilizadores, d.criadorNumero.value) then Err(UtilizadorInexistente)
    else if d.localId.None? then Err(IdNulo)
    else if d.localId.value !in st.locais then Err(LocalNaoEncontrado)
    else
      var e := st.eventos[k].(titulo := d.titulo.value, descricao := d.descricao,
                              dataInicio := d.dataInicio, dataFim := d.dataFim,
                              maxParticipantes := d.maxParticipantes, tipo := d.tipo,
                              areaTematica := d.areaTematica, local := d.localId.value,
                              estado := d.estado.GetOr(st.eventos[k].estado));
      Ok((st.(eventos := st.eventos[k := e]), e))
  }

  /** `publicar`: any event, in whatever state, becomes PUBLICADO once the
      event and the author are found. */
  function Publicar(st: Store, id: nat, autor: int): (r: Result<(Store, Evento)>)
    ensures EventoDe(st.eventos, id).None? ==> r == Err(EventoNaoEncontrado)
    ensures EventoDe(st.eventos, id).Some? && !ExisteUtilizador(st.utilizadores, autor) ==>
                  r == Err(AutorNaoEncontrado)
    ensures r.Ok? <==> EventoDe(st.eventos, id).Some? && ExisteUtilizador(st.utilizadores, autor)
    ensures r.Ok? ==>
      var k := FindEvento(st.eventos, id).value;
      && r.value.1 == st.eventos[k].(estado := PUBLICADO)
      && r.value.0 == st.(eventos := st.eventos[k := r.value.1])
  {
    var k :- Need(FindEvento(st.eventos, id), EventoNaoEncontrado);
    if !ExisteUtilizador(st.utilizadores, autor) then Err(AutorNaoEncontrado)
    else
      var e := st.eventos[k].(estado := PUBLICADO);
      Ok((st.(eventos := st.eventos[k := e]), e))
  }

  /** `cancelar`: like `publicar`, but the event becomes CANCELADO and
      records the reason. Its registrations are left as they are. */
  function Cancelar(st: Store, id: nat, autor: int, motivo: Option<string>): (r: Result<(Store, Evento)>)
    ensures EventoDe(st.eventos, id).None? ==> r == Err(EventoNaoEncontrado)
    ensures EventoDe(st.eventos, id).Some? && !ExisteUtilizador(st.utilizadores, autor) ==>
                  r == Err(AutorNaoEncontrado)
    ensures r.Ok? <==> EventoDe(st.eventos, id).Some? && ExisteUtilizador(st.utilizadores, autor)
    ensures r.Ok? ==>
      var k := FindEvento(st.eventos, id).value;
      && r.value.1 == st.eventos[k].(estado := CANCELADO, motivoRemocao := motivo)
      && r.value.0 == st.(eventos := st.eventos[k := r.value.1])
  {
    var k :- Need(FindEvento(st.eventos, id), EventoNaoEncontrado);
    if !ExisteUtilizador(st.utilizadores, autor) then Err(AutorNaoEncontrado)
    else
      var e := st.eventos[k].(estado := CANCELADO, motivoRemocao := motivo);
      Ok((st.(eventos := st.eventos[k := e]), e))
  }

  // ---------------------------------------------------------------------
  // Registration

  /** Registration is open: the event is published and has not started. */
  predicate Aberto(e: Evento, now: Instante) {
    e.estado == PUBLICADO && (e.dataInicio.None? || e.dataInicio.value >= now)
  }

  /** The event is full: it has a capacity and the ATIVA registrations
      already reach it. An event without a capacity is never full. */
  predicate Lotado(e: Evento, ativas: nat) {
    e.maxParticipantes.Some? && ativas >= e.maxParticipantes.value
  }

  /** The waiting-list entry a full event gets: one more row, at position
      "entries of the event so far + 1", under a fresh id. */
  function EntrarNaListaDeEspera(st: Store, eventoId: nat, numero: int): (st': Store)
    ensures |st'.listaEspera| == |st.listaEspera| + 1
    ensures st'.listaEspera[..|st.listaEspera|] == st.listaEspera
    ensures var le := st'.listaEspera[|st.listaEspera|];
      && le.evento == eventoId && le.utilizador == numero
      && le.posicao == Count(st.listaEspera, NaFilaDe(eventoId)) + 1
      && (forall k :: 0 <= k < |st.listaEspera| ==> st.listaEspera[k].id != le.id)
    ensures st' == st.(listaEspera := st'.listaEspera)
  {
    var le := ListaEspera(NextId(st.listaEspera, ListaEsperaId()), eventoId, numero,
                          Count(st.listaEspera, NaFilaDe(eventoId)) + 1);
    assert (st.listaEspera + [le])[..|st.listaEspera|] == st.listaEspera;
    st.(listaEspera := st.listaEspera + [le])
  }

  /** The registration an event with room gets: one more ATIVA row under a
      fresh id, reported with its id and token. */
  function Registar(st: Store, e: Evento, numero: int, now: Instante, uuid: Uuid)
    : (r: (Store, InscricaoResultadoDto))
    ensures var st' := r.0;
      && |st'.inscricoes| == |st.inscricoes| + 1
      && st'.inscricoes[..|st.inscricoes|] == st.inscricoes
      && (var i := st'.inscricoes[|st.inscricoes|];
          && InscricaoNova(i, i.id, e, numero, now)
          && (forall k :: 0 <= k < |st.inscricoes| ==> st.inscricoes[k].id != i.id)
          && r.1 == InscricaoResultadoDto(INSCRICAO_OK, Some(i.id), i.qrCodeCheckin))
      && st' == st.(inscricoes := st'.inscricoes)
  {
    var i := NovaInscricao(NextId(st.inscricoes, InscricaoId()), e, numero, now, uuid);
    NovaInscricaoCorreta(i.id, e, numero, now, uuid);
    assert (st.inscricoes + [i])[..|st.inscricoes|] == st.inscricoes;
    (st.(inscricoes := st.inscricoes + [i]), InscricaoResultadoDto(INSCRICAO_OK, Some(i.id), i.qrCodeCheckin))
  }

  /** `inscreverEmEvento`. After the event, state, start, user and
      duplicate checks (the duplicate check sees registrations in every
      state and never the waiting list), a full event gets one more
      waiting-list entry at position "entries so far + 1"; otherwise one new
      ATIVA registration is appended and its id and token are returned. */
  function InscreverEmEvento(st: Store, eventoId: nat, numero: int, now: Instante, uuid: Uuid)
    : (r: Result<(Store, InscricaoResultadoDto)>)
    ensures EventoDe(st.eventos, eventoId).None? ==> r == Err(EventoNaoEncontrado)
    ensures EventoDe(st.eventos, eventoId).Some? ==>
      var e := EventoDe(st.eventos, eventoId).value;
      && (e.estado != PUBLICADO ==> r == Err(EventoNaoPublicado))
      && (e.estado == PUBLICADO && !Aberto(e, now) ==> r == Err(EventoJaIniciado))
      && (Aberto(e, now) && !ExisteUtilizador(st.utilizadores, numero) ==> r == Err(UtilizadorInexistente))
      && (Aberto(e, now) && ExisteUtilizador(st.utilizadores, numero) && TemInscricao(st.inscricoes, eventoId, numero) ==>
            r == Err(JaInscrito))
      && (r.Ok? <==> Aberto(e, now) && ExisteUtilizador(st.utilizadores, numero)
                     && !TemInscricao(st.inscricoes, eventoId, numero))
    ensures r.Ok? && Lotado(EventoDe(st.eventos, eventoId).value, Ativas(st.inscricoes, eventoId)) ==>
      var st' := r.value.0;
      && r.value.1 == InscricaoResultadoDto(EVENTO_LOTADO_LISTA_ESPERA, None, None)
      && |st'.listaEspera| == |st.listaEspera| + 1
      && st'.listaEspera[..|st.listaEspera|] == st.listaEspera
      && (var le := st'.listaEspera[|st.listaEspera|];
          && le.evento == eventoId && le.utilizador == numero
          && le.posicao == Count(st.listaEspera, NaFilaDe(eventoId)) + 1
          && (forall k :: 0 <= k < |st.listaEspera| ==> st.listaEspera[k].id != le.id))
      && st' == st.(listaEspera := st'.listaEspera)
    ensures r.Ok? && !Lotado(EventoDe(st.eventos, eventoId).value, Ativas(st.inscricoes, eventoId)) ==>
      var st' := r.value.0;
      && |st'.inscricoes| == |st.inscricoes| + 1
      && st'.inscricoes[..|st.inscricoes|] == st.inscricoes
      && (var i := st'.inscricoes[|st.inscricoes|];
          && InscricaoNova(i, i.id, EventoDe(st.eventos, eventoId).value, numero, now)
          && (forall k :: 0 <= k < |st.inscricoes| ==> st.inscricoes[k].id != i.id)
          && r.value.1 == InscricaoResultadoDto(INSCRICAO_OK, Some(i.id), i.qrCodeCheckin))
      && st' == st.(inscricoes := st'.inscricoes)
  {
    match FindEvento(st.eventos, eventoId)
    case None => Err(EventoNaoEncontrado)
    case Some(k) =>
      var e := st.eventos[k];
      if e.estado != PUBLICADO then Err(EventoNaoPublicado)
      else if e.dataInicio.Some? && e.dataInicio.value < now then Err(EventoJaIniciado)
      else if !ExisteUtilizador(st.utilizadores, numero) then Err(UtilizadorInexistente)
      else if TemInscricao(st.inscricoes, eventoId, numero) then Err(JaInscrito)
      else if Lotado(e, Ativas(st.inscricoes, eventoId)) then
        Ok((EntrarNaListaDeEspera(st, eventoId, numero), InscricaoResultadoDto(EVENTO_LOTADO_LISTA_ESPERA, None, None)))
      else Ok(Registar(st, e, numero, now, uuid))
  }

  /** `promoverDaListaEspera`. Nothing happens when the event has no
      waiting-list entry. Otherwise an entry of minimal position is turned
      into a new ATIVA registration for its user and deleted; neither
      capacity nor an existing registration of that user is looked at. */
  function PromoverDaListaEspera(st: Store, eventoId: nat, now: Instante, uuid: Uuid): (r: Result<Store>)
    ensures FindFirstByEventoIdOrderByPosicaoAsc(st.listaEspera, eventoId).None? ==> r == Ok(st)
    ensures FindFirstByEventoIdOrderByPosicaoAsc(st.listaEspera, eventoId).Some? ==>
      && (EventoDe(st.eventos, eventoId).None? ==> r == Err(EventoNaoEncontrado))
      && (EventoDe(st.eventos, eventoId).Some? ==> r.Ok?)
    ensures FindFirstByEventoIdOrderByPosicaoAsc(st.listaEspera, eventoId).Some? && r.Ok? ==>
      var j := FindFirstByEventoIdOrderByPosicaoAsc(st.listaEspera, eventoId).value;
      var st' := r.value;
      && EventoDe(st.eventos, eventoId).Some?
      && st'.listaEspera == RemoveAt(st.listaEspera, j)
      && |st'.inscricoes| == |st.inscricoes| + 1
      && st'.inscricoes[..|st.inscricoes|] == st.inscricoes
      && (var i := st'.inscricoes[|st.inscricoes|];
          && InscricaoNova(i, i.id, EventoDe(st.eventos, eventoId).value, st.listaEspera[j].utilizador, now)
          && (forall k :: 0 <= k < |st.inscricoes| ==> st.inscricoes[k].id != i.id))
      && st' == st.(inscricoes := st'.inscricoes, listaEspera := st'.listaEspera)
  {
    match FindFirstByEventoIdOrderByPosicaoAsc(st.listaEspera, eventoId)
    case None => Ok(st)
    case Some(j) =>
      var k :- Need(FindEvento(st.eventos, eventoId), EventoNaoEncontrado);
      var i := NovaInscricao(NextId(st.inscricoes, InscricaoId()), st.eventos[k],
                             st.listaEspera[j].utilizador, now, uuid);
      NovaInscricaoCorreta(i.id, st.eventos[k], st.listaEspera[j].utilizador, now, uuid);
      assert (st.inscricoes + [i])[..|st.inscricoes|] == st.inscricoes;
      Ok(st.(inscricoes := st.inscricoes + [i], listaEspera := RemoveAt(st.listaEspera, j)))
  }

  // ---------------------------------------------------------------------
  // Statistics and search

  /** `obterEstatisticas`: counts over the event's registrations. The free
      places are capacity minus ATIVA registrations in 32-bit `int`
      arithmetic, never below 0, or -1 without a capacity; the certificate
      count is always reported as 0. */
  function ObterEstatisticas(st: Store, eventoId: nat): (r: Result<Estatisticas>)
    ensures r.Err? <==> EventoDe(st.eventos, eventoId).None?
    ensures r.Err? ==> r.error == EventoNaoEncontrado
    ensures r.Ok? ==>
      var s := r.value;
      var e := EventoDe(st.eventos, eventoId).value;
      && s.eventoId == eventoId && s.eventoTitulo == e.titulo
      && s.totalInscricoes == Count(st.inscricoes, DoEvento(eventoId))
      && s.inscricoesAtivas == Ativas(st.inscricoes, eventoId)
      && s.inscricoesCanceladas == CountByEventoIdAndEstado(st.inscricoes, eventoId, CANCELADA)
      && s.checkInsRealizados == Count(st.inscricoes, DoEventoComCheckin(eventoId))
      && s.inscricoesAtivas + s.inscricoesCanceladas == s.totalInscricoes
      && s.checkInsRealizados <= s.totalInscricoes
      && s.maxParticipantes == e.maxParticipantes
      && s.vagasDisponiveis == Vagas(e.maxParticipantes, s.inscricoesAtivas)
      && s.certificadosEmitidos == 0
  {
    var k :- Need(FindEvento(st.eventos, eventoId), EventoNaoEncontrado);
    var e := st.eventos[k];
    var insc := Filter(st.inscricoes, DoEvento(eventoId));
    var ativas := Count(insc, ComEstado(ATIVA));
    var canceladas := Count(insc, ComEstado(CANCELADA));
    var checkIns := Count(insc, ComCheckin());
    CountFilter(st.inscricoes, DoEvento(eventoId), ComEstado(ATIVA), DoEventoComEstado(eventoId, ATIVA));
    CountFilter(st.inscricoes, DoEvento(eventoId), ComEstado(CANCELADA), DoEventoComEstado(eventoId, CANCELADA));
    CountFilter(st.inscricoes, DoEvento(eventoId), ComCheckin(), DoEventoComCheckin(eventoId));
    CountDisjoint(insc, ComEstado(ATIVA), ComEstado(CANCELADA), Todos());
    CountTodos(insc);
    Ok(Estatisticas(e.id, e.titulo, |insc|, ativas, canceladas, checkIns, e.maxParticipantes,
                    Vagas(e.maxParticipantes, ativas), 0))
  }

  /** The free places: capacity minus ATIVA registrations in 32-bit `int`
      arithmetic, never below 0; -1 without a capacity. */
  function Vagas(maxParticipantes: Option<int>, ativas: nat): (v: int)
    ensures maxParticipantes.None? ==> v == -1
    ensures maxParticipantes.Some? ==>
      && v >= 0
      && v >= Wrap32(maxParticipantes.value - ativas)
      && (v == 0 || v == Wrap32(maxParticipantes.value - ativas))
  {
    if maxParticipantes.Some? then Max(0, Wrap32(maxParticipantes.value - ativas)) else -1
  }

  function Max(a: int, b: int): (m: int)
    ensures m >= a && m >= b && (m == a || m == b)
  {
    if a >= b then a else b
  }

  /** While capacity minus ATIVA registrations fits in an `int`, the free
      places are exactly that difference, or 0 when it is negative. */
  lemma VagasSemTransbordo(st: Store, eventoId: nat)
    requires ObterEstatisticas(st, eventoId).Ok?
    requires ObterEstatisticas(st, eventoId).value.maxParticipantes.Some?
    requires var s := ObterEstatisticas(st, eventoId).value;
      IsInt32(s.maxParticipantes.value - s.inscricoesAtivas)
    ensures var s := ObterEstatisticas(st, eventoId).value;
      s.vagasDisponiveis == Max(0, s.maxParticipantes.value - s.inscricoesAtivas)
  {
  }

  /** An event whose capacity was updated to `Integer.MIN_VALUE` and which
      holds one ATIVA registration. */
  function CapacidadeMinima(): (st: Store)
    ensures |st.eventos| == 1 && st.eventos[0].maxParticipantes == Some(INT_MIN)
  {
    Store([Evento(1, "Workshop", None, None, None, Some(INT_MIN), None, None, 1, 1, PUBLICADO, None)],
          [Inscricao(1, 1, 10, 0, ATIVA, false, None, None, None)],
          [], [], [], {}, [])
  }

  /** The subtraction wraps around: `MIN_VALUE - 1` is `MAX_VALUE`, so the
      statistics report 2147483647 free places. */
  lemma VagasTransbordo()
    ensures ObterEstatisticas(CapacidadeMinima(), 1).Ok?
    ensures ObterEstatisticas(CapacidadeMinima(), 1).value.inscricoesAtivas == 1
    ensures ObterEstatisticas(CapacidadeMinima(), 1).value.vagasDisponiveis == INT_MAX
  {
    var st := CapacidadeMinima();
    assert FindEvento(st.eventos, 1) == Some(0);
    assert st.inscricoes[..0] == [];
    assert Ativas(st.inscricoes, 1) == 1;
  }

  /** The search filters of `pesquisar`, already parsed: a date window on
      the start (both ends inclusive, and an event without a start never
      matches a date filter), an event type, a venue and an organiser;
      None switches a filter off. */
  datatype Pesquisa = Pesquisa(
    inicio: Option<Instante>,
    fim: Option<Instante>,
    tipo: Option<string>,
    localId: Option<int>,
    organizador: Option<int>)

  predicate Corresponde(p: Pesquisa, e: Evento) {
    && (p.inicio.Some? ==> e.dataInicio.Some? && e.dataInicio.value >= p.inicio.value)
    && (p.fim.Some? ==> e.dataInicio.Some? && e.dataInicio.value <= p.fim.value)
    && (p.tipo.Some? ==> e.tipo == p.tipo)
    && (p.localId.Some? ==> e.local == p.localId.value)
    && (p.organizador.Some? ==> e.criador == p.organizador.value)
  }

  function Correspondem(p: Pesquisa): Evento -> bool {
    (e: Evento) => Corresponde(p, e)
  }

  /** `pesquisar`: the events meeting every active filter, in table order. */
  function Pesquisar(st: Store, p: Pesquisa): (r: seq<Evento>)
    ensures |r| <= |st.eventos|
    ensures forall k :: 0 <= k < |r| ==> r[k] in st.eventos && Corresponde(p, r[k])
    ensures forall k :: 0 <= k < |st.eventos| && Corresponde(p, st.eventos[k]) ==> st.eventos[k] in r
    ensures p == Pesquisa(None, None, None, None, None) ==> |r| == |st.eventos|
  {
    if p == Pesquisa(None, None, None, None, None) then
      CountSame(st.eventos, Correspondem(p), Todos());
      CountTodos(st.eventos);
      Filter(st.eventos, Correspondem(p))
    else Filter(st.eventos, Correspondem(p))
  }
}

=== FILE: inscricao_resultado.dfy ===
/** The client's `InscricaoResultado`: the registration outcome as received
    from the server, and the two questions the screens ask of it. */
module InscricaoResultado {
  import opened Base
  import opened Entities
  import opened Repositories
  import opened Text
  import EventoService

  datatype InscricaoResultado = InscricaoResultado(
    resultado: Option<string>,
    inscricaoId: Option<int>,
    qrCodeToken: Option<string>,
    qrCodeUrl: Option<string>)

  /** `isSucesso`. */
  predicate IsSucesso(r: InscricaoResultado) {
    r.resultado == Some("INSCRICAO_OK")
  }

  /** `isListaEspera`. */
  predicate IsListaEspera(r: InscricaoResultado) {
    r.resultado == Some("EVENTO_LOTADO_LISTA_ESPERA")
  }

  /** The two outcomes exclude each other; a missing text or any other
      text, an error message for instance, is neither. */
  lemma ClassificacaoExclusiva(r: InscricaoResultado)
    ensures !(IsSucesso(r) && IsListaEspera(r))
    ensures (r.resultado.None? ==> !IsSucesso(r) && !IsListaEspera(r))
    ensures r.resultado.Some? && r.resultado.value != "INSCRICAO_OK" && r.resultado.value != "EVENTO_LOTADO_LISTA_ESPERA" ==>
      !IsSucesso(r) && !IsListaEspera(r)
  {
  }

  /** The server's result as the client deserialises it (the image URL is
      not modelled). */
  function DoServidor(d: EventoService.InscricaoResultadoDto): (r: InscricaoResultado)
    ensures r.resultado == Some(d.resultado) && r.qrCodeToken == d.qrCodeToken
  {
    InscricaoResultado(Some(d.resultado), match d.inscricaoId case Some(i) => Some(i) case None => None,
                       d.qrCodeToken, None)
  }

  /** A successful registration is classified as success exactly when the
      event was not full, and as waiting list exactly when it was. */
  lemma ClassificaInscricao(st: Store, eventoId: nat, numero: int, now: Instante, uuid: Uuid)
    requires EventoService.InscreverEmEvento(st, eventoId, numero, now, uuid).Ok?
    ensures var r := DoServidor(EventoService.InscreverEmEvento(st, eventoId, numero, now, uuid).value.1);
      var lotado := EventoService.Lotado(EventoDe(st.eventos, eventoId).value, Ativas(st.inscricoes, eventoId));
      && (IsSucesso(r) <==> !lotado)
      && (IsListaEspera(r) <==> lotado)
      && (IsSucesso(r) ==> r.qrCodeToken.Some?)
  {
  }
}

=== FILE: inscricao_service.dfy ===
/** `InscricaoService`: cancelling a registration (which always tries to
    promote someone from the event's waiting list), manual and QR-token
    check-in, reading the stored token, and the registration DTO. */
module InscricaoService {
  import opened Base
  import opened Text
  import opened Entities
  import opened Repositories
  import EventoService

  /** `InscricaoDTO`. */
  datatype InscricaoDto = InscricaoDto(
    id: nat,
    eventoId: nat,
    eventoTitulo: Option<string>,
    utilizadorNumero: int,
    dataInscricao: Instante,
    estado: EstadoInscricao,
    checkIn: bool,
    dataCheckin: Option<Instante>,
    qrCodeToken: Option<string>)

  /** The token is shown only to an ATIVA registration that has not checked
      in yet. */
  predicate ExpoeToken(i: Inscricao) {
    i.estado == ATIVA && !i.checkIn && i.qrCodeCheckin.Some?
  }

  /** `toDTO`. */
  function ToDto(eventos: seq<Evento>, i: Inscricao): (d: InscricaoDto)
    ensures d.qrCodeToken.Some? <==> ExpoeToken(i)
    ensures d.qrCodeToken.Some? ==> d.qrCodeToken == i.qrCodeCheckin
    ensures && d.id == i.id && d.eventoId == i.evento && d.utilizadorNumero == i.utilizador
            && d.dataInscricao == i.dataInscricao && d.estado == i.estado
            && d.checkIn == i.checkIn && d.dataCheckin == i.dataCheckin
    ensures d.eventoTitulo.Some? <==> EventoDe(eventos, i.evento).Some?
  {
    var titulo := match EventoDe(eventos, i.evento)
                  case Some(e) => Some(e.titulo)
                  case None => None;
    InscricaoDto(i.id, i.evento, titulo, i.utilizador, i.dataInscricao, i.estado,
                 i.checkIn, i.dataCheckin,
                 if ExpoeToken(i) then i.qrCodeCheckin else None)
  }

  /** The store with the registration at index `k` marked CANCELADA. */
  function MarcarCancelada(st: Store, k: nat): (st': Store)
    requires k < |st.inscricoes|
    ensures st' == st.(inscricoes := st'.inscricoes)
    ensures st'.inscricoes == st.inscricoes[k := st.inscricoes[k].(estado := CANCELADA)]
  {
    st.(inscricoes := st.inscricoes[k := st.inscricoes[k].(estado := CANCELADA)])
  }

  /** `cancelarInscricao`. An unknown id fails. Otherwise the registration
      becomes CANCELADA whatever its state was, and promotion from the
      event's waiting list always follows; the cancelled registration is
      returned, with no token. */
  function CancelarInscricao(st: Store, id: nat, now: Instante, uuid: Uuid): (r: Result<(Store, InscricaoDto)>)
    ensures InscricaoDe(st.inscricoes, id).None? ==> r == Err(InscricaoNaoEncontrada)
    ensures InscricaoDe(st.inscricoes, id).Some? ==>
      var k := FindInscricao(st.inscricoes, id).value;
      var st1 := MarcarCancelada(st, k);
      && (r.Ok? <==> EventoService.PromoverDaListaEspera(st1, st.inscricoes[k].evento, now, uuid).Ok?)
      && (r.Ok? ==> Ok(r.value.0) == EventoService.PromoverDaListaEspera(st1, st.inscricoes[k].evento, now, uuid))
    ensures r.Ok? ==>
      && r.value.1.id == id && r.value.1.estado == CANCELADA && r.value.1.qrCodeToken.None?
  {
    var k :- Need(FindInscricao(st.inscricoes, id), InscricaoNaoEncontrada);
    var c := st.inscricoes[k].(estado := CANCELADA);
    var st1 := MarcarCancelada(st, k);
    var st2 :- EventoService.PromoverDaListaEspera(st1, c.evento, now, uuid);
    Ok((st2, ToDto(st2.eventos, c)))
  }

  /** The registration at `k` checked in at `now`: only `checkIn` and
      `dataCheckin` change. */
  function ComCheckinEm(st: Store, k: nat, now: Instante): (st': Store)
    requires k < |st.inscricoes|
    ensures st' == st.(inscricoes := st'.inscricoes)
    ensures st'.inscricoes == st.inscricoes[k := st.inscricoes[k].(checkIn := true, dataCheckin := Some(now))]
  {
    st.(inscricoes := st.inscricoes[k := st.inscricoes[k].(checkIn := true, dataCheckin := Some(now))])
  }

  /** `fazerCheckin`: manual check-in by id. Fails for an unknown id or a
      registration already checked in; it looks at neither the state nor
      the token. */
  function FazerCheckin(st: Store, id: nat, now: Instante): (r: Result<(Store, InscricaoDto)>)
    ensures InscricaoDe(st.inscricoes, id).None? ==> r == Err(InscricaoNaoEncontrada)
    ensures InscricaoDe(st.inscricoes, id).Some? && InscricaoDe(st.inscricoes, id).value.checkIn ==>
      r == Err(CheckinJaEfetuado)
    ensures r.Ok? <==> InscricaoDe(st.inscricoes, id).Some? && !InscricaoDe(st.inscricoes, id).value.checkIn
    ensures r.Ok? ==>
      var k := FindInscricao(st.inscricoes, id).value;
      && r.value.0 == ComCheckinEm(st, k, now)
      && r.value.1.id == id && r.value.1.checkIn && r.value.1.qrCodeToken.None?
  {
    var k :- Need(FindInscricao(st.inscricoes, id), InscricaoNaoEncontrada);
    if st.inscricoes[k].checkIn then Err(CheckinJaEfetuado)
    else
      var st' := ComCheckinEm(st, k, now);
      Ok((st', ToDto(st'.eventos, st'.inscricoes[k])))
  }

  /** A token has expired when it has a validity and `now` is strictly
      after it; the validity instant itself is still accepted. */
  predicate Expirado(i: Inscricao, now: Instante) {
    i.validadeQrcode.Some? && now > i.validadeQrcode.value
  }

  /** `fazerCheckinPorToken`: an unknown token, then an expired one, then a
      registration already checked in fail. The token stays stored, and
      the registration's state is not looked at. */
  function FazerCheckinPorToken(st: Store, token: string, now: Instante): (r: Result<(Store, InscricaoDto)>)
    ensures FindByQrCodeCheckin(st.inscricoes, token).None? ==> r == Err(TokenQrInvalido)
    ensures FindByQrCodeCheckin(st.inscricoes, token).Some? ==>
      var i := st.inscricoes[FindByQrCodeCheckin(st.inscricoes, token).value];
      && (Expirado(i, now) ==> r == Err(QrCodeExpirado))
      && (!Expirado(i, now) && i.checkIn ==> r == Err(CheckinJaEfetuado))
      && (r.Ok? <==> !Expirado(i, now) && !i.checkIn)
    ensures r.Ok? ==>
      var k := FindByQrCodeCheckin(st.inscricoes, token).value;
      && r.value.0 == ComCheckinEm(st, k, now)
      && r.value.0.inscricoes[k].qrCodeCheckin == Some(token)
      && r.value.1.checkIn && r.value.1.dataCheckin == Some(now)
  {
    var k :- Need(FindByQrCodeCheckin(st.inscricoes, token), TokenQrInvalido);
    var i := st.inscricoes[k];
    if Expirado(i, now) then Err(QrCodeExpirado)
    else if i.checkIn then Err(CheckinJaEfetuado)
    else
      var st' := ComCheckinEm(st, k, now);
      Ok((st', ToDto(st'.eventos, st'.inscricoes[k])))
  }

  /** A token that was used once cannot be used again: later it is either
      expired or already checked in. */
  lemma TokenNaoReutilizavel(st: Store, token: string, now: Instante, depois: Instante)
    requires FazerCheckinPorToken(st, token, now).Ok?
    ensures var st' := FazerCheckinPorToken(st, token, now).value.0;
      && FazerCheckinPorToken(st', token, depois).Err?
      && (FazerCheckinPorToken(st', token, depois).error == CheckinJaEfetuado
          || FazerCheckinPorToken(st', token, depois).error == QrCodeExpirado)
      && (depois <= now ==> FazerCheckinPorToken(st', token, depois) == Err(CheckinJaEfetuado))
  {
    var k := FindByQrCodeCheckin(st.inscricoes, token).value;
    var st' := FazerCheckinPorToken(st, token, now).value.0;
    var k' := FindByQrCodeCheckin(st'.inscricoes, token);
    assert st'.inscricoes[k].qrCodeCheckin == Some(token);
    assert forall j :: 0 <= j < k ==> st'.inscricoes[j] == st.inscricoes[j];
    assert k'.Some? && k'.value == k;
  }

  /** `obterQrCodeToken`: the stored token; an unknown id fails, and so does
      a registration whose token is null or blank. */
  function ObterQrCodeToken(st: Store, id: nat): (r: Result<string>)
    ensures InscricaoDe(st.inscricoes, id).None? ==> r == Err(InscricaoNaoEncontrada)
    ensures InscricaoDe(st.inscricoes, id).Some? ==>
      var t := InscricaoDe(st.inscricoes, id).value.qrCodeCheckin;
      && (r.Ok? <==> t.Some? && !IsBlank(t.value))
      && (r.Ok? ==> t == Some(r.value))
      && (r.Err? ==> r.error == SemQrCode)
  {
    var k :- Need(FindInscricao(st.inscricoes, id), InscricaoNaoEncontrada);
    var t := st.inscricoes[k].qrCodeCheckin;
    if t.None? || IsBlank(t.value) then Err(SemQrCode) else Ok(t.value)
  }
}

=== FILE: lotacao.dfy ===
/** Event capacity across the registration lifecycle: how registering and
    cancelling (with the promotion from the waiting list that cancelling
    always runs) move the count of ATIVA registrations that capacity is
    measured against. */
module Lotacao {
  import opened Base
  import opened Text
  import opened Tables
  import opened Entities
  import opened Repositories
  import EventoService
  import InscricaoService

  /** The event's ATIVA registrations do not exceed its capacity; an event
      without capacity, or one that does not exist, has nothing to
      respect. */
  predicate LotacaoRespeitada(st: Store, eventoId: nat) {
    match EventoDe(st.eventos, eventoId)
    case None => true
    case Some(e) => e.maxParticipantes.None? || Ativas(st.inscricoes, eventoId) <= e.maxParticipantes.value
  }

  /** Appending a row changes the ATIVA count of its own event only, by
      one when it is ATIVA. */
  lemma AtivasAppend(s: seq<Inscricao>, i: Inscricao, x: nat)
    ensures Ativas(s + [i], x) == Ativas(s, x) + (if i.evento == x && i.estado == ATIVA then 1 else 0)
  {
    CountAppend(s, i, DoEventoComEstado(x, ATIVA));
  }

  /** A registration becoming CANCELADA lowers its event's ATIVA count by
      one when it was ATIVA, and no other event's. */
  lemma AtivasCancelada(st: Store, k: nat, x: nat)
    requires k < |st.inscricoes|
    ensures Ativas(InscricaoService.MarcarCancelada(st, k).inscricoes, x) ==
            Ativas(st.inscricoes, x) - (if st.inscricoes[k].evento == x && st.inscricoes[k].estado == ATIVA then 1 else 0)
  {
    CountUpdate(st.inscricoes, k, st.inscricoes[k].(estado := CANCELADA), DoEventoComEstado(x, ATIVA));
  }

  /** A successful `inscreverEmEvento` keeps every event within capacity:
      it registers only below capacity and otherwise only queues. */
  lemma InscreverPreservaLotacao(st: Store, eventoId: nat, numero: int, now: Instante, uuid: Uuid, x: nat)
    requires EventoService.InscreverEmEvento(st, eventoId, numero, now, uuid).Ok?
    requires LotacaoRespeitada(st, x)
    ensures LotacaoRespeitada(EventoService.InscreverEmEvento(st, eventoId, numero, now, uuid).value.0, x)
  {
    var st' := EventoService.InscreverEmEvento(st, eventoId, numero, now, uuid).value.0;
    var e := EventoDe(st.eventos, eventoId).value;
    if !EventoService.Lotado(e, Ativas(st.inscricoes, eventoId)) {
      assert st'.inscricoes == st.inscricoes + [st'.inscricoes[|st.inscricoes|]];
      AtivasAppend(st.inscricoes, st'.inscricoes[|st.inscricoes|], x);
    }
  }

  /** Cancelling an ATIVA registration of an event with a waiting list
      leaves the event's ATIVA count as it was: one seat freed, one taken. */
  lemma CancelarAtivaMantemContagem(st: Store, id: nat, now: Instante, uuid: Uuid)
    requires InscricaoService.CancelarInscricao(st, id, now, uuid).Ok?
    requires InscricaoDe(st.inscricoes, id).Some? && InscricaoDe(st.inscricoes, id).value.estado == ATIVA
    requires FindFirstByEventoIdOrderByPosicaoAsc(st.listaEspera, InscricaoDe(st.inscricoes, id).value.evento).Some?
    ensures var x := InscricaoDe(st.inscricoes, id).value.evento;
            Ativas(InscricaoService.CancelarInscricao(st, id, now, uuid).value.0.inscricoes, x) == Ativas(st.inscricoes, x)
  {
    CancelarConta(st, id, now, uuid);
  }

  /** Cancelling a registration that is already CANCELADA, for an event
      with a waiting list, still promotes someone: the ATIVA count goes up
      by one. */
  lemma CancelarCanceladaAumenta(st: Store, id: nat, now: Instante, uuid: Uuid)
    requires InscricaoService.CancelarInscricao(st, id, now, uuid).Ok?
    requires InscricaoDe(st.inscricoes, id).Some? && InscricaoDe(st.inscricoes, id).value.estado == CANCELADA
    requires FindFirstByEventoIdOrderByPosicaoAsc(st.listaEspera, InscricaoDe(st.inscricoes, id).value.evento).Some?
    ensures var x := InscricaoDe(st.inscricoes, id).value.evento;
            Ativas(InscricaoService.CancelarInscricao(st, id, now, uuid).value.0.inscricoes, x) == Ativas(st.inscricoes, x) + 1
  {
    CancelarConta(st, id, now, uuid);
  }

  /** The ATIVA count of the cancelled registration's event after
      `cancelarInscricao`: minus one if it was ATIVA, plus one if the event
      had a waiting list. */
  lemma CancelarConta(st: Store, id: nat, now: Instante, uuid: Uuid)
    requires InscricaoService.CancelarInscricao(st, id, now, uuid).Ok?
    ensures InscricaoDe(st.inscricoes, id).Some?
    ensures var i := InscricaoDe(st.inscricoes, id).value;
            Ativas(InscricaoService.CancelarInscricao(st, id, now, uuid).value.0.inscricoes, i.evento) ==
            Ativas(st.inscricoes, i.evento) - (if i.estado == ATIVA then 1 else 0)
            + (if FindFirstByEventoIdOrderByPosicaoAsc(st.listaEspera, i.evento).Some? then 1 else 0)
  {
    var k := FindInscricao(st.inscricoes, id).value;
    var i := st.inscricoes[k];
    var st1 := InscricaoService.MarcarCancelada(st, k);
    AtivasCancelada(st, k, i.evento);
    var st2 := EventoService.PromoverDaListaEspera(st1, i.evento, now, uuid).value;
    if FindFirstByEventoIdOrderByPosicaoAsc(st.listaEspera, i.evento).Some? {
      assert st2.inscricoes == st1.inscricoes + [st2.inscricoes[|st1.inscricoes|]];
      AtivasAppend(st1.inscricoes, st2.inscricoes[|st1.inscricoes|], i.evento);
    }
  }

  /** A store where cancelling twice breaks capacity: event 1 holds one
      seat, taken by registration 1; registration 2 is already CANCELADA;
      one user waits. */
  function Exemplo(): (st: Store)
    ensures LotacaoRespeitada(st, 1)
  {
    Store([Evento(1, "Workshop", None, None, None, Some(1), None, None, 1, 1, PUBLICADO, None)],
          [Inscricao(1, 1, 10, 0, ATIVA, false, None, None, None),
           Inscricao(2, 1, 20, 0, CANCELADA, false, None, None, None)],
          [ListaEspera(1, 1, 30, 1)],
          [], [], {}, [])
  }

  /** Cancelling the already cancelled registration 2 of `Exemplo`
      promotes the waiting user into a full event: two ATIVA registrations
      for one seat. */
  lemma CancelarDuasVezesExcedeLotacao(now: Instante, uuid: Uuid)
    ensures InscricaoService.CancelarInscricao(Exemplo(), 2, now, uuid).Ok?
    ensures var st' := InscricaoService.CancelarInscricao(Exemplo(), 2, now, uuid).value.0;
      && Ativas(st'.inscricoes, 1) == 2
      && !LotacaoRespeitada(st', 1)
  {
    var st := Exemplo();
    assert FindInscricao(st.inscricoes, 2) == Some(1);
    assert FindFirstByEventoIdOrderByPosicaoAsc(st.listaEspera, 1) == Some(0);
    assert FindEvento(st.eventos, 1) == Some(0);
    CancelarConta(st, 2, now, uuid);
    var st' := InscricaoService.CancelarInscricao(st, 2, now, uuid).value.0;
    assert st'.eventos == st.eventos;
  }

  /** `cancelarInscricao` as evidently intended: a registration that is
      already CANCELADA frees no seat, so nothing happens and nobody is
      promoted; otherwise as the service does it. */
  function CancelarInscricaoCorrigida(st: Store, id: nat, now: Instante, uuid: Uuid)
    : (r: Result<(Store, InscricaoService.InscricaoDto)>)
    ensures InscricaoDe(st.inscricoes, id).None? ==> r == Err(InscricaoNaoEncontrada)
    ensures InscricaoDe(st.inscricoes, id).Some? && InscricaoDe(st.inscricoes, id).value.estado == ATIVA ==>
      r == InscricaoService.CancelarInscricao(st, id, now, uuid)
    ensures InscricaoDe(st.inscricoes, id).Some? && InscricaoDe(st.inscricoes, id).value.estado == CANCELADA ==>
      r.Ok? && r.value.0 == st && r.value.1.estado == CANCELADA && r.value.1.qrCodeToken.None?
  {
    var k :- Need(FindInscricao(st.inscricoes, id), InscricaoNaoEncontrada);
    if st.inscricoes[k].estado == CANCELADA then
      Ok((st, InscricaoService.ToDto(st.eventos, st.inscricoes[k])))
    else
      InscricaoService.CancelarInscricao(st, id, now, uuid)
  }

  /** The corrected cancellation keeps every event within capacity. */
  lemma CancelarCorrigidaPreservaLotacao(st: Store, id: nat, now: Instante, uuid: Uuid, x: nat)
    requires CancelarInscricaoCorrigida(st, id, now, uuid).Ok?
    requires LotacaoRespeitada(st, x)
    ensures LotacaoRespeitada(CancelarInscricaoCorrigida(st, id, now, uuid).value.0, x)
  {
    var i := InscricaoDe(st.inscricoes, id).value;
    if i.estado == ATIVA {
      var k := FindInscricao(st.inscricoes, id).value;
      var st1 := InscricaoService.MarcarCancelada(st, k);
      AtivasCancelada(st, k, x);
      var st2 := EventoService.PromoverDaListaEspera(st1, i.evento, now, uuid).value;
      assert st2.eventos == st.eventos;
      if FindFirstByEventoIdOrderByPosicaoAsc(st.listaEspera, i.evento).Some? {
        assert st2.inscricoes == st1.inscricoes + [st2.inscricoes[|st1.inscricoes|]];
        AtivasAppend(st1.inscricoes, st2.inscricoes[|st1.inscricoes|], x);
      }
    }
  }
}

=== FILE: main_controller.dfy ===
/** The client's main window (`MainController`): which sidebar entries a
    role sees, and the single highlighted navigation button. */
module MainController {
  import opened Base
  import opened Tables
  import opened Entities
  import UserSession

  /** The window's injected nodes; a field FXML left null is a missing key
      of `Janela.nos`. */
  datatype Elemento =
    | BtnOverview | BtnEventos | BtnInscricoes | BtnCalendario | BtnCertificados
    | SeparatorStaff | LblStaff | BtnCheckIn | BtnDocentePanel | BtnGestorPanel
    | SeparatorAdmin | LblAdmin | BtnAdminPanel

  /** A node's `visible` and `managed` flags and its style classes. */
  datatype No = No(visivel: bool, gerido: bool, classes: seq<string>)

  datatype Janela = Janela(nos: map<Elemento, No>, nomeUtilizador: Option<string>, perfilUtilizador: Option<Perfil>)

  /** The style class of the highlighted button. */
  const ATIVO := "active"

  /** The nine navigation buttons `setActive` clears, by their place in
      its array. */
  function Navegacao(k: int): (e: Elemento)
    requires 0 <= k < 9
  {
    match k
    case 0 => BtnOverview
    case 1 => BtnEventos
    case 2 => BtnInscricoes
    case 3 => BtnCalendario
    case 4 => BtnCertificados
    case 5 => BtnCheckIn
    case 6 => BtnDocentePanel
    case 7 => BtnGestorPanel
    case _ => BtnAdminPanel
  }

  /** The nodes `setupPermissions` shows or hides. */
  predicate Controlado(e: Elemento) {
    !(e.BtnOverview? || e.BtnEventos? || e.BtnInscricoes? || e.BtnCalendario? || e.BtnCertificados?)
  }

  /** The place of a navigation button in `Navegacao`. */
  function Ordem(e: Elemento): (k: int)
    ensures -1 <= k < 9
    ensures k >= 0 ==> Navegacao(k) == e
    ensures k == -1 <==> Controlado(e) && (e.SeparatorStaff? || e.LblStaff? || e.SeparatorAdmin? || e.LblAdmin?)
  {
    match e
    case BtnOverview => 0
    case BtnEventos => 1
    case BtnInscricoes => 2
    case BtnCalendario => 3
    case BtnCertificados => 4
    case BtnCheckIn => 5
    case BtnDocentePanel => 6
    case BtnGestorPanel => 7
    case BtnAdminPanel => 8
    case _ => -1
  }

  /** Who sees each controlled node: the staff section for every staff
      role, each panel for its own role and for ADMIN, the admin section
      for ADMIN alone. */
  predicate Permitido(e: Elemento, role: Perfil)
    requires Controlado(e)
  {
    match e
    case SeparatorStaff | LblStaff | BtnCheckIn => role == ADMIN || role == GESTOR_EVENTOS || role == DOCENTE
    case BtnDocentePanel => role == DOCENTE || role == ADMIN
    case BtnGestorPanel => role == GESTOR_EVENTOS || role == ADMIN
    case _ => role == ADMIN
  }

  /** `setVisibilidade`: `visible` and `managed` both take the value; a
      null node is skipped. */
  function SetVisibilidade(j: Janela, e: Elemento, visivel: bool): (r: Janela)
    ensures r.nos.Keys == j.nos.Keys
    ensures r.nomeUtilizador == j.nomeUtilizador && r.perfilUtilizador == j.perfilUtilizador
    ensures e !in j.nos ==> r == j
    ensures e in j.nos ==> r.nos == j.nos[e := No(visivel, visivel, j.nos[e].classes)]
  {
    if e !in j.nos then j
    else j.(nos := j.nos[e := j.nos[e].(visivel := visivel, gerido := visivel)])
  }

  /** The first three `setVisibilidade` calls: the staff section. */
  function AplicarSeccaoStaff(j: Janela, role: Perfil): (r: Janela)
    ensures r.nos.Keys == j.nos.Keys
    ensures r.nomeUtilizador == j.nomeUtilizador && r.perfilUtilizador == j.perfilUtilizador
  {
    var isStaff := role == ADMIN || role == GESTOR_EVENTOS || role == DOCENTE;
    var j1 := SetVisibilidade(j, SeparatorStaff, isStaff);
    var j2 := SetVisibilidade(j1, LblStaff, isStaff);
    SetVisibilidade(j2, BtnCheckIn, isStaff)
  }

  /** The next two calls: the Docente and Gestor panels. */
  function AplicarPaineis(j: Janela, role: Perfil): (r: Janela)
    ensures r.nos.Keys == j.nos.Keys
    ensures r.nomeUtilizador == j.nomeUtilizador && r.perfilUtilizador == j.perfilUtilizador
  {
    var isAdmin := role == ADMIN;
    var j4 := SetVisibilidade(j, BtnDocentePanel, role == DOCENTE || isAdmin);
    SetVisibilidade(j4, BtnGestorPanel, role == GESTOR_EVENTOS || isAdmin)
  }

  /** The last three calls: the admin section. */
  function AplicarAdmin(j: Janela, role: Perfil): (r: Janela)
    ensures r.nos.Keys == j.nos.Keys
    ensures r.nomeUtilizador == j.nomeUtilizador && r.perfilUtilizador == j.perfilUtilizador
  {
    var isAdmin := role == ADMIN;
    var j6 := SetVisibilidade(j, SeparatorAdmin, isAdmin);
    var j7 := SetVisibilidade(j6, LblAdmin, isAdmin);
    SetVisibilidade(j7, BtnAdminPanel, isAdmin)
  }

  /** The eight `setVisibilidade` calls of `setupPermissions` for a role, in
      the source's order. */
  function Aplicar(j: Janela, role: Perfil): (r: Janela)
    ensures r.nos.Keys == j.nos.Keys
    ensures r.nomeUtilizador == j.nomeUtilizador && r.perfilUtilizador == j.perfilUtilizador
  {
    AplicarAdmin(AplicarPaineis(AplicarSeccaoStaff(j, role), role), role)
  }

  /** One `setVisibilidade` call seen from one node. */
  lemma SetVisibilidadeNo(j: Janela, x: Elemento, v: bool, e: Elemento)
    requires e in j.nos
    ensures e in SetVisibilidade(j, x, v).nos
    ensures SetVisibilidade(j, x, v).nos[e] == if e == x then No(v, v, j.nos[e].classes) else j.nos[e]
  {
  }

  /** The staff calls set the staff section by the role and leave every
      other node as it was. */
  lemma AplicarSeccaoStaffNo(j: Janela, role: Perfil, e: Elemento)
    requires e in j.nos
    ensures AplicarSeccaoStaff(j, role).nos[e] ==
      if e.SeparatorStaff? || e.LblStaff? || e.BtnCheckIn?
      then No(Permitido(e, role), Permitido(e, role), j.nos[e].classes)
      else j.nos[e]
  {
    var isStaff := role == ADMIN || role == GESTOR_EVENTOS || role == DOCENTE;
    var j1 := SetVisibilidade(j, SeparatorStaff, isStaff);
    var j2 := SetVisibilidade(j1, LblStaff, isStaff);
    SetVisibilidadeNo(j, SeparatorStaff, isStaff, e);
    SetVisibilidadeNo(j1, LblStaff, isStaff, e);
    SetVisibilidadeNo(j2, BtnCheckIn, isStaff, e);
    if e.SeparatorStaff? || e.LblStaff? || e.BtnCheckIn? {
      assert Permitido(e, role) == isStaff;
    }
  }

  /** The panel calls set the two role panels by the role and leave every
      other node as it was. */
  lemma AplicarPaineisNo(j: Janela, role: Perfil, e: Elemento)
    requires e in j.nos
    ensures AplicarPaineis(j, role).nos[e] ==
      if e.BtnDocentePanel? || e.BtnGestorPanel?
      then No(Permitido(e, role), Permitido(e, role), j.nos[e].classes)
      else j.nos[e]
  {
    var isAdmin := role == ADMIN;
    var j4 := SetVisibilidade(j, BtnDocentePanel, role == DOCENTE || isAdmin);
    SetVisibilidadeNo(j, BtnDocentePanel, role == DOCENTE || isAdmin, e);
    SetVisibilidadeNo(j4, BtnGestorPanel, role == GESTOR_EVENTOS || isAdmin, e);
  }

  /** The admin calls set the admin section by the role and leave every
      other node as it was. */
  lemma AplicarAdminNo(j: Janela, role: Perfil, e: Elemento)
    requires e in j.nos
    ensures AplicarAdmin(j, role).nos[e] ==
      if e.SeparatorAdmin? || e.LblAdmin? || e.BtnAdminPanel?
      then No(role == ADMIN, role == ADMIN, j.nos[e].classes)
      else j.nos[e]
  {
    var isAdmin := role == ADMIN;
    var j6 := SetVisibilidade(j, SeparatorAdmin, isAdmin);
    var j7 := SetVisibilidade(j6, LblAdmin, isAdmin);
    SetVisibilidadeNo(j, SeparatorAdmin, isAdmin, e);
    SetVisibilidadeNo(j6, LblAdmin, isAdmin, e);
    SetVisibilidadeNo(j7, BtnAdminPanel, isAdmin, e);
  }

  /** The role matrix: the eight calls leave every controlled node present
      visible and managed exactly when the role may see it, keeping its
      classes, and every other node as it was. */
  lemma {:induction false} AplicarMatriz(j: Janela, role: Perfil, e: Elemento)
    requires e in j.nos
    ensures Aplicar(j, role).nos[e] ==
      if Controlado(e) then No(Permitido(e, role), Permitido(e, role), j.nos[e].classes) else j.nos[e]
  {
    var j1 := AplicarSeccaoStaff(j, role);
    AplicarSeccaoStaffNo(j, role, e);
    AplicarPaineisNo(j1, role, e);
    AplicarAdminNo(AplicarPaineis(j1, role), role, e);
    if e.SeparatorAdmin? || e.LblAdmin? || e.BtnAdminPanel? {
      assert Permitido(e, role) == (role == ADMIN);
    }
  }

  /** `setupPermissions`. Without a logged-in user nothing changes; a user
      whose role is null makes `toString` throw (None here). Otherwise the
      labels show the user and every controlled node present is visible
      and managed exactly when the role may see it; nothing else changes. */
  function SetupPermissions(s: UserSession.Sessao, j: Janela): (r: Option<Janela>)
    ensures !UserSession.IsLoggedIn(s) ==> r == Some(j)
    ensures UserSession.IsLoggedIn(s) ==> (r.None? <==> s.user.value.perfil.None?)
    ensures UserSession.IsLoggedIn(s) && r.Some? ==>
      var role := s.user.value.perfil.value;
      && r.value.nos.Keys == j.nos.Keys
      && r.value.nomeUtilizador == s.user.value.nome && r.value.perfilUtilizador == Some(role)
      && (forall e :: e in j.nos && Controlado(e) ==>
            r.value.nos[e] == No(Permitido(e, role), Permitido(e, role), j.nos[e].classes))
      && (forall e :: e in j.nos && !Controlado(e) ==> r.value.nos[e] == j.nos[e])
  {
    if !UserSession.IsLoggedIn(s) then Some(j)
    else
      var user := s.user.value;
      if user.perfil.None? then None
      else
        var j0 := j.(nomeUtilizador := user.nome, perfilUtilizador := user.perfil);
        var r := Aplicar(j0, user.perfil.value);
        assert forall e :: e in j.nos ==>
          (Controlado(e) ==> r.nos[e] == No(Permitido(e, user.perfil.value), Permitido(e, user.perfil.value), j.nos[e].classes))
          && (!Controlado(e) ==> r.nos[e] == j.nos[e]) by {
          forall e | e in j.nos {
            AplicarMatriz(j0, user.perfil.value, e);
          }
        }
        Some(r)
  }

  function Igual(x: string): string -> bool {
    (c: string) => c == x
  }

  /** `List.remove(Object)`: drops the first occurrence only, keeping the
      rest in order; a list without it is left as it is. */
  function RemoveFirst(s: seq<string>, x: string): (r: seq<string>)
    ensures FirstIndex(s, Igual(x)).None? ==> r == s
    ensures FirstIndex(s, Igual(x)).Some? ==> r == RemoveAt(s, FirstIndex(s, Igual(x)).value)
    decreases |s|
  {
    if |s| == 0 then []
    else if s[0] == x then
      assert s[1..] == RemoveAt(s, 0);
      s[1..]
    else
      var rest := RemoveFirst(s[1..], x);
      match FirstIndex(s[1..], Igual(x))
      case None => assert s == [s[0]] + s[1..]; [s[0]] + rest
      case Some(i) => RemoveAtCabeca(s, i); [s[0]] + rest
  }

  /** Removing `x` takes one `x` away when there is one and leaves the
      count of every other class alone. */
  lemma RemoveFirstConta(s: seq<string>, x: string, c: string)
    ensures Count(RemoveFirst(s, x), Igual(c)) ==
      Count(s, Igual(c)) - (if c == x && Count(s, Igual(x)) > 0 then 1 else 0)
  {
    match FirstIndex(s, Igual(x))
    case None =>
      CountNone(s, Igual(x));
    case Some(i) =>
      CountRemoveAt(s, i, Igual(c));
      if c == x {
        CountPositive(s, Igual(x), i);
      }
  }

  /** How often a node carries the highlight class. */
  function Ativos(n: No): nat {
    Count(n.classes, Igual(ATIVO))
  }

  /** No node carries the highlight class twice. */
  predicate NoMaximoUmAtivo(j: Janela) {
    forall e :: e in j.nos ==> Ativos(j.nos[e]) <= 1
  }

  predicate NaNavegacao(e: Elemento) {
    Ordem(e) >= 0
  }

  /** A navigation button with its first highlight removed. */
  function Limpo(n: No): (r: No)
    ensures r.visivel == n.visivel && r.gerido == n.gerido
  {
    n.(classes := RemoveFirst(n.classes, ATIVO))
  }

  lemma LimpoConta(n: No, c: string)
    ensures Count(Limpo(n).classes, Igual(c)) ==
            Count(n.classes, Igual(c)) - (if c == ATIVO && Ativos(n) > 0 then 1 else 0)
  {
    RemoveFirstConta(n.classes, ATIVO, c);
  }

  /** A node with the highlight appended. */
  function Destacado(n: No): (r: No)
    ensures r.visivel == n.visivel && r.gerido == n.gerido
  {
    n.(classes := n.classes + [ATIVO])
  }

  lemma DestacadoConta(n: No, c: string)
    ensures Count(Destacado(n).classes, Igual(c)) == Count(n.classes, Igual(c)) + (if c == ATIVO then 1 else 0)
  {
    CountAppend(n.classes, ATIVO, Igual(c));
  }

  /** How a node's class counts change under `setActive(btn)`. */
  lemma AposConta(n: No, e: Elemento, btn: Elemento, c: string)
    ensures Count(Apos(n, e, btn).classes, Igual(c)) ==
            Count(n.classes, Igual(c)) - (if c == ATIVO && NaNavegacao(e) && Ativos(n) > 0 then 1 else 0)
            + (if c == ATIVO && e == btn then 1 else 0)
  {
    var limpo := if NaNavegacao(e) then Limpo(n) else n;
    if NaNavegacao(e) {
      LimpoConta(n, c);
    }
    if e == btn {
      DestacadoConta(limpo, c);
    }
  }

  /** A node after `setActive(btn)`. */
  function Apos(n: No, e: Elemento, btn: Elemento): No {
    var limpo := if NaNavegacao(e) then Limpo(n) else n;
    if e == btn then Destacado(limpo) else limpo
  }

  /** What `setActive(btn)` leaves: each navigation button present loses
      its first highlight, then the target, when present, gains one. */
  function Activado(j: Janela, btn: Elemento): (r: Janela)
    ensures r.nos.Keys == j.nos.Keys
    ensures r.nomeUtilizador == j.nomeUtilizador && r.perfilUtilizador == j.perfilUtilizador
    ensures forall e :: e in j.nos ==> r.nos[e] == Apos(j.nos[e], e, btn)
  {
    j.(nos := map e | e in j.nos :: Apos(j.nos[e], e, btn))
  }

  /** Visibility and every class but the highlight are left alone, and
      nodes that are neither navigation buttons nor the target are not
      touched. */
  lemma {:induction false} ActivadoPreserva(j: Janela, btn: Elemento, e: Elemento, c: string)
    requires e in j.nos
    ensures Activado(j, btn).nos[e].visivel == j.nos[e].visivel && Activado(j, btn).nos[e].gerido == j.nos[e].gerido
    ensures c != ATIVO ==> Count(Activado(j, btn).nos[e].classes, Igual(c)) == Count(j.nos[e].classes, Igual(c))
    ensures !NaNavegacao(e) && e != btn ==> Activado(j, btn).nos[e] == j.nos[e]
  {
    AposConta(j.nos[e], e, btn, c);
  }

  /** With at most one highlight per node beforehand, the target is the
      only navigation button highlighted afterwards, once; with the target
      null, none is. Starting from a navigation button, the property is
      kept. */
  lemma {:induction false} SoOAlvoAtivo(j: Janela, btn: Elemento)
    requires NoMaximoUmAtivo(j)
    ensures forall e :: e in j.nos && NaNavegacao(e) ==> Ativos(Activado(j, btn).nos[e]) == if e == btn then 1 else 0
    ensures NaNavegacao(btn) ==> NoMaximoUmAtivo(Activado(j, btn))
  {
    var r := Activado(j, btn);
    forall e | e in j.nos
      ensures Ativos(r.nos[e]) == Ativos(j.nos[e]) - (if NaNavegacao(e) && Ativos(j.nos[e]) > 0 then 1 else 0)
                                  + (if e == btn then 1 else 0)
    {
      AposConta(j.nos[e], e, btn, ATIVO);
    }
  }

  /** One turn of `setActive`'s loop: a present button loses its first
      highlight. */
  function LimparBotao(j: Janela, b: Elemento): (r: Janela)
    ensures r.nos.Keys == j.nos.Keys
    ensures r.nomeUtilizador == j.nomeUtilizador && r.perfilUtilizador == j.perfilUtilizador
  {
    if b in j.nos then j.(nos := j.nos[b := Limpo(j.nos[b])]) else j
  }

  lemma LimparBotaoNo(j: Janela, b: Elemento, e: Elemento)
    requires e in j.nos
    ensures LimparBotao(j, b).nos[e] == if e == b then Limpo(j.nos[e]) else j.nos[e]
  {
  }

  /** The first `i` turns of the loop. */
  function LimparAte(j: Janela, i: int): (r: Janela)
    requires 0 <= i <= 9
    ensures r.nos.Keys == j.nos.Keys
    ensures r.nomeUtilizador == j.nomeUtilizador && r.perfilUtilizador == j.perfilUtilizador
    decreases i
  {
    if i == 0 then j else LimparBotao(LimparAte(j, i - 1), Navegacao(i - 1))
  }

  /** After `i` turns exactly the buttons placed before `i` are cleared. */
  lemma {:induction false} LimparAteNo(j: Janela, i: int, e: Elemento)
    requires 0 <= i <= 9 && e in j.nos
    ensures LimparAte(j, i).nos[e] == if 0 <= Ordem(e) < i then Limpo(j.nos[e]) else j.nos[e]
    decreases i
  {
    if i > 0 {
      LimparAteNo(j, i - 1, e);
      var b := Navegacao(i - 1);
      OrdemNavegacao(i - 1);
      LimparBotaoNo(LimparAte(j, i - 1), b, e);
      assert e == b <==> Ordem(e) == i - 1;
    }
  }

  /** `Ordem` reads back the place `Navegacao` gives. */
  lemma OrdemNavegacao(k: int)
    requires 0 <= k < 9
    ensures Ordem(Navegacao(k)) == k
  {
  }

  /** The last step of `setActive`: the target, when present, gains the
      highlight. */
  function DestacarBotao(j: Janela, btn: Elemento): (r: Janela)
    ensures r.nos.Keys == j.nos.Keys
    ensures r.nomeUtilizador == j.nomeUtilizador && r.perfilUtilizador == j.perfilUtilizador
  {
    if btn in j.nos then j.(nos := j.nos[btn := Destacado(j.nos[btn])]) else j
  }

  /** The last step leaves every cleared node as `Apos` says. */
  lemma DestacarNo(j: Janela, l: Janela, btn: Elemento, e: Elemento)
    requires e in j.nos && l.nos.Keys == j.nos.Keys
    requires l.nos[e] == if NaNavegacao(e) then Limpo(j.nos[e]) else j.nos[e]
    ensures DestacarBotao(l, btn).nos[e] == Apos(j.nos[e], e, btn)
  {
  }

  /** `setActive`: clears the nine navigation buttons in turn, then
      highlights the target. */
  method SetActive(j: Janela, btn: Elemento) returns (r: Janela)
    ensures r.nos.Keys == j.nos.Keys
    ensures r.nomeUtilizador == j.nomeUtilizador && r.perfilUtilizador == j.perfilUtilizador
    ensures forall e :: e in j.nos ==> r.nos[e] == Activado(j, btn).nos[e]
  {
    r := j;
    var i := 0;
    while i < 9
      invariant 0 <= i <= 9
      invariant r == LimparAte(j, i)
    {
      r := LimparBotao(r, Navegacao(i));
      i := i + 1;
    }
    ghost var limpo := r;
    r := DestacarBotao(r, btn);
    forall e | e in j.nos
      ensures r.nos[e] == Activado(j, btn).nos[e]
    {
      LimparAteNo(j, i, e);
      DestacarNo(j, limpo, btn, e);
    }
  }
}

=== FILE: notificacao.dfy ===
/** The display window of a notification (`isVisivelAgora`, declared alike
    on the entity `Notificacao` and on `NotificacaoDTO`) and the entity's
    defaults. */
module NotificacaoEntidade {
  import opened Base
  import opened Entities

  /** `isVisivelAgora` over the two optional bounds, written as the source
      tests them: not before the start, not after the end. */
  function VisivelAgora(inicio: Option<Instante>, fim: Option<Instante>, agora: Instante): (b: bool)
    ensures b <==> (inicio.None? || inicio.value <= agora) && (fim.None? || agora <= fim.value)
  {
    if inicio.Some? && agora < inicio.value then false
    else if fim.Some? && agora > fim.value then false
    else true
  }

  /** `Notificacao.isVisivelAgora`. */
  function IsVisivelAgora(n: Notificacao, agora: Instante): (b: bool)
    ensures n.dataInicioExibicao.None? && n.dataFimExibicao.None? ==> b
    ensures n.dataInicioExibicao.Some? && agora < n.dataInicioExibicao.value ==> !b
    ensures n.dataFimExibicao.Some? && agora > n.dataFimExibicao.value ==> !b
    ensures n.dataInicioExibicao == Some(agora) && (n.dataFimExibicao.None? || agora <= n.dataFimExibicao.value) ==> b
    ensures n.dataFimExibicao == Some(agora) && (n.dataInicioExibicao.None? || n.dataInicioExibicao.value <= agora) ==> b
  {
    VisivelAgora(n.dataInicioExibicao, n.dataFimExibicao, agora)
  }

  /** A window whose start is after its end shows the notification at no
      instant. */
  lemma JanelaInvertidaNuncaVisivel(n: Notificacao, agora: Instante)
    requires n.dataInicioExibicao.Some? && n.dataFimExibicao.Some?
    requires n.dataInicioExibicao.value > n.dataFimExibicao.value
    ensures !IsVisivelAgora(n, agora)
  {
  }

  /** A new notification as the entity's field defaults make it: unread,
      created now, no event and no display window. */
  function Nova(id: nat, destinatario: int, tipo: TipoNotificacao, conteudo: string,
                canal: Option<string>, agora: Instante): (n: Notificacao)
    ensures !n.lida && n.dataCriacao == agora
    ensures n.id == id && n.destinatario == destinatario && n.tipo == tipo
            && n.conteudo == conteudo && n.canal == canal
    ensures forall t: Instante :: IsVisivelAgora(n, t)
  {
    Notificacao(id, destinatario, None, tipo, conteudo, canal, false, agora, None, None)
  }
}

=== FILE: notificacao_dto.dfy ===
/** `NotificacaoDTO`, with its own copy of `isVisivelAgora`. */
module NotificacaoDto {
  import opened Base
  import opened Entities
  import NotificacaoEntidade

  datatype NotificacaoDto = NotificacaoDto(
    id: Option<int>,
    destinatarioNumero: Option<int>,
    eventoId: Option<int>,
    tipo: Option<TipoNotificacao>,
    conteudo: Option<string>,
    canal: Option<string>,
    lida: bool,
    dataCriacao: Option<Instante>,
    dataInicioExibicao: Option<Instante>,
    dataFimExibicao: Option<Instante>)

  /** `NotificacaoDTO.isVisivelAgora`: the same test as the entity's. */
  function IsVisivelAgora(d: NotificacaoDto, agora: Instante): (b: bool)
    ensures d.dataInicioExibicao.None? && d.dataFimExibicao.None? ==> b
    ensures d.dataInicioExibicao.Some? && agora < d.dataInicioExibicao.value ==> !b
    ensures d.dataFimExibicao.Some? && agora > d.dataFimExibicao.value ==> !b
  {
    NotificacaoEntidade.VisivelAgora(d.dataInicioExibicao, d.dataFimExibicao, agora)
  }

  /** For equal bounds the DTO and the entity always agree. */
  lemma ConcordaComEntidade(d: NotificacaoDto, n: Notificacao, agora: Instante)
    requires d.dataInicioExibicao == n.dataInicioExibicao && d.dataFimExibicao == n.dataFimExibicao
    ensures IsVisivelAgora(d, agora) == NotificacaoEntidade.IsVisivelAgora(n, agora)
  {
  }

  /** The service's `toDTO`. It copies neither display bound, so the DTO
      it builds is visible at every instant, whatever the entity's
      window. */
  function DaEntidade(n: Notificacao): (d: NotificacaoDto)
    ensures && d.id == Some(n.id) && d.destinatarioNumero == Some(n.destinatario)
            && d.tipo == Some(n.tipo) && d.conteudo == Some(n.conteudo) && d.canal == n.canal
            && d.lida == n.lida && d.dataCriacao == Some(n.dataCriacao)
    ensures (d.eventoId.Some? <==> n.evento.Some?) && (n.evento.Some? ==> d.eventoId == Some(n.evento.value))
    ensures forall t: Instante :: IsVisivelAgora(d, t)
  {
    NotificacaoDto(Some(n.id), Some(n.destinatario),
                   match n.evento case Some(e) => Some(e) case None => None,
                   Some(n.tipo), Some(n.conteudo), n.canal, n.lida, Some(n.dataCriacao), None, None)
  }
}

=== FILE: notificacao_service.dfy ===
/** `NotificacaoService`: marking a notification as read and the broadcast
    announcement to every active user. */
module NotificacaoService {
  import opened Base
  import opened Tables
  import opened Entities
  import opened Repositories
  import NotificacaoEntidade
  import NotificacaoDto

  /** `marcarComoLida`: an unknown id fails; otherwise only that
      notification's `lida` becomes true. */
  function MarcarComoLida(st: Store, id: nat): (r: Result<(Store, NotificacaoDto.NotificacaoDto)>)
    ensures r.Err? <==> FindNotificacao(st.notificacoes, id).None?
    ensures r.Err? ==> r.error == NotificacaoNaoEncontrada
    ensures r.Ok? ==>
      var k := FindNotificacao(st.notificacoes, id).value;
      && r.value.0 == st.(notificacoes := st.notificacoes[k := st.notificacoes[k].(lida := true)])
      && r.value.1.lida && r.value.1.id == Some(id)
  {
    var k :- Need(FindNotificacao(st.notificacoes, id), NotificacaoNaoEncontrada);
    var n := st.notificacoes[k].(lida := true);
    Ok((st.(notificacoes := st.notificacoes[k := n]), NotificacaoDto.DaEntidade(n)))
  }

  /** Marking as read twice is the same as once. */
  lemma MarcarComoLidaIdempotente(st: Store, id: nat)
    requires MarcarComoLida(st, id).Ok?
    ensures MarcarComoLida(MarcarComoLida(st, id).value.0, id).Ok?
    ensures MarcarComoLida(MarcarComoLida(st, id).value.0, id).value.0 == MarcarComoLida(st, id).value.0
  {
    var k := FindNotificacao(st.notificacoes, id).value;
    var st' := MarcarComoLida(st, id).value.0;
    assert forall j :: 0 <= j < k ==> st'.notificacoes[j] == st.notificacoes[j];
    FirstIndexEm(st'.notificacoes, NotificacaoComId(id), k);
  }

  /** The announcement one active user receives. */
  predicate Anuncio(n: Notificacao, destinatario: int, conteudo: string, agora: Instante) {
    && n.destinatario == destinatario && n.tipo == ANUNCIO && n.conteudo == conteudo
    && n.canal == Some("SISTEMA") && !n.lida && n.dataCriacao == agora
    && n.evento.None? && n.dataInicioExibicao.None? && n.dataFimExibicao.None?
  }

  /** One turn of the broadcast loop keeps the rows before it and adds the
      announcement for the next recipient. */
  lemma PassoAnuncio(base: seq<Notificacao>, ns: seq<Notificacao>, ds: seq<Utilizador>, i: nat,
                     n: Notificacao, conteudo: string, agora: Instante)
    requires |ns| == |base| + i && i < |ds| && ns[..|base|] == base
    requires forall j :: 0 <= j < i ==> Anuncio(ns[|base| + j], ds[j].numero, conteudo, agora)
    requires Anuncio(n, ds[i].numero, conteudo, agora)
    ensures (ns + [n])[..|base|] == base
    ensures forall j :: 0 <= j < i + 1 ==> Anuncio((ns + [n])[|base| + j], ds[j].numero, conteudo, agora)
  {
    assert (ns + [n])[..|base|] == ns[..|base|];
  }

  /** Some active user has this number. */
  predicate UtilizadorAtivo(us: seq<Utilizador>, numero: int) {
    exists k :: 0 <= k < |us| && us[k].ativo && us[k].numero == numero
  }

  /** Every notification past `base` is addressed to an active user. */
  predicate ParaAtivos(us: seq<Utilizador>, ns: seq<Notificacao>, base: nat) {
    forall j :: base <= j < |ns| ==> UtilizadorAtivo(us, ns[j].destinatario)
  }

  /** Announcements addressed to active users of `us`, one per recipient,
      go to active users only. */
  lemma AnunciosParaAtivos(us: seq<Utilizador>, ds: seq<Utilizador>, base: nat, ns: seq<Notificacao>,
                           conteudo: string, agora: Instante)
    requires |ns| == base + |ds|
    requires forall i :: 0 <= i < |ds| ==> ds[i] in us && ds[i].ativo
    requires forall i :: 0 <= i < |ds| ==> Anuncio(ns[base + i], ds[i].numero, conteudo, agora)
    ensures ParaAtivos(us, ns, base)
  {
    forall j | base <= j < |ns|
      ensures UtilizadorAtivo(us, ns[j].destinatario)
    {
      var i := j - base;
      assert Anuncio(ns[base + i], ds[i].numero, conteudo, agora);
      assert ds[i] in us;
      var k :| 0 <= k < |us| && us[k] == ds[i];
      assert us[k].ativo && us[k].numero == ns[j].destinatario;
    }
  }

  /** `enviarAnuncioBroadcast`: one announcement per active user, in table
      order, and their number. The content may be null: with no active user
      nothing is saved and the count is 0, but otherwise the first save
      violates the NOT NULL content column and the transaction rolls back. */
  method EnviarAnuncioBroadcast(st: Store, conteudo: Option<string>, agora: Instante)
    returns (r: Result<(Store, int)>)
    ensures r.Err? <==> conteudo.None? && Count(st.utilizadores, Ativo()) > 0
    ensures r.Err? ==> r.error == ViolacaoNaoNulo
    ensures r.Ok? ==>
      var st' := r.value.0;
      && r.value.1 == Count(st.utilizadores, Ativo())
      && st' == st.(notificacoes := st'.notificacoes)
      && |st'.notificacoes| == |st.notificacoes| + r.value.1
      && st'.notificacoes[..|st.notificacoes|] == st.notificacoes
      && ParaAtivos(st.utilizadores, st'.notificacoes, |st.notificacoes|)
      && (UniqueIds(st.notificacoes, NotificacaoId()) ==> UniqueIds(st'.notificacoes, NotificacaoId()))
    ensures r.Ok? && conteudo.Some? ==> forall j :: 0 <= j < r.value.1 ==>
      Anuncio(r.value.0.notificacoes[|st.notificacoes| + j], Filter(st.utilizadores, Ativo())[j].numero,
              conteudo.value, agora)
  {
    var destinatarios := Filter(st.utilizadores, Ativo());
    if conteudo.None? {
      if |destinatarios| > 0 {
        return Err(ViolacaoNaoNulo);
      }
      assert st.notificacoes[..|st.notificacoes|] == st.notificacoes;
      return Ok((st, 0));
    }
    var ns := Anunciar(st.notificacoes, destinatarios, conteudo.value, agora);
    AnunciosParaAtivos(st.utilizadores, destinatarios, |st.notificacoes|, ns, conteudo.value, agora);
    r := Ok((st.(notificacoes := ns), |destinatarios|));
  }

  /** The loop of `enviarAnuncioBroadcast`: one announcement per recipient,
      in order, each under a fresh id. */
  method Anunciar(base: seq<Notificacao>, ds: seq<Utilizador>, conteudo: string, agora: Instante)
    returns (ns: seq<Notificacao>)
    ensures |ns| == |base| + |ds|
    ensures ns[..|base|] == base
    ensures forall j :: 0 <= j < |ds| ==> Anuncio(ns[|base| + j], ds[j].numero, conteudo, agora)
    ensures UniqueIds(base, NotificacaoId()) ==> UniqueIds(ns, NotificacaoId())
  {
    ns := base;
    var i := 0;
    while i < |ds|
      invariant 0 <= i <= |ds|
      invariant |ns| == |base| + i
      invariant ns[..|base|] == base
      invariant forall j :: 0 <= j < i ==> Anuncio(ns[|base| + j], ds[j].numero, conteudo, agora)
      invariant UniqueIds(base, NotificacaoId()) ==> UniqueIds(ns, NotificacaoId())
    {
      var n := NotificacaoEntidade.Nova(NextId(ns, NotificacaoId()), ds[i].numero, ANUNCIO, conteudo,
                                        Some("SISTEMA"), agora);
      if UniqueIds(base, NotificacaoId()) {
        UniqueIdsAppend(ns, n, NotificacaoId());
      }
      PassoAnuncio(base, ns, ds, i, n, conteudo, agora);
      ns := ns + [n];
      i := i + 1;
    }
  }
}

=== FILE: repositories.dfy ===
/** The repository queries the services call, each as a function over the
    store's tables. A derived query method's name is its meaning; these
    definitions spell that meaning out. */
module Repositories {
  import opened Base
  import opened Tables
  import opened Entities

  // ---------------------------------------------------------------------
  // Row conditions, named so that every query and lemma uses the same term

  function EventoComId(id: nat): Evento -> bool {
    (e: Evento) => e.id == id
  }

  function InscricaoComId(id: nat): Inscricao -> bool {
    (i: Inscricao) => i.id == id
  }

  function DoEvento(evento: nat): Inscricao -> bool {
    (i: Inscricao) => i.evento == evento
  }

  function DoEventoComEstado(evento: nat, estado: EstadoInscricao): Inscricao -> bool {
    (i: Inscricao) => i.evento == evento && i.estado == estado
  }

  function DoEventoComCheckin(evento: nat): Inscricao -> bool {
    (i: Inscricao) => i.evento == evento && i.checkIn
  }

  function ComCheckin(): Inscricao -> bool {
    (i: Inscricao) => i.checkIn
  }

  function DoEventoEUtilizador(evento: nat, numero: int): Inscricao -> bool {
    (i: Inscricao) => i.evento == evento && i.utilizador == numero
  }

  function ComToken(token: string): Inscricao -> bool {
    (i: Inscricao) => i.qrCodeCheckin == Some(token)
  }

  function NaFilaDe(evento: nat): ListaEspera -> bool {
    (le: ListaEspera) => le.evento == evento
  }

  function DaInscricao(inscricao: nat): Certificado -> bool {
    (c: Certificado) => c.inscricao == inscricao
  }

  function ComCodigo(codigo: string): Certificado -> bool {
    (c: Certificado) => c.codigoVerificacao == codigo
  }

  function ComNumero(numero: int): Utilizador -> bool {
    (u: Utilizador) => u.numero == numero
  }

  function ComEmail(email: Option<string>): Utilizador -> bool {
    (u: Utilizador) => u.email == email
  }

  function Ativo(): Utilizador -> bool {
    (u: Utilizador) => u.ativo
  }

  function ComEstado(estado: EstadoInscricao): Inscricao -> bool {
    (i: Inscricao) => i.estado == estado
  }

  function NotificacaoComId(id: nat): Notificacao -> bool {
    (n: Notificacao) => n.id == id
  }

  function EventoId(): Evento -> nat { (e: Evento) => e.id }
  function InscricaoId(): Inscricao -> nat { (i: Inscricao) => i.id }
  function ListaEsperaId(): ListaEspera -> nat { (le: ListaEspera) => le.id }
  function CertificadoId(): Certificado -> nat { (c: Certificado) => c.id }
  function NotificacaoId(): Notificacao -> nat { (n: Notificacao) => n.id }

  /** Notifications addressed to someone other than the user `numero`. */
  function NaoPara(numero: int): Notificacao -> bool {
    (n: Notificacao) => n.destinatario != numero
  }

  // ---------------------------------------------------------------------
  // Queries

  /** `InscricaoRepository.countByEventoIdAndEstado`. */
  function CountByEventoIdAndEstado(s: seq<Inscricao>, evento: nat, estado: EstadoInscricao): (n: nat)
    ensures n <= Count(s, DoEvento(evento))
  {
    CountMonotone(s, DoEventoComEstado(evento, estado), DoEvento(evento));
    Count(s, DoEventoComEstado(evento, estado))
  }

  /** Registrations of the event that are ATIVA: the count that capacity is
      measured against. */
  function Ativas(s: seq<Inscricao>, evento: nat): nat {
    CountByEventoIdAndEstado(s, evento, ATIVA)
  }

  /** `InscricaoRepository.findByQrCodeCheckin`: the registration holding
      exactly this token. */
  function FindByQrCodeCheckin(s: seq<Inscricao>, token: string): (r: Option<nat>)
    ensures r.Some? ==> r.value < |s| && s[r.value].qrCodeCheckin == Some(token)
    ensures r.Some? ==> forall k :: 0 <= k < r.value ==> s[k].qrCodeCheckin != Some(token)
    ensures r.None? ==> forall k :: 0 <= k < |s| ==> s[k].qrCodeCheckin != Some(token)
  {
    FirstIndex(s, ComToken(token))
  }

  /** `InscricaoRepository.findByEventoIdAndCheckInTrue`, in table order. */
  function FindByEventoIdAndCheckInTrue(s: seq<Inscricao>, evento: nat): (r: seq<Inscricao>)
    ensures forall k :: 0 <= k < |r| ==> r[k] in s && r[k].evento == evento && r[k].checkIn
    ensures forall k :: 0 <= k < |s| && s[k].evento == evento && s[k].checkIn ==> s[k] in r
  {
    Filter(s, DoEventoComCheckin(evento))
  }

  /** `CertificadoRepository.existsByInscricaoId`. */
  function ExistsByInscricaoId(s: seq<Certificado>, inscricao: nat): (b: bool)
    ensures b <==> exists k :: 0 <= k < |s| && s[k].inscricao == inscricao
  {
    FirstIndex(s, DaInscricao(inscricao)).Some?
  }

  /** `findById` on the event table. */
  function FindEvento(s: seq<Evento>, id: nat): (r: Option<nat>)
    ensures r.Some? ==> r.value < |s| && s[r.value].id == id
    ensures r.None? ==> forall k :: 0 <= k < |s| ==> s[k].id != id
  {
    FirstIndex(s, EventoComId(id))
  }

  /** `findById` on the registration table. */
  function FindInscricao(s: seq<Inscricao>, id: nat): (r: Option<nat>)
    ensures r.Some? ==> r.value < |s| && s[r.value].id == id
    ensures r.None? ==> forall k :: 0 <= k < |s| ==> s[k].id != id
  {
    FirstIndex(s, InscricaoComId(id))
  }

  /** `findById` on the user table. */
  function FindUtilizador(s: seq<Utilizador>, numero: int): (r: Option<nat>)
    ensures r.Some? ==> r.value < |s| && s[r.value].numero == numero
    ensures r.None? ==> forall k :: 0 <= k < |s| ==> s[k].numero != numero
  {
    FirstIndex(s, ComNumero(numero))
  }

  /** `UtilizadorRepository.findByEmail`; a null email matches users
      without one. */
  function FindByEmail(s: seq<Utilizador>, email: Option<string>): (r: Option<nat>)
    ensures r.Some? ==> r.value < |s| && s[r.value].email == email
    ensures r.None? ==> forall k :: 0 <= k < |s| ==> s[k].email != email
  {
    FirstIndex(s, ComEmail(email))
  }

  /** `findById` on the notification table. */
  function FindNotificacao(s: seq<Notificacao>, id: nat): (r: Option<nat>)
    ensures r.Some? ==> r.value < |s| && s[r.value].id == id
    ensures r.None? ==> forall k :: 0 <= k < |s| ==> s[k].id != id
  {
    FirstIndex(s, NotificacaoComId(id))
  }

  /** `CertificadoRepository.findByCodigoVerificacao`. */
  function FindByCodigoVerificacao(s: seq<Certificado>, codigo: string): (r: Option<nat>)
    ensures r.Some? ==> r.value < |s| && s[r.value].codigoVerificacao == codigo
    ensures r.None? ==> forall k :: 0 <= k < |s| ==> s[k].codigoVerificacao != codigo
  {
    FirstIndex(s, ComCodigo(codigo))
  }

  /** `ListaEsperaRepository.findFirstByEventoIdOrderByPosicaoAsc`: an entry
      of the event whose position is minimal. Positions need not be
      distinct; among equal ones this picks the earliest row, and callers
      rely only on minimality. */
  function FindFirstByEventoIdOrderByPosicaoAsc(s: seq<ListaEspera>, evento: nat): (r: Option<nat>)
    ensures r.None? <==> forall k :: 0 <= k < |s| ==> s[k].evento != evento
    ensures r.Some? ==> r.value < |s| && s[r.value].evento == evento
    ensures r.Some? ==> forall k :: 0 <= k < |s| && s[k].evento == evento ==> s[r.value].posicao <= s[k].posicao
    decreases |s|
  {
    if |s| == 0 then None
    else
      var last := |s| - 1;
      var rest := FindFirstByEventoIdOrderByPosicaoAsc(s[..last], evento);
      if s[last].evento != evento then rest
      else if rest.None? || s[last].posicao < s[rest.value].posicao then Some(last)
      else rest
  }

  /** The event with this id, when there is one. */
  function EventoDe(s: seq<Evento>, id: nat): (r: Option<Evento>)
    ensures r.Some? <==> FindEvento(s, id).Some?
    ensures r.Some? ==> r.value == s[FindEvento(s, id).value] && r.value.id == id
  {
    match FindEvento(s, id)
    case Some(k) => Some(s[k])
    case None => None
  }

  /** The registration with this id, when there is one. */
  function InscricaoDe(s: seq<Inscricao>, id: nat): (r: Option<Inscricao>)
    ensures r.Some? <==> FindInscricao(s, id).Some?
    ensures r.Some? ==> r.value == s[FindInscricao(s, id).value] && r.value.id == id
  {
    match FindInscricao(s, id)
    case Some(k) => Some(s[k])
    case None => None
  }

  /** Whether the user has any registration for the event, whatever its
      state. */
  function TemInscricao(s: seq<Inscricao>, evento: nat, numero: int): (b: bool)
    ensures b <==> exists k :: 0 <= k < |s| && s[k].evento == evento && s[k].utilizador == numero
  {
    FirstIndex(s, DoEventoEUtilizador(evento, numero)).Some?
  }

  /** Whether a user with this number exists. */
  function ExisteUtilizador(s: seq<Utilizador>, numero: int): (b: bool)
    ensures b <==> exists k :: 0 <= k < |s| && s[k].numero == numero
  {
    FindUtilizador(s, numero).Some?
  }
}

=== FILE: tables.dfy ===
/** A repository table is a sequence of records in the order the repository
    returns them. This module holds the generic queries the repositories
    derive from method names (`findBy…`, `countBy…`, `existsBy…`) and the
    facts about how they change when a row is added, replaced or deleted. */
module Tables {
  import opened Base

  /** Number of rows satisfying `p` (`countBy…`). */
  function Count<T>(s: seq<T>, p: T -> bool): (n: nat)
    ensures n <= |s|
    decreases |s|
  {
    if |s| == 0 then 0 else Count(s[..|s| - 1], p) + (if p(s[|s| - 1]) then 1 else 0)
  }

  /** The rows satisfying `p`, in table order (`findBy…` returning a list). */
  function Filter<T(==)>(s: seq<T>, p: T -> bool): (r: seq<T>)
    ensures |r| == Count(s, p)
    ensures forall k :: 0 <= k < |r| ==> r[k] in s && p(r[k])
    ensures forall k :: 0 <= k < |s| && p(s[k]) ==> s[k] in r
    decreases |s|
  {
    if |s| == 0 then []
    else Filter(s[..|s| - 1], p) + (if p(s[|s| - 1]) then [s[|s| - 1]] else [])
  }

  /** Index of the first row satisfying `p` (`findBy…` returning an
      Optional, or `findById`). */
  function FirstIndex<T>(s: seq<T>, p: T -> bool): (r: Option<nat>)
    ensures r.Some? ==> r.value < |s| && p(s[r.value])
    ensures r.Some? ==> forall k :: 0 <= k < r.value ==> !p(s[k])
    ensures r.None? ==> forall k :: 0 <= k < |s| ==> !p(s[k])
    decreases |s|
  {
    if |s| == 0 then None
    else if p(s[0]) then Some(0)
    else
      match FirstIndex(s[1..], p)
      case None => None
      case Some(k) => Some(k + 1)
  }

  /** `existsBy…`. */
  predicate Exists<T>(s: seq<T>, p: T -> bool) {
    exists k :: 0 <= k < |s| && p(s[k])
  }

  /** An identity value no row uses yet: one above the largest. */
  function NextId<T>(s: seq<T>, id: T -> nat): (r: nat)
    ensures forall k :: 0 <= k < |s| ==> id(s[k]) < r
    decreases |s|
  {
    if |s| == 0 then 1
    else
      var rest := NextId(s[..|s| - 1], id);
      assert forall k :: 0 <= k < |s| - 1 ==> s[..|s| - 1][k] == s[k];
      if id(s[|s| - 1]) < rest then rest else id(s[|s| - 1]) + 1
  }

  /** Row ids are pairwise distinct (a primary key). */
  predicate UniqueIds<T>(s: seq<T>, id: T -> nat) {
    forall j, k :: 0 <= j < k < |s| ==> id(s[j]) != id(s[k])
  }

  /** Deleting the row at index `i`. */
  function RemoveAt<T>(s: seq<T>, i: nat): (r: seq<T>)
    requires i < |s|
    ensures |r| == |s| - 1
    ensures forall k :: 0 <= k < i ==> r[k] == s[k]
    ensures forall k :: i <= k < |r| ==> r[k] == s[k + 1]
  {
    s[..i] + s[i + 1..]
  }

  /** Deleting past the head keeps the head. */
  lemma RemoveAtCabeca<T>(s: seq<T>, i: nat)
    requires i + 1 < |s|
    ensures RemoveAt(s, i + 1) == [s[0]] + RemoveAt(s[1..], i)
  {
    assert s[..i + 1] == [s[0]] + s[1..][..i];
    assert s[i + 2..] == s[1..][i + 1..];
  }

  // ---------------------------------------------------------------------
  // How counts change

  lemma CountAppend<T>(s: seq<T>, x: T, p: T -> bool)
    ensures Count(s + [x], p) == Count(s, p) + (if p(x) then 1 else 0)
  {
    assert (s + [x])[..|s|] == s;
  }

  lemma {:induction false} CountUpdate<T>(s: seq<T>, i: nat, x: T, p: T -> bool)
    requires i < |s|
    ensures Count(s[i := x], p) == Count(s, p) - (if p(s[i]) then 1 else 0) + (if p(x) then 1 else 0)
    decreases |s|
  {
    var t := s[i := x];
    if i == |s| - 1 {
      assert t[..|t| - 1] == s[..|s| - 1];
    } else {
      assert t[..|t| - 1] == s[..|s| - 1][i := x];
      CountUpdate(s[..|s| - 1], i, x, p);
    }
  }

  lemma {:induction false} CountRemoveAt<T>(s: seq<T>, i: nat, p: T -> bool)
    requires i < |s|
    ensures Count(RemoveAt(s, i), p) == Count(s, p) - (if p(s[i]) then 1 else 0)
    decreases |s|
  {
    var r := RemoveAt(s, i);
    if i == |s| - 1 {
      assert r == s[..|s| - 1];
    } else {
      assert r[..|r| - 1] == RemoveAt(s[..|s| - 1], i);
      CountRemoveAt(s[..|s| - 1], i, p);
    }
  }

  /** Rows for which `p` and `q` agree are counted alike. */
  lemma {:induction false} CountSame<T>(s: seq<T>, p: T -> bool, q: T -> bool)
    requires forall k :: 0 <= k < |s| ==> p(s[k]) == q(s[k])
    ensures Count(s, p) == Count(s, q)
    decreases |s|
  {
    if |s| > 0 {
      CountSame(s[..|s| - 1], p, q);
    }
  }

  /** The rows meeting one of two disjoint conditions are the rows meeting
      the first plus the rows meeting the second. */
  lemma {:induction false} CountDisjoint<T>(s: seq<T>, p: T -> bool, q: T -> bool, both: T -> bool)
    requires forall k :: 0 <= k < |s| ==> !(p(s[k]) && q(s[k]))
    requires forall k :: 0 <= k < |s| ==> both(s[k]) == (p(s[k]) || q(s[k]))
    ensures Count(s, p) + Count(s, q) == Count(s, both)
    decreases |s|
  {
    if |s| > 0 {
      CountDisjoint(s[..|s| - 1], p, q, both);
    }
  }

  /** A condition implied by another is counted at least as often. */
  lemma {:induction false} CountMonotone<T>(s: seq<T>, p: T -> bool, q: T -> bool)
    requires forall k :: 0 <= k < |s| ==> p(s[k]) ==> q(s[k])
    ensures Count(s, p) <= Count(s, q)
    decreases |s|
  {
    if |s| > 0 {
      CountMonotone(s[..|s| - 1], p, q);
    }
  }

  lemma {:induction false} CountPositive<T>(s: seq<T>, p: T -> bool, i: nat)
    requires i < |s| && p(s[i])
    ensures Count(s, p) > 0
    decreases |s|
  {
    if i < |s| - 1 {
      CountPositive(s[..|s| - 1], p, i);
    }
  }

  lemma {:induction false} CountZero<T>(s: seq<T>, p: T -> bool)
    requires Count(s, p) == 0
    ensures forall k :: 0 <= k < |s| ==> !p(s[k])
  {
    forall k | 0 <= k < |s|
      ensures !p(s[k])
    {
      if p(s[k]) {
        CountPositive(s, p, k);
      }
    }
  }

  /** No row meeting `p` means a count of zero. */
  lemma {:induction false} CountNone<T>(s: seq<T>, p: T -> bool)
    requires forall k :: 0 <= k < |s| ==> !p(s[k])
    ensures Count(s, p) == 0
    decreases |s|
  {
    if |s| > 0 {
      CountNone(s[..|s| - 1], p);
    }
  }

  lemma {:induction false} CountConcat<T>(a: seq<T>, b: seq<T>, p: T -> bool)
    ensures Count(a + b, p) == Count(a, p) + Count(b, p)
    decreases |b|
  {
    if |b| == 0 {
      assert a + b == a;
    } else {
      assert (a + b)[..|a + b| - 1] == a + b[..|b| - 1];
      CountConcat(a, b[..|b| - 1], p);
    }
  }

  /** Counting `q` among the rows `p` selects is counting the rows meeting
      both. */
  lemma {:induction false} CountFilter<T>(s: seq<T>, p: T -> bool, q: T -> bool, pq: T -> bool)
    requires forall k :: 0 <= k < |s| ==> pq(s[k]) == (p(s[k]) && q(s[k]))
    ensures Count(Filter(s, p), q) == Count(s, pq)
    decreases |s|
  {
    if |s| > 0 {
      var n := |s| - 1;
      var cauda := if p(s[n]) then [s[n]] else [];
      assert Filter(s, p) == Filter(s[..n], p) + cauda;
      CountFilter(s[..n], p, q, pq);
      CountConcat(Filter(s[..n], p), cauda, q);
      if p(s[n]) {
        CountUnit(s[n], q);
      }
    }
  }

  lemma CountUnit<T>(x: T, p: T -> bool)
    ensures Count([x], p) == if p(x) then 1 else 0
  {
    assert [x][..0] == [];
  }

  /** The condition every row meets. */
  function Todos<T>(): T -> bool {
    (x: T) => true
  }

  /** Every row meets the always-true condition. */
  lemma {:induction false} CountTodos<T>(s: seq<T>)
    ensures Count(s, Todos()) == |s|
    decreases |s|
  {
    if |s| > 0 {
      CountTodos(s[..|s| - 1]);
    }
  }

  /** A row appended under `NextId` keeps the ids distinct. */
  lemma UniqueIdsAppend<T>(s: seq<T>, x: T, id: T -> nat)
    requires UniqueIds(s, id) && id(x) == NextId(s, id)
    ensures UniqueIds(s + [x], id)
  {
    forall j, k | 0 <= j < k < |s + [x]|
      ensures id((s + [x])[j]) != id((s + [x])[k])
    {
      if k == |s| {
        assert (s + [x])[j] == s[j];
      } else {
        assert (s + [x])[j] == s[j] && (s + [x])[k] == s[k];
      }
    }
  }

  /** The first row meeting `p` is at `k` when `k` meets it and no row
      before does. */
  lemma FirstIndexEm<T>(s: seq<T>, p: T -> bool, k: nat)
    requires k < |s| && p(s[k])
    requires forall j :: 0 <= j < k ==> !p(s[j])
    ensures FirstIndex(s, p) == Some(k)
  {
  }

  /** Filtering a concatenation filters each part and keeps them in order. */
  lemma {:induction false} FilterConcat<T>(a: seq<T>, b: seq<T>, p: T -> bool)
    ensures Filter(a + b, p) == Filter(a, p) + Filter(b, p)
    decreases |b|
  {
    if |b| == 0 {
      assert a + b == a;
    } else {
      assert (a + b)[..|a + b| - 1] == a + b[..|b| - 1];
      FilterConcat(a, b[..|b| - 1], p);
    }
  }
}

=== FILE: text.dfy ===
/** The string operations of the Java runtime the services rely on:
    `String.isBlank`, `Integer.toString` of a non-negative id, and the
    canonical text of a `java.util.UUID`. */
module Text {

  /** `Character.isWhitespace`: the Unicode space, line and paragraph
      separators other than the three non-breaking spaces, plus the ASCII
      controls TAB, LF, VT, FF, CR and FS, GS, RS, US. */
  predicate IsWhitespace(c: char) {
    var n := c as int;
    || n == 0x20 || (0x09 <= n <= 0x0D) || (0x1C <= n <= 0x1F)
    || n == 0x1680 || (0x2000 <= n <= 0x2006) || (0x2008 <= n <= 0x200A)
    || n == 0x2028 || n == 0x2029 || n == 0x205F || n == 0x3000
  }

  /** `String.isBlank`: empty, or white space only. */
  predicate IsBlank(s: string) {
    forall k :: 0 <= k < |s| ==> IsWhitespace(s[k])
  }

  // ---------------------------------------------------------------------
  // Decimal digits

  predicate IsDigit(c: char) {
    '0' <= c <= '9'
  }

  predicate AllDigits(s: string) {
    forall k :: 0 <= k < |s| ==> IsDigit(s[k])
  }

  function DigitChar(d: nat): (c: char)
    requires d < 10
    ensures IsDigit(c)
    ensures c as int - '0' as int == d
  {
    (d + '0' as int) as char
  }

  function DigitValue(c: char): (d: nat)
    requires IsDigit(c)
    ensures d < 10
    ensures DigitChar(d) == c
  {
    c as int - '0' as int
  }

  /** `Integer.toString` of a non-negative number: decimal, no sign, no
      leading zeros. */
  function NatToString(n: nat): (s: string)
    decreases n
  {
    if n < 10 then [DigitChar(n)] else NatToString(n / 10) + [DigitChar(n % 10)]
  }

  /** Reads a run of decimal digits back as a number. */
  function ParseNat(s: string): nat
    requires AllDigits(s)
  {
    if |s| == 0 then 0 else 10 * ParseNat(s[..|s| - 1]) + DigitValue(s[|s| - 1])
  }

  lemma {:induction false} NatToStringDigits(n: nat)
    ensures |NatToString(n)| > 0
    ensures AllDigits(NatToString(n))
    decreases n
  {
    if n >= 10 {
      NatToStringDigits(n / 10);
    }
  }

  /** Rendering a number in decimal and reading it back gives the number. */
  lemma {:induction false} ParseNatToString(n: nat)
    ensures AllDigits(NatToString(n))
    ensures ParseNat(NatToString(n)) == n
    decreases n
  {
    NatToStringDigits(n);
    var s := NatToString(n);
    if n >= 10 {
      ParseNatToString(n / 10);
      assert s[..|s| - 1] == NatToString(n / 10);
      assert DigitValue(s[|s| - 1]) == n % 10;
    } else {
      assert s[..0] == [];
    }
  }

  /** The longest prefix of `s` made of decimal digits. */
  function DigitPrefix(s: string): (p: string)
    ensures |p| <= |s| && p == s[..|p|]
    ensures AllDigits(p)
    ensures |p| < |s| ==> !IsDigit(s[|p|])
  {
    if |s| == 0 || !IsDigit(s[0]) then [] else [s[0]] + DigitPrefix(s[1..])
  }

  lemma {:induction false} DigitPrefixOf(a: string, b: string)
    requires AllDigits(a)
    requires |b| > 0 && !IsDigit(b[0])
    ensures DigitPrefix(a + b) == a
    decreases |a|
  {
    if |a| == 0 {
      assert a + b == b;
    } else {
      assert (a + b)[1..] == a[1..] + b;
      DigitPrefixOf(a[1..], b);
      assert [a[0]] + a[1..] == a;
    }
  }

  // ---------------------------------------------------------------------
  // UUIDs

  predicate IsLowerHex(c: char) {
    ('0' <= c <= '9') || ('a' <= c <= 'f')
  }

  predicate IsUpperHex(c: char) {
    ('0' <= c <= '9') || ('A' <= c <= 'F')
  }

  /** Positions of the four dashes in `UUID.toString`'s 8-4-4-4-12 layout. */
  predicate IsDashPosition(k: int) {
    k == 8 || k == 13 || k == 18 || k == 23
  }

  /** The text `UUID.toString` produces: 36 characters, dashes at the four
      group boundaries and lower-case hexadecimal digits elsewhere. */
  predicate IsCanonicalUuid(s: string) {
    && |s| == 36
    && (forall k :: 0 <= k < 36 && IsDashPosition(k) ==> s[k] == '-')
    && (forall k :: 0 <= k < 36 && !IsDashPosition(k) ==> IsLowerHex(s[k]))
  }

  /** The value of `UUID.randomUUID().toString()`, supplied from outside the
      model. */
  type Uuid = s: string | IsCanonicalUuid(s)
    witness "00000000-0000-0000-0000-000000000000"

  /** `replace("-", "")`. */
  function RemoveDashes(s: string): (r: string)
    ensures |r| <= |s|
    ensures forall k :: 0 <= k < |r| ==> r[k] != '-'
  {
    if |s| == 0 then []
    else if s[0] == '-' then RemoveDashes(s[1..])
    else [s[0]] + RemoveDashes(s[1..])
  }

  lemma {:induction false} RemoveDashesAppend(a: string, b: string)
    ensures RemoveDashes(a + b) == RemoveDashes(a) + RemoveDashes(b)
    decreases |a|
  {
    if |a| == 0 {
      assert a + b == b;
    } else {
      assert (a + b)[1..] == a[1..] + b;
      RemoveDashesAppend(a[1..], b);
    }
  }

  lemma {:induction false} RemoveDashesNone(s: string)
    requires forall k :: 0 <= k < |s| ==> s[k] != '-'
    ensures RemoveDashes(s) == s
    decreases |s|
  {
    if |s| > 0 {
      RemoveDashesNone(s[1..]);
      assert [s[0]] + s[1..] == s;
    }
  }

  /** `Character.toUpperCase` restricted to what a hexadecimal digit needs. */
  function UpperChar(c: char): (u: char)
    ensures IsLowerHex(c) ==> IsUpperHex(u)
  {
    if 'a' <= c <= 'z' then (c as int - 'a' as int + 'A' as int) as char else c
  }

  /** `String.toUpperCase` on the characters this model upper-cases. */
  function ToUpper(s: string): (r: string)
    ensures |r| == |s|
    ensures forall k :: 0 <= k < |s| ==> r[k] == UpperChar(s[k])
  {
    seq(|s|, k requires 0 <= k < |s| => UpperChar(s[k]))
  }

  /** One more dash-led group of digits adds just its digits. */
  lemma RemoveDashesGrupo(a: string, g: string)
    requires forall k :: 0 <= k < |g| ==> g[k] != '-'
    ensures RemoveDashes(a + "-" + g) == RemoveDashes(a) + g
  {
    var d := "-";
    assert RemoveDashes(d) == RemoveDashes(d[1..]) && d[1..] == [];
    RemoveDashesAppend(a, d);
    RemoveDashesAppend(a + d, g);
    RemoveDashesNone(g);
  }

  /** Dropping the dashes of a UUID leaves its 32 hexadecimal digits, group
      after group. */
  lemma UuidDigits(u: Uuid)
    ensures RemoveDashes(u) == u[..8] + u[9..13] + u[14..18] + u[19..23] + u[24..]
  {
    var g1, g2, g3, g4, g5 := u[..8], u[9..13], u[14..18], u[19..23], u[24..];
    assert forall k :: 0 <= k < |g2| ==> g2[k] == u[9 + k];
    assert forall k :: 0 <= k < |g3| ==> g3[k] == u[14 + k];
    assert forall k :: 0 <= k < |g4| ==> g4[k] == u[19 + k];
    assert forall k :: 0 <= k < |g5| ==> g5[k] == u[24 + k];
    var a2 := g1 + "-" + g2;
    var a3 := a2 + "-" + g3;
    var a4 := a3 + "-" + g4;
    var a5 := a4 + "-" + g5;
    assert u == a5;
    RemoveDashesNone(g1);
    RemoveDashesGrupo(g1, g2);
    RemoveDashesGrupo(a2, g3);
    RemoveDashesGrupo(a3, g4);
    RemoveDashesGrupo(a4, g5);
  }
}

=== FILE: tipo_certificado.dfy ===
/** The certificate tiers (`TipoCertificado`): each carries a readable
    description and an authority level; a higher level means a certificate
    of more weight. */
module TipoCertificado {
  import opened Base

  datatype Tipo = PRESENCA | DOCENTE | ORGANIZADOR

  /** `getDescricao`: the description given to the enum constant. */
  function Descricao(t: Tipo): (d: string)
    ensures t == PRESENCA ==> d == "Certificado de Presença"
    ensures t == DOCENTE ==> d == "Certificado de Participação (Docente)"
    ensures t == ORGANIZADOR ==> d == "Certificado de Participação (Organizador)"
  {
    match t
    case PRESENCA => "Certificado de Presença"
    case DOCENTE => "Certificado de Participação (Docente)"
    case ORGANIZADOR => "Certificado de Participação (Organizador)"
  }

  /** `getNivelAutoridade`: the authority level given to the enum constant. */
  function NivelAutoridade(t: Tipo): (n: int)
    ensures t == PRESENCA ==> n == 1
    ensures t == DOCENTE ==> n == 2
    ensures t == ORGANIZADOR ==> n == 2
  {
    match t
    case PRESENCA => 1
    case DOCENTE => 2
    case ORGANIZADOR => 2
  }

  /** `name()`: the constant's identifier. */
  function Name(t: Tipo): string {
    match t
    case PRESENCA => "PRESENCA"
    case DOCENTE => "DOCENTE"
    case ORGANIZADOR => "ORGANIZADOR"
  }

  /** `TipoCertificado.valueOf`: the constant whose identifier is exactly
      `s`; any other string (the Java method throws) gives None. */
  function ValueOf(s: string): (r: Option<Tipo>)
    ensures r.Some? ==> Name(r.value) == s
    ensures r.None? ==> forall t: Tipo :: Name(t) != s
  {
    if s == "PRESENCA" then Some(PRESENCA)
    else if s == "DOCENTE" then Some(DOCENTE)
    else if s == "ORGANIZADOR" then Some(ORGANIZADOR)
    else None
  }

  /** `valueOf` is the inverse of `name`. */
  lemma ValueOfName(t: Tipo)
    ensures ValueOf(Name(t)) == Some(t)
  {
  }

  /** PRESENCA ranks strictly below the two other tiers, which tie. */
  lemma NiveisOrdenados()
    ensures NivelAutoridade(PRESENCA) < NivelAutoridade(DOCENTE)
    ensures NivelAutoridade(PRESENCA) < NivelAutoridade(ORGANIZADOR)
    ensures NivelAutoridade(DOCENTE) == NivelAutoridade(ORGANIZADOR)
    ensures forall t: Tipo :: NivelAutoridade(PRESENCA) <= NivelAutoridade(t)
  {
  }
}

=== FILE: user_session.dfy ===
/** The client's `UserSession`: one lazily created session holding the
    logged-in user, or none. */
module UserSession {
  import opened Base
  import AuthService

  /** A session; `user` None is the null field. */
  datatype Sessao = Sessao(user: Option<AuthService.LoginResposta>)

  /** The static `instance` field of the class. */
  datatype Runtime = Runtime(instance: Option<Sessao>)

  /** `getInstance`: creates an empty session the first time and returns
      the stored one afterwards. */
  function GetInstance(rt: Runtime): (r: (Runtime, Sessao))
    ensures r.0.instance == Some(r.1)
    ensures rt.instance.Some? ==> r.0 == rt && r.1 == rt.instance.value
    ensures rt.instance.None? ==> r.1.user.None?
  {
    match rt.instance
    case Some(s) => (rt, s)
    case None => (Runtime(Some(Sessao(None))), Sessao(None))
  }

  /** Every later call returns the object the first call returned. */
  lemma GetInstanceEstavel(rt: Runtime)
    ensures GetInstance(GetInstance(rt).0) == GetInstance(rt)
  {
  }

  /** `login`: stores the user given, which Java lets be null. */
  function Login(s: Sessao, user: Option<AuthService.LoginResposta>): (r: Sessao)
    ensures GetUser(r) == user
  {
    Sessao(user)
  }

  /** `logout`. */
  function Logout(s: Sessao): (r: Sessao)
    ensures !IsLoggedIn(r) && GetUser(r).None?
  {
    Sessao(None)
  }

  function GetUser(s: Sessao): (r: Option<AuthService.LoginResposta>)
    ensures r == s.user
  {
    s.user
  }

  /** `isLoggedIn`: a user is stored. */
  predicate IsLoggedIn(s: Sessao) {
    s.user.Some?
  }

  /** `UserSession.getInstance().login(user)`: the call changes the one
      shared object, so the stored session now holds the user. */
  function LoginRt(rt: Runtime, user: Option<AuthService.LoginResposta>): (r: Runtime)
    ensures GetUser(GetInstance(r).1) == user
    ensures IsLoggedIn(GetInstance(r).1) <==> user.Some?
    ensures GetInstance(r).0 == r
  {
    Runtime(Some(Login(GetInstance(rt).1, user)))
  }

  /** `UserSession.getInstance().logout()`, as the logout button calls it. */
  function LogoutRt(rt: Runtime): (r: Runtime)
    ensures !IsLoggedIn(GetInstance(r).1) && GetUser(GetInstance(r).1).None?
    ensures GetInstance(r).0 == r
  {
    Runtime(Some(Logout(GetInstance(rt).1)))
  }

  /** Every later `getInstance` sees the last login or logout: the user a
      login stored is read back until a logout, and after it nobody is
      logged in, whatever the singleton held before. */
  lemma SessaoPartilhada(rt: Runtime, u: AuthService.LoginResposta)
    ensures IsLoggedIn(GetInstance(LoginRt(rt, Some(u))).1)
    ensures GetUser(GetInstance(GetInstance(LoginRt(rt, Some(u))).0).1) == Some(u)
    ensures !IsLoggedIn(GetInstance(LogoutRt(LoginRt(rt, Some(u)))).1)
    ensures LoginRt(rt, None) == LogoutRt(rt)
  {
    GetInstanceEstavel(LoginRt(rt, Some(u)));
  }

  /** Logging in with a user logs in, whatever the session held; logging in
      with null is the same as logging out. */
  lemma LoginLogout(s: Sessao, u: AuthService.LoginResposta)
    ensures IsLoggedIn(Login(s, Some(u))) && GetUser(Login(s, Some(u))) == Some(u)
    ensures Login(s, None) == Logout(s)
    ensures !IsLoggedIn(Logout(Login(s, Some(u))))
  {
  }
}

=== FILE: utilizador_service.dfy ===
/** `UtilizadorService`: creating, updating, activating and deleting users.
    The user table's key is the institutional number; the schema also
    makes the email unique and the name, email and profile NOT NULL, and
    those constraints fire when a row is saved. The password encoder is a
    parameter. */
module UtilizadorService {
  import opened Base
  import opened Text
  import opened Tables
  import opened Entities
  import opened Repositories

  /** `UtilizadorCreateDTO`: every field may be null. */
  datatype UtilizadorDados = UtilizadorDados(
    numero: Option<int>,
    nome: Option<string>,
    email: Option<string>,
    perfil: Option<Perfil>,
    ativo: Option<bool>,
    password: Option<string>)

  /** Numbers and emails are pairwise distinct across the table. */
  predicate Unicos(s: seq<Utilizador>) {
    forall i, j :: 0 <= i < j < |s| ==> s[i].numero != s[j].numero && s[i].email != s[j].email
  }

  /** The NOT NULL columns are filled in. */
  predicate Gravavel(u: Utilizador) {
    u.nome.Some? && u.email.Some? && u.perfil.Some?
  }

  /** A password the service accepts: present and not blank. */
  predicate PasswordValida(p: Option<string>) {
    p.Some? && !IsBlank(p.value)
  }

  /** `criar`. Checked in order: a missing number, a missing or blank
      password, a number already taken, an email already taken; then the
      NOT NULL columns at save. The new user is active unless the data say
      otherwise and stores the encoded password. */
  function Criar(st: Store, d: UtilizadorDados, encode: string -> string): (r: Result<(Store, Utilizador)>)
    ensures d.numero.None? ==> r == Err(NumeroObrigatorio)
    ensures d.numero.Some? && !PasswordValida(d.password) ==> r == Err(PasswordObrigatoria)
    ensures d.numero.Some? && PasswordValida(d.password) && ExisteUtilizador(st.utilizadores, d.numero.value) ==>
      r == Err(NumeroDuplicado)
    ensures && d.numero.Some? && PasswordValida(d.password) && !ExisteUtilizador(st.utilizadores, d.numero.value)
            && FindByEmail(st.utilizadores, d.email).Some? ==>
      r == Err(EmailDuplicado)
    ensures r.Ok? <==> && d.numero.Some? && PasswordValida(d.password)
                       && !ExisteUtilizador(st.utilizadores, d.numero.value)
                       && FindByEmail(st.utilizadores, d.email).None?
                       && d.nome.Some? && d.email.Some? && d.perfil.Some?
    ensures r.Ok? ==>
      var (st', u) := r.value;
      && st' == st.(utilizadores := st.utilizadores + [u])
      && u.numero == d.numero.value && u.nome == d.nome && u.email == d.email && u.perfil == d.perfil
      && u.ativo == (d.ativo != Some(false))
      && u.passwordHash == encode(d.password.value)
    ensures r.Ok? && Unicos(st.utilizadores) ==> Unicos(r.value.0.utilizadores)
  {
    if d.numero.None? then Err(NumeroObrigatorio)
    else if !PasswordValida(d.password) then Err(PasswordObrigatoria)
    else if ExisteUtilizador(st.utilizadores, d.numero.value) then Err(NumeroDuplicado)
    else if FindByEmail(st.utilizadores, d.email).Some? then Err(EmailDuplicado)
    else
      var u := Utilizador(d.numero.value, d.nome, d.email, d.perfil, d.ativo.GetOr(true), encode(d.password.value));
      if !Gravavel(u) then Err(ViolacaoNaoNulo)
      else Ok((st.(utilizadores := st.utilizadores + [u]), u))
  }

  /** The user at `k` replaced by `u`, as a save does: the NOT NULL columns
      are checked, then the email's uniqueness against every other row. */
  function Gravar(st: Store, k: nat, u: Utilizador): (r: Result<Store>)
    requires k < |st.utilizadores|
    ensures r.Ok? <==> Gravavel(u) && forall j :: 0 <= j < |st.utilizadores| && j != k ==> st.utilizadores[j].email != u.email
    ensures !Gravavel(u) ==> r == Err(ViolacaoNaoNulo)
    ensures Gravavel(u) && r.Err? ==> r.error == ViolacaoUnicidade
    ensures r.Ok? ==> r.value == st.(utilizadores := st.utilizadores[k := u])
    ensures r.Ok? && Unicos(st.utilizadores) && u.numero == st.utilizadores[k].numero ==>
      Unicos(r.value.utilizadores)
  {
    if !Gravavel(u) then Err(ViolacaoNaoNulo)
    else if exists j :: 0 <= j < |st.utilizadores| && j != k && st.utilizadores[j].email == u.email then Err(ViolacaoUnicidade)
    else Ok(st.(utilizadores := st.utilizadores[k := u]))
  }

  /** `atualizar`. An unknown number fails. Each of name, email, profile and
      active flag is overwritten only when supplied, and the password is
      re-encoded only when supplied and not blank. The service itself does
      not check the new email; the unique constraint does at save. */
  function Atualizar(st: Store, numero: int, d: UtilizadorDados, encode: string -> string): (r: Result<(Store, Utilizador)>)
    ensures FindUtilizador(st.utilizadores, numero).None? ==> r == Err(UtilizadorNaoEncontrado)
    ensures FindUtilizador(st.utilizadores, numero).Some? && r.Err? ==>
      r.error == ViolacaoNaoNulo || r.error == ViolacaoUnicidade
    ensures r.Ok? ==>
      var k := FindUtilizador(st.utilizadores, numero).value;
      var antigo := st.utilizadores[k];
      var u := r.value.1;
      && r.value.0 == st.(utilizadores := st.utilizadores[k := u])
      && u.numero == numero
      && u.nome == (if d.nome.Some? then d.nome else antigo.nome)
      && u.email == (if d.email.Some? then d.email else antigo.email)
      && u.perfil == (if d.perfil.Some? then d.perfil else antigo.perfil)
      && u.ativo == (if d.ativo.Some? then d.ativo.value else antigo.ativo)
      && u.passwordHash == (if PasswordValida(d.password) then encode(d.password.value) else antigo.passwordHash)
    ensures r.Ok? && Unicos(st.utilizadores) ==> Unicos(r.value.0.utilizadores)
  {
    match FindUtilizador(st.utilizadores, numero)
    case None => Err(UtilizadorNaoEncontrado)
    case Some(k) =>
      var a := st.utilizadores[k];
      var u := a.(nome := if d.nome.Some? then d.nome else a.nome,
                  email := if d.email.Some? then d.email else a.email,
                  perfil := if d.perfil.Some? then d.perfil else a.perfil,
                  ativo := d.ativo.GetOr(a.ativo),
                  passwordHash := if PasswordValida(d.password) then encode(d.password.value) else a.passwordHash);
      match Gravar(st, k, u)
      case Err(e) => Err(e)
      case Ok(st') => Ok((st', u))
  }

  /** `alterarEstadoAtivo`: an unknown number fails; otherwise only the
      active flag changes. */
  function AlterarEstadoAtivo(st: Store, numero: int, ativo: bool): (r: Result<(Store, Utilizador)>)
    ensures r.Err? <==> FindUtilizador(st.utilizadores, numero).None?
    ensures r.Err? ==> r.error == UtilizadorNaoEncontrado
    ensures r.Ok? ==>
      var k := FindUtilizador(st.utilizadores, numero).value;
      && r.value.1 == st.utilizadores[k].(ativo := ativo)
      && r.value.0 == st.(utilizadores := st.utilizadores[k := r.value.1])
    ensures r.Ok? && Unicos(st.utilizadores) ==> Unicos(r.value.0.utilizadores)
  {
    var k :- Need(FindUtilizador(st.utilizadores, numero), UtilizadorNaoEncontrado);
    var u := st.utilizadores[k].(ativo := ativo);
    Ok((st.(utilizadores := st.utilizadores[k := u]), u))
  }

  /** `apagar`: an unknown number fails; otherwise that user's row is
      deleted, every other row stays, and the cascade on the user's
      notifications deletes those addressed to them. */
  function Apagar(st: Store, numero: int): (r: Result<Store>)
    ensures r.Err? <==> !ExisteUtilizador(st.utilizadores, numero)
    ensures r.Err? ==> r.error == UtilizadorNaoEncontrado
    ensures r.Ok? ==>
      && r.value == st.(utilizadores := r.value.utilizadores, notificacoes := r.value.notificacoes)
      && |r.value.utilizadores| == |st.utilizadores| - 1
      && (forall k :: 0 <= k < |st.utilizadores| && st.utilizadores[k].numero != numero ==>
            st.utilizadores[k] in r.value.utilizadores)
    ensures r.Ok? ==> forall n :: n in r.value.notificacoes <==> n in st.notificacoes && n.destinatario != numero
    ensures r.Ok? && Unicos(st.utilizadores) ==>
      && Unicos(r.value.utilizadores)
      && !ExisteUtilizador(r.value.utilizadores, numero)
  {
    var k :- Need(FindUtilizador(st.utilizadores, numero), UtilizadorNaoEncontrado);
    var s' := RemoveAt(st.utilizadores, k);
    ApagarMantemOutros(st.utilizadores, k);
    var ns := Filter(st.notificacoes, NaoPara(numero));
    ApagarNotificacoes(st.notificacoes, numero);
    Ok(st.(utilizadores := s', notificacoes := ns))
  }

  /** The cascade keeps exactly the notifications addressed to someone
      else. */
  lemma ApagarNotificacoes(s: seq<Notificacao>, numero: int)
    ensures forall n :: n in Filter(s, NaoPara(numero)) <==> n in s && n.destinatario != numero
  {
    var r := Filter(s, NaoPara(numero));
    forall n | n in s && n.destinatario != numero
      ensures n in r
    {
      var k :| 0 <= k < |s| && s[k] == n;
      assert NaoPara(numero)(s[k]);
    }
    forall n | n in r
      ensures n in s && n.destinatario != numero
    {
      var k :| 0 <= k < |r| && r[k] == n;
      assert NaoPara(numero)(r[k]);
    }
  }

  /** Deleting the row at `k` keeps every other row, and keeps the table
      unique; in a unique table no other row has the deleted number. */
  lemma ApagarMantemOutros(s: seq<Utilizador>, k: nat)
    requires k < |s|
    ensures forall j :: 0 <= j < |s| && s[j].numero != s[k].numero ==> s[j] in RemoveAt(s, k)
    ensures Unicos(s) ==> Unicos(RemoveAt(s, k)) && forall j :: 0 <= j < |RemoveAt(s, k)| ==> RemoveAt(s, k)[j].numero != s[k].numero
  {
    var r := RemoveAt(s, k);
    forall j | 0 <= j < |s| && s[j].numero != s[k].numero
      ensures s[j] in r
    {
      if j < k { assert r[j] == s[j]; } else { assert r[j - 1] == s[j]; }
    }
    if Unicos(s) {
      forall i, j | 0 <= i < j < |r|
        ensures r[i].numero != r[j].numero && r[i].email != r[j].email
      {
        var i' := if i < k then i else i + 1;
        var j' := if j < k then j else j + 1;
        assert r[i] == s[i'] && r[j] == s[j'] && i' < j';
      }
      forall j | 0 <= j < |r|
        ensures r[j].numero != s[k].numero
      {
        var j' := if j < k then j else j + 1;
        assert r[j] == s[j'] && j' != k;
      }
    }
  }
}
